=== FILE: README.md ===
# TrendLingo web interface — a Dafny model of its deterministic core

The web interface drives browser-use agents from a chat and from a
node-based workflow canvas. It turns each agent step into typed reasoning
fragments, analyses them in batches with Gemini, and stores them in a Neo4j
knowledge graph that a 3D "pooled reasoning" view displays. Everything
around the foreign calls (Gemini, Neo4j, the browser-use SDK) is
deterministic, and this project models and proves that part.

| module | file | models |
|---|---|---|
| `Text` | text.dfy | the JavaScript string built-ins the code relies on: `trim`, `\s`, `split(/\s+/)`, `replace(/\s+/g, …)`, `join`, `substring`, ASCII `toLowerCase`, `String(n)` |
| `Options` | options.dfy | an optional value: a missing field, or a lookup that finds nothing |
| `Seqs` | seqs.dfy | `Array.prototype.filter`, `Array.prototype.map` and order-preserving subsequences |
| `Store` | store.dfy | the zustand application store: messages, current and active sessions, UI flags |
| `FlowGraph` | flow_graph.dfy | canvas nodes and edges, and the cycle-safe depth-first walk both prompt builders use |
| `WorkflowInterface` | workflow_interface.dfy | `generatePromptFromNodes`, node numbering, and the blank-prompt guard of `runWorkflow` |
| `WorkflowUtils` | workflow_utils.dfy | `detectNodeStrands` (connected components with an explicit stack, root choice, strand names) and `generatePromptFromStrand` |
| `LlmService` | llm_service.dfy | the keyword fallback, reply clean-up, index-aligned batch mapping, fixed-window rate limiter, batching request queue and the relationship size guard |
| `KnowledgeGraph` | knowledge_graph.dfy | fragment extraction from an agent step, per-fragment processing that never stops the loop, and the guarded relationship pass |
| `Neo4jFold` | neo4j_fold.dfy | concept ids, and the folding of `(rf, r, other)` records into first-wins node lists and edge lists, for the session and the pooled graph |
| `PooledView` | pooled_view.dfy | the pooled view's subgraph filter, node sizes and node colours |

Foreign calls are parameters:
- The Gemini reply is an `Option<string>`, where `None` means the call threw.
- `JSON.parse` is a function returning `None` when it throws.
- The clock readings are integers: `Date.now()` before the call, and after a rate-limit sleep. An ingest takes a `clock` function giving the pair of readings for each analysis and for the relationship pass.
- The analysis, semantic vector and Neo4j write of a fragment form an `Oracles` record.
- The outcome of each relationship write is a predicate.

The record sets Neo4j returns are sequences of rows.

## Model

| member | source | states |
|---|---|---|
| Text.Trim | web-interface/src/lib/knowledge-graph-service.ts:97 | `trim` returns the slice `s[i..j]` whose outside parts `s[..i]` and `s[j..]` are all whitespace and whose ends are not; it is "" exactly for an all-whitespace string |
| Text.TrimIdempotent | web-interface/src/components/WorkflowInterface.tsx:135-136 | trimming an already trimmed text changes nothing |
| Text.PresentIsNonEmptyTrim | web-interface/src/lib/knowledge-graph-service.ts:97 | the guard `s && s.trim()` holds exactly for a present string that is not all whitespace |
| Text.SplitWsCuts | web-interface/src/lib/llm-service.ts:399 | the tokens of `split(/\s+/)` and the runs between them cut the input at its maximal whitespace runs: woven back together they give the input, every run is non-empty whitespace, no token holds whitespace, and only the first and last token may be empty |
| Text.CutsUnique | web-interface/src/lib/llm-service.ts:399 | there is only one cut of a string at its maximal whitespace runs |
| Text.SplitWsIsTheCut | web-interface/src/lib/llm-service.ts:399 | any cut at the maximal whitespace runs has exactly the tokens `split(/\s+/)` returns |
| Text.SplitWsConcat | web-interface/src/lib/llm-service.ts:399 | splitting loses exactly the whitespace: the tokens glued together are the input's non-whitespace characters in order |
| Text.Take | web-interface/src/lib/llm-service.ts:409 | `substring(0, n)` is the longest prefix of whole characters that fits in n UTF-16 code units, and the whole string when it fits |
| Text.TakeBmp | web-interface/src/lib/llm-service.ts:409 | on text without surrogate pairs, `substring(0, n)` is the first n characters, or all of them when there are fewer |
| Text.ReplaceSpaceRunsIsSplitJoin | web-interface/src/lib/neo4j-service.ts:149 | `replace(/\s+/g, rep)` equals splitting at whitespace runs and joining with `rep` |
| Text.ReplaceEachSpaceRun | web-interface/src/lib/neo4j-service.ts:149 | the replacement keeps the text between the maximal whitespace runs and puts exactly one `rep` in place of each run |
| Text.JoinWeaves | web-interface/src/components/WorkflowInterface.tsx:151 | `xs.join(sep)` is the elements in order with one `sep` between each neighbouring pair |
| Text.ReplaceSpaceRunsNoSpace | web-interface/src/lib/neo4j-service.ts:149 | a string without whitespace is left alone by the replacement |
| Text.NatToStringRoundTrip | web-interface/src/lib/workflow-utils.ts:72 | reading the decimal rendering of a number back gives the number |
| Text.NatToStringInjective | web-interface/src/lib/workflow-utils.ts:72 | distinct numbers render differently |
| Text.IndexOf | web-interface/src/lib/llm-service.ts:210 | the first occurrence of a character, or none exactly when it does not occur |
| Text.LastIndexOf | web-interface/src/lib/llm-service.ts:210 | the last occurrence of a character, or none exactly when it does not occur |
| Seqs.Filter | web-interface/src/lib/store.ts:76 | `filter` keeps exactly the elements that pass and never lengthens |
| Seqs.FilterEmbedding | web-interface/src/lib/store.ts:76 | the survivors are an order-preserving subsequence, and every passing position is kept |
| Seqs.FilterIdempotent | web-interface/src/lib/store.ts:76 | filtering twice with the same test is filtering once |
| Seqs.FilterAppend | web-interface/src/lib/store.ts:76 | filtering distributes over concatenation |
| Store.Apply | web-interface/src/lib/store.ts:65 | `{ ...s, ...updates }`: each of the eight fields is the update's value when the update has the key, and the session's value otherwise |
| Store.ApplyMerge | web-interface/src/lib/store.ts:65 | two updates applied in a row are the single update in which the later one's keys win |
| Store.ApplyIdempotent | web-interface/src/lib/store.ts:65 | applying the same update twice is applying it once |
| Store.AddMessage | web-interface/src/lib/store.ts:42-51 | appends exactly one message with the given id and time; earlier messages and every other field are unchanged |
| Store.SetLoading | web-interface/src/lib/store.ts:53 | sets the loading flag and nothing else |
| Store.SetCurrentSession | web-interface/src/lib/store.ts:55-60 | a session always leaves the live browser shown; `null` leaves the flag alone; nothing else changes |
| Store.UpdateSession | web-interface/src/lib/store.ts:62-72 | only sessions with the id are patched, the current session only if its id matches, and nothing else changes |
| Store.UpdateSessionIdempotent | web-interface/src/lib/store.ts:62-72 | an update that does not change the id can be repeated without effect |
| Store.UpdateSessionNoChange | web-interface/src/lib/store.ts:62-72 | an empty update changes nothing |
| Store.Without | web-interface/src/lib/store.ts:76 | keeps exactly the sessions whose id differs |
| Store.AddSession | web-interface/src/lib/store.ts:74-78 | the new session is last, preceded by the old sessions without its id; nothing else changes |
| Store.AddSessionSpec | web-interface/src/lib/store.ts:74-78 | exactly one session has the id afterwards, and every other session keeps its relative order |
| Store.AddSessionIdempotent | web-interface/src/lib/store.ts:74-78 | adding the same session twice is adding it once |
| Store.RemoveSession | web-interface/src/lib/store.ts:80-86 | no session with the id remains; the current session is cleared and the browser hidden exactly when it had the id |
| Store.RemoveAfterAdd | web-interface/src/lib/store.ts:74-86 | removing right after adding leaves the same sessions as removing alone |
| Store.ToggleLiveBrowser | web-interface/src/lib/store.ts:88-90 | flips the browser flag and nothing else |
| Store.ToggleWorkflowMode | web-interface/src/lib/store.ts:110-112 | flips the workflow flag and nothing else |
| Store.SetWorkflowMode | web-interface/src/lib/store.ts:114 | sets the workflow flag and nothing else |
| Store.TogglesAreInvolutions | web-interface/src/lib/store.ts:88-90 | each toggle undoes itself (the workflow toggle at lines 110-112 as well) |
| Store.Find | web-interface/src/lib/store.ts:95 | `find` returns the first session with the id, or nothing exactly when none has it |
| Store.SelectSession | web-interface/src/lib/store.ts:92-100 | always records the selection; only the current session and browser flag may change besides |
| Store.SelectSessionSpec | web-interface/src/lib/store.ts:92-100 | when a non-empty id names an active session, the current session becomes the first such session and the browser opens; otherwise both are left alone |
| Store.SelectEmptyIdOnlyRecords | web-interface/src/lib/store.ts:94 | the empty id is falsy: selecting it only records it |
| Store.ClearChat | web-interface/src/lib/store.ts:102-106 | empties the messages, clears the current session, hides the browser, nothing else |
| Store.ClearMessages | web-interface/src/lib/store.ts:108 | empties the messages and nothing else |
| Store.ClearChatForgetsMessages | web-interface/src/lib/store.ts:102-106 | clearing after adding a message is the same as clearing |
| FlowGraph.Lookup | web-interface/src/lib/workflow-utils.ts:12 | the id map finds a node exactly for a node id, and the last node with that id wins |
| FlowGraph.OutTargetsInEdgeOrder | web-interface/src/components/WorkflowInterface.tsx:140-141 | the targets to walk are the targets of the edges leaving the node, in edge order, repeats included |
| FlowGraph.WalkPreorder | web-interface/src/components/WorkflowInterface.tsx:130-142 | `traverseNode(id)` appends exactly the depth-first preorder from `id` that follows the ids already visited: each new id is the first unvisited outgoing target of the latest visited id that still has one |
| FlowGraph.PreorderUnique | web-interface/src/components/WorkflowInterface.tsx:130-149 | there is only one depth-first preorder from given starts, so the walk's visit order is fully determined |
| FlowGraph.WalkAllPreorder | web-interface/src/components/WorkflowInterface.tsx:141 | walking the targets in turn appends exactly the depth-first preorder from that list of starts |
| FlowGraph.WalkFromScratch | web-interface/src/lib/workflow-utils.ts:88-101 | a fresh walk is the depth-first preorder from its start: it starts there, visits each id once, follows every outgoing edge, and reaches every id by an edge from an earlier one |
| FlowGraph.TextsEmbedding | web-interface/src/components/WorkflowInterface.tsx:134-137 | the collected texts are, in visit order, the trimmed text of every visited id whose node has a non-blank text, and of no other id |
| FlowGraph.TextsOfKept | web-interface/src/components/WorkflowInterface.tsx:134-137 | the collected texts are the trimmed texts of the visited ids filtered to those with a non-blank node text |
| FlowGraph.PromptContent | web-interface/src/components/WorkflowInterface.tsx:134-151 | the prompt is those trimmed texts, in visit order, joined by single spaces |
| FlowGraph.TextsEmpty | web-interface/src/components/WorkflowInterface.tsx:134-137 | nothing is collected exactly when no visited id names a node with a non-blank text |
| FlowGraph.JoinBlank | web-interface/src/components/WorkflowInterface.tsx:151 | joining non-empty trimmed texts with spaces is blank only when there is nothing to join |
| FlowGraph.PromptBlank | web-interface/src/components/WorkflowInterface.tsx:151 | a walk's prompt is blank exactly when no visited node has a non-blank text |
| WorkflowInterface.RootIdsInNodeOrder | web-interface/src/components/WorkflowInterface.tsx:127-128 | the roots are the ids of the nodes no edge enters, in node order, repeats included |
| WorkflowInterface.WalkRoots | web-interface/src/components/WorkflowInterface.tsx:148 | walking every root visits all of them, never repeats an id, and is closed under outgoing edges |
| WorkflowInterface.WalkRootsPreorder | web-interface/src/components/WorkflowInterface.tsx:148 | walking the roots in turn appends exactly the depth-first preorder from the root list |
| WorkflowInterface.VisitOrderIsTraversal | web-interface/src/components/WorkflowInterface.tsx:126-149 | the canvas traversal is the depth-first preorder from the roots (or the first node when there are none); it visits each id once and follows every edge, and it is empty exactly for an empty canvas |
| WorkflowInterface.GeneratePromptContent | web-interface/src/components/WorkflowInterface.tsx:121-152 | the canvas prompt is the trimmed non-blank node texts, in the depth-first preorder from the roots, joined by single spaces |
| WorkflowInterface.TraversalComplete | web-interface/src/components/WorkflowInterface.tsx:130-149 | every id an edge path from a start reaches is visited |
| WorkflowInterface.TraversalSound | web-interface/src/components/WorkflowInterface.tsx:130-149 | every visited id is reached by an edge path from a start |
| WorkflowInterface.VisitedIffReachable | web-interface/src/components/WorkflowInterface.tsx:126-149 | an id is visited exactly when an edge path from the roots (or the first node, when there are none) reaches it |
| WorkflowInterface.RunWorkflow | web-interface/src/components/WorkflowInterface.tsx:154-160 | a run only starts with the untrimmed generated prompt, and only when it is not blank |
| WorkflowInterface.RunRefusedIffNoText | web-interface/src/components/WorkflowInterface.tsx:154-160 | the run is refused exactly when no visited node has a non-blank text |
| WorkflowInterface.EmptyCanvasRefused | web-interface/src/components/WorkflowInterface.tsx:154-160 | an empty canvas never runs |
| WorkflowInterface.NextNodeNumberCountsTextNodes | web-interface/src/components/WorkflowInterface.tsx:91-94 | the next number is the number of text-prompt nodes plus one |
| WorkflowInterface.AddTextNode | web-interface/src/components/WorkflowInterface.tsx:96-119 | appends one empty text-prompt node numbered with the next number; the old nodes are kept |
| WorkflowInterface.AddTextNodeAdvances | web-interface/src/components/WorkflowInterface.tsx:91-119 | adding a text node raises the next number by exactly one |
| WorkflowInterface.OtherNodeKeepsNumber | web-interface/src/components/WorkflowInterface.tsx:91-94 | a node of another type does not change the next number |
| WorkflowUtils.Adjacent | web-interface/src/lib/workflow-utils.ts:22-25 | the endpoints offered to a node are exactly the far ends of the edges touching it, in either direction |
| WorkflowUtils.Dedupe | web-interface/src/lib/workflow-utils.ts:17-25 | a `Set` keeps each element once and loses none |
| WorkflowUtils.NeighborsSpec | web-interface/src/lib/workflow-utils.ts:17-25 | a node id's neighbours are the far ends of its edges; an id that is not a node has none |
| WorkflowUtils.NeighborsSymmetric | web-interface/src/lib/workflow-utils.ts:22-25 | between node ids, adjacency is symmetric |
| WorkflowUtils.PushNeighbors | web-interface/src/lib/workflow-utils.ts:42-48 | the stack grows only at its top, and every neighbour is visited or on the stack afterwards |
| WorkflowUtils.PopAndVisit | web-interface/src/lib/workflow-utils.ts:32-50 | one DFS round: the popped id becomes visited; a new node id joins the component; closure, paths and component invariants are kept |
| WorkflowUtils.FindConnectedComponent | web-interface/src/lib/workflow-utils.ts:28-54 | the component starts at the start node, holds each newly visited node once, every newly visited id is reachable from the start, and the visited set is closed under adjacency |
| WorkflowUtils.FirstWithout | web-interface/src/lib/workflow-utils.ts:69 | `find` returns the first member that no in-strand edge enters, or nothing exactly when every member is entered |
| WorkflowUtils.FindRoot | web-interface/src/lib/workflow-utils.ts:62-69 | the root is a member: the first one without an in-strand incoming edge, else the first member |
| WorkflowUtils.RootWithoutEdges | web-interface/src/lib/workflow-utils.ts:62-69 | a strand without in-strand edges is rooted at its first member |
| WorkflowUtils.StrandNamesDistinct | web-interface/src/lib/workflow-utils.ts:72 | distinct strand positions get distinct names |
| WorkflowUtils.NewStrand | web-interface/src/lib/workflow-utils.ts:57-76 | the component of an unvisited node becomes the next strand, named by its position, and partition, closure and connection facts are kept |
| WorkflowUtils.DetectNodeStrands | web-interface/src/lib/workflow-utils.ts:9-81 | no nodes give no strands; strands are named strand-1, strand-2, … in order; each is non-empty, connected, closed under adjacency and rooted by the rule; every node id is in exactly one strand; and each strand starts at the first node, in node order, that no earlier strand holds |
| WorkflowUtils.EdgeWithinStrand | web-interface/src/lib/workflow-utils.ts:17-25 | two nodes joined by an edge land in the same strand |
| WorkflowUtils.StrandEdges | web-interface/src/lib/workflow-utils.ts:98-100 | the strand prompt follows exactly the edges whose target is a member |
| WorkflowUtils.StrandWalk | web-interface/src/lib/workflow-utils.ts:83-104 | the strand walk is the depth-first preorder from the root over the edges into the strand: it starts at the root, visits each id once, stays inside the strand, and follows every in-strand edge out of a visited id |
| WorkflowUtils.StrandEdgesInOrder | web-interface/src/lib/workflow-utils.ts:98-100 | the strand walk follows the edges whose target is a member, in edge order |
| WorkflowUtils.StrandPromptContent | web-interface/src/lib/workflow-utils.ts:83-106 | the strand prompt is, in that preorder, the trimmed non-blank texts of the visited members joined by single spaces |
| WorkflowUtils.StrandPromptBlank | web-interface/src/lib/workflow-utils.ts:83-106 | the strand prompt is blank exactly when no visited member has a non-blank text |
| LlmService.KeywordsIsFilter | web-interface/src/lib/llm-service.ts:400-402 | the keywords are the tokens filtered, in order and with repeats, to those longer than three UTF-16 code units that are not stop words |
| LlmService.StopListIsRedundant | web-interface/src/lib/llm-service.ts:401-402 | every stop word is three characters without surrogate pairs, so a token is a keyword exactly when it is longer than three code units |
| LlmService.FallbackConcepts | web-interface/src/lib/llm-service.ts:399-403 | `slice(0, 5)` of the keyword filter: a prefix of the keywords of length min(5, their number), each a lower-cased whitespace-free token |
| LlmService.Fallback | web-interface/src/lib/llm-service.ts:397-412 | the fallback never fails: its concepts are the fallback concepts, it has no entities or links, the summary is the first 100 UTF-16 code units of whole characters plus "...", and the one key insight is "<kind> step focusing on: " followed by the concepts joined by ", " |
| LlmService.StripFenceNone | web-interface/src/lib/llm-service.ts:208 | text in which the marker never occurs passes through unchanged |
| LlmService.StripFenceFirst | web-interface/src/lib/llm-service.ts:208 | at the first occurrence of the marker, the text before it is kept and the removal resumes after the marker and the whitespace that follows it |
| LlmService.StripFencePrefix | web-interface/src/lib/llm-service.ts:208 | a prefix in which no occurrence of the marker starts is kept as it is |
| LlmService.StripFenceLeavesNoFence | web-interface/src/lib/llm-service.ts:208 | after the second replacement no fence is left anywhere in the text |
| LlmService.ExtractBraces | web-interface/src/lib/llm-service.ts:210-213 | with a `{`…`}` span the text becomes the span from the first `{` to the last `}`; otherwise it is kept |
| LlmService.CleanReply | web-interface/src/lib/llm-service.ts:207-213 | the cleaned reply holds no fence; with a `{`…`}` span in the unfenced text it is exactly the span from the first `{` to the last `}`, and otherwise it is the unfenced text |
| LlmService.FindAnalysis | web-interface/src/lib/llm-service.ts:221 | finds the first returned analysis claiming index i, or none exactly when none claims it |
| LlmService.MapAnalyses | web-interface/src/lib/llm-service.ts:219-233 | one result per fragment: the first analysis claiming its index, or its fallback |
| LlmService.UnmentionedFragmentFallsBack | web-interface/src/lib/llm-service.ts:219-233 | a fragment the reply never mentions gets its fallback |
| LlmService.EnforceRateLimit | web-interface/src/lib/llm-service.ts:247-266 | an expired window resets; at 12 the call waits out the rest of the window and restarts the count; otherwise the count rises by one; afterwards the count is in [1, 12] |
| LlmService.BurstWithinWindow | web-interface/src/lib/llm-service.ts:247-266 | calls that fit within the window's budget go through without waiting, one count each |
| LlmService.ThirteenthCallWaits | web-interface/src/lib/llm-service.ts:247-266 | twelve calls in a fresh window pass at once, and the thirteenth waits the whole window |
| LlmService.AnalyzeFragmentBatch | web-interface/src/lib/llm-service.ts:154-245 | charges the limiter once, returns exactly one analysis per fragment, and gives every fragment its fallback on a failed call or unparsable reply |
| LlmService.ProcessMegaBatch | web-interface/src/lib/llm-service.ts:67-101 | charges the limiter once; a failed call or unparsable reply yields an empty analyses array |
| LlmService.BeginBatch | web-interface/src/lib/llm-service.ts:119-125 | a no-op while a batch runs or the queue is empty; otherwise takes min(8, queue length) requests off the head and raises the flag |
| LlmService.ScheduleBatch | web-interface/src/lib/llm-service.ts:103-117 | below eight queued the timer is re-armed 1500 ms ahead; at eight or more the timer is disarmed and a full batch starts unless one is running |
| LlmService.TimerFires | web-interface/src/lib/llm-service.ts:108-125 | nothing happens before the deadline; at the deadline the timer is disarmed and `processBatch` runs: while a batch is running or the queue is empty nothing else changes, and otherwise the first min(8, n) queued requests are taken, in order, and the in-progress flag is raised |
| LlmService.AnalyzeReasoningFragment | web-interface/src/lib/llm-service.ts:53-65 | a mega-batch bypasses the queue exactly; any other fragment is appended to the queue, and a started batch is taken from its head |
| LlmService.CompleteBatch | web-interface/src/lib/llm-service.ts:119-152 | every taken request is resolved once, in order, with its slot of the batch analysis, and the limiter is charged once; then the flag drops and the queue is rescheduled at the completion time: one to seven waiting requests re-arm the timer 1500 ms ahead and start nothing, eight or more start a full batch of eight with the timer disarmed, and an empty queue leaves the timer alone |
| LlmService.DrainResolvesEachRequestOnce | web-interface/src/lib/llm-service.ts:119-152 | running the queue to completion resolves every queued request exactly once, in queue order |
| LlmService.FindFragmentRelationships | web-interface/src/lib/llm-service.ts:268-338 | fewer than 2 or more than 10 fragments give nothing without charging the limiter; failures give nothing; otherwise the parsed list is returned unfiltered |
| KnowledgeGraph.PresentActionsIsFilter | web-interface/src/lib/knowledge-graph-service.ts:145-147 | the action texts kept are the actions filtered to those present and not blank |
| KnowledgeGraph.PresentActionsEmbedding | web-interface/src/lib/knowledge-graph-service.ts:145-147 | every present, non-blank action is kept and no other, in their original order |
| KnowledgeGraph.ActionFragments | web-interface/src/lib/knowledge-graph-service.ts:145-161 | one action fragment per present action, in order, each carrying the step's facts |
| KnowledgeGraph.HeaderFragment | web-interface/src/lib/knowledge-graph-service.ts:97-110 | exactly one fragment when the field is present and not blank, carrying its untrimmed text, else none |
| KnowledgeGraph.Headers | web-interface/src/lib/knowledge-graph-service.ts:96-142 | the header fragments come in the order memory, evaluation, goal and carry the step's facts |
| KnowledgeGraph.ExtractFragmentsFromStep | web-interface/src/lib/knowledge-graph-service.ts:88-165 | every fragment carries the step's number, url, session and task, the clock reading, no concepts and no vector, and a non-blank text |
| KnowledgeGraph.ExtractSplit | web-interface/src/lib/knowledge-graph-service.ts:96-164 | the output is the header fragments followed by action fragments only |
| KnowledgeGraph.ExtractMemory | web-interface/src/lib/knowledge-graph-service.ts:97-110 | a memory fragment exists exactly when memory is present and not blank; it comes first and carries the untrimmed text |
| KnowledgeGraph.ExtractHeader | web-interface/src/lib/knowledge-graph-service.ts:97-142 | a header fragment of each kind exists exactly when its field is present and not blank, with the untrimmed text |
| KnowledgeGraph.ExtractEvaluation | web-interface/src/lib/knowledge-graph-service.ts:113-126 | an evaluation fragment exists exactly when the evaluation is present and not blank |
| KnowledgeGraph.ExtractGoal | web-interface/src/lib/knowledge-graph-service.ts:129-142 | a goal fragment exists exactly when the next goal is present and not blank |
| KnowledgeGraph.ExtractOrder | web-interface/src/lib/knowledge-graph-service.ts:96-164 | memory, evaluation and goal come first, in that order, each at most once; actions follow |
| KnowledgeGraph.ExtractActions | web-interface/src/lib/knowledge-graph-service.ts:145-161 | the action fragments carry exactly the present action texts, in order, and the count is one per present field plus one per present action |
| KnowledgeGraph.BlankEvaluationIsSkipped | web-interface/src/lib/knowledge-graph-service.ts:96-164 | memory, a blank evaluation, a goal and one action give exactly three fragments: memory, goal, action |
| KnowledgeGraph.AllFragments | web-interface/src/lib/knowledge-graph-service.ts:68-71 | every collected fragment carries the session and task ids |
| KnowledgeGraph.AllFragmentsAppend | web-interface/src/lib/knowledge-graph-service.ts:68-71 | the fragments of a step list are the per-step extractions concatenated in step order |
| KnowledgeGraph.ProcessFragment | web-interface/src/lib/knowledge-graph-service.ts:167-208 | a failed analysis changes nothing; a successful one caches the fragment with exactly the analysis's concepts, even when the Neo4j write then fails, and stores it when the write succeeds |
| KnowledgeGraph.ProcessedKeys | web-interface/src/lib/knowledge-graph-service.ts:74-76 | the cache gains exactly the ids of the fragments whose analysis succeeded |
| KnowledgeGraph.ProcessedUntouched | web-interface/src/lib/knowledge-graph-service.ts:187 | an entry no successful fragment targets keeps its value |
| KnowledgeGraph.ProcessedLastWriter | web-interface/src/lib/knowledge-graph-service.ts:183-187 | a successful fragment stays cached with its analysis unless a later successful fragment has its id |
| KnowledgeGraph.ProcessedStored | web-interface/src/lib/knowledge-graph-service.ts:204-207 | a failure on one fragment never stops the others: each fragment whose analysis and write succeed is stored |
| KnowledgeGraph.Written | web-interface/src/lib/knowledge-graph-service.ts:258-271 | keeps exactly the relationships whose write succeeds |
| KnowledgeGraph.CreateFragmentRelationships | web-interface/src/lib/knowledge-graph-service.ts:241-278 | fewer than two fragments return at once; otherwise every relationship found is attempted, and a failed write skips only itself |
| KnowledgeGraph.ProcessAgentStepsSpec | web-interface/src/lib/knowledge-graph-service.ts:57-86 | an ingest caches exactly the successfully analysed ids, stores every fragment whose analysis and write succeed, and attempts no relationship for fewer than two fragments |
| KnowledgeGraph.Charged | web-interface/src/lib/knowledge-graph-service.ts:74-76 | after the fragment analyses the rate limiter has counted at least one and at most twelve requests in its window, and is unchanged when there were none |
| KnowledgeGraph.ChargedIsBurst | web-interface/src/lib/knowledge-graph-service.ts:74-76 | analyses made at one instant charge the limiter like a burst of that many calls |
| KnowledgeGraph.IngestLimiter | web-interface/src/lib/knowledge-graph-service.ts:74-79 | the relationship request is admitted by the rate limiter as the fragment analyses left it, and a pass that never reaches the model leaves the limiter as the analyses left it |
| KnowledgeGraph.BusyWindowDelaysRelationships | web-interface/src/lib/knowledge-graph-service.ts:74-79 | two analyses in a window that already counted ten requests make the relationship request sleep out the window |
| KnowledgeGraph.LargeIngestSkipsRelationships | web-interface/src/lib/knowledge-graph-service.ts:57-86 | more than ten fragments never reach the model for relationships: nothing is attempted, and the limiter is left as the fragment analyses left it |
| Neo4jFold.Normalize | web-interface/src/lib/neo4j-service.ts:149 | the normalised name is the lower-cased name split at its whitespace runs and joined with `_`, and holds no whitespace |
| Neo4jFold.NormalizeRuns | web-interface/src/lib/neo4j-service.ts:149 | each maximal whitespace run of the lower-cased name becomes exactly one `_`, and the text between the runs is kept |
| Neo4jFold.ConceptId | web-interface/src/lib/neo4j-service.ts:149 | a concept id is "concept_" followed by the lower-cased name with each whitespace run replaced by `_`, and holds no whitespace |
| Neo4jFold.NormalizeIdempotent | web-interface/src/lib/neo4j-service.ts:149 | normalising a normalised name changes nothing |
| Neo4jFold.ConceptIdCaseBlind | web-interface/src/lib/neo4j-service.ts:149 | names equal up to ASCII case get the same id |
| Neo4jFold.ConceptIdOfLowered | web-interface/src/lib/neo4j-service.ts:165 | lower-casing a name first does not change its id |
| Neo4jFold.Snippet | web-interface/src/lib/neo4j-service.ts:292 | a label is "..." after the longest prefix of whole characters of the text that fits in 50 UTF-16 code units, which is the whole text when it fits |
| Neo4jFold.EdgeStrength | web-interface/src/lib/neo4j-service.ts:420 | the pooled graph defaults a missing or zero strength to 1.0; the session graph passes it through |
| Neo4jFold.Insert | web-interface/src/lib/neo4j-service.ts:289-296 | inserting into the node map adds exactly the node's id |
| Neo4jFold.FirstWinsUnique | web-interface/src/lib/neo4j-service.ts:289 | a first-wins node list has no duplicate ids |
| Neo4jFold.InsertAllFirstWins | web-interface/src/lib/neo4j-service.ts:289-308 | inserting candidates one by one keeps, in order, the first candidate for each id, and covers every candidate id |
| Neo4jFold.FoldNodes | web-interface/src/lib/neo4j-service.ts:283-319 | the folded nodes are the record candidates inserted first-wins |
| Neo4jFold.FoldEdges | web-interface/src/lib/neo4j-service.ts:311-318 | the folded edges are one edge per record carrying both a relationship and an other node, in order |
| Neo4jFold.LinkEdgesCount | web-interface/src/lib/neo4j-service.ts:311-318 | there are as many edges as records carrying both a relationship and an other node |
| Neo4jFold.KnowledgeGraphSpec | web-interface/src/lib/neo4j-service.ts:283-324 | a successful fold has unique node ids, first record wins, every candidate id is present, and the edge count equals the number of linking records |
| Neo4jFold.ConceptNodesShown | web-interface/src/lib/neo4j-service.ts:397-410 | a concept node is captioned with its name, and in the pooled graph its node type is "concept" |
| Neo4jFold.DanglingLinkFails | web-interface/src/lib/neo4j-service.ts:311-318 | a linking record without a fragment makes the whole fold fail |
| Neo4jFold.PooledFoldSucceeds | web-interface/src/lib/neo4j-service.ts:376-426 | the pooled fold never fails when every record has a fragment |
| Neo4jFold.PooledStats | web-interface/src/lib/neo4j-service.ts:428-432 | no stats record gives all zeros; otherwise each count of the first record, 0 where missing |
| Neo4jFold.PooledKnowledgeGraph | web-interface/src/lib/neo4j-service.ts:333-447 | a failing fold yields an empty graph with zero stats; otherwise the folded graph and the stats |
| PooledView.FilterGraph | web-interface/src/components/PooledReason.tsx:191-214 | "all" is the identity; otherwise exactly the kept nodes, and exactly the links between kept nodes |
| PooledView.FilteredLinksClosed | web-interface/src/components/PooledReason.tsx:205-208 | every shown link has both ends among the shown nodes |
| PooledView.FilterKeepsOrder | web-interface/src/components/PooledReason.tsx:196-208 | shown nodes and links are order-preserving subsequences, and nothing that passes is dropped |
| PooledView.FilterIdempotent | web-interface/src/components/PooledReason.tsx:191-214 | pressing the same filter twice changes nothing |
| PooledView.ConceptAndFragmentViews | web-interface/src/components/PooledReason.tsx:197-198 | "concepts" shows exactly the concept nodes and "fragments" exactly the fragment nodes |
| PooledView.SubtypeView | web-interface/src/components/PooledReason.tsx:199-202 | any other filter shows exactly the fragment nodes whose node type or type equals it |
| PooledView.NodeSize | web-interface/src/components/PooledReason.tsx:103-111 | size 8 exactly for concepts, 6 exactly for fragments, 4 exactly for the rest |
| PooledView.SubtypeColor | web-interface/src/components/PooledReason.tsx:74-79 | the table has a colour exactly for memory, evaluation, goal and action |
| PooledView.FragmentColors | web-interface/src/components/PooledReason.tsx:95-99 | an unknown fragment subtype takes the memory colour, and distinct known subtypes get distinct colours |
| PooledView.OtherColors | web-interface/src/components/PooledReason.tsx:100 | concepts are red, tasks teal, every other non-fragment node gray |

## Left out

- Timers and promises. `setTimeout` in `scheduleBatchProcessing` is a deadline in the queue state, and `TimerFires` fires it. The sleep in `enforceRateLimit` is the `resumedAt` clock reading. `processBatch` is split at its await into `BeginBatch` and `CompleteBatch`. Interleavings of concurrent callers are not modelled. `EnforceRateLimit` bounds the counter only for calls in sequence, because the source is not atomic across its await.
- `Drain` lets every batch finish at one instant `now`. Arrivals during a drain are not modelled.
- Floating point. `generateSemanticVector` (TF-IDF, stemming, `Math.sqrt`) is the `vectorOf` parameter. Strengths are `real`. The link width and the 3D camera maths are not modelled.
- `toLowerCase` is modelled on ASCII letters only. Unicode case mapping is not modelled.
- Text.Take: a surrogate pair that straddles the cut is dropped whole, while `substring` would keep its lone high surrogate. Strings are sequences of code points, so a lone surrogate cannot be represented.
- Neo4jFold.Snippet: the same lone-high-surrogate case as `Take` is not modelled.
- `generateConceptHierarchy` is a bare `JSON.parse` of a model reply and has no logic of its own. Prompt wording, Cypher text and logging are not modelled.
- `JSON.parse` is a typed parser parameter. Replies whose fields have the wrong JSON types are outside the model, and so is `analysis.relationships` being a non-array truthy value.
- Fragment ids embed `Date.now()` and the request ids of the queue embed it too. Ids are opaque strings, and no uniqueness is claimed.
- The fragments of one ingest share one clock reading `now` in their ids and timestamps. The source reads the clock separately for each id. The rate limiter, in contrast, sees one `clock` reading per analysis and one for the relationship pass.
- KnowledgeGraph.ProcessAgentSteps: each fragment analysis is a batch of one that charges the limiter once. Other callers joining the same batch while it waits are not modelled.
- LlmService.CompleteBatch: charges the limiter when the batch completes. The source charges at batch start, before its first await. Each batch is charged exactly once either way, so only the interleaving with other callers differs, and that interleaving is not modelled.
- WorkflowUtils.FindConnectedComponent: the contract states the first member and the member set, but not the order of the later members. The body pops the stack and pushes neighbours in the adjacency sets' insertion order, as the source does, so the strand's node list and its root choice follow that order. No lemma describes that order independently.
- Store.AddMessage: the UUID and `new Date()` are parameters, and a message's timestamp is an integer.
- Store.Apply: an update whose key is present with the value `undefined` would overwrite a field with `undefined`. The model only distinguishes a present from an absent key.
- Store.Task: omits the free-form `metadata` record.
- WorkflowInterface.AddTextNode: the random canvas position and the `onTextChange` callback are not modelled.
- PooledView.NodeColor: a subtype naming an `Object.prototype` member (such as "constructor") would index a non-colour value in the source. The model treats it as an unknown subtype.
- The link colour and link width at web-interface/src/components/PooledReason.tsx:126-133 are rendering details, not part of the filter, size and colour rules.
- Neo4jFold: node properties other than id, text, name, type and nodeType are not modelled. The extra `stepNumber`, `timestamp` and `createdAt` spreads copy values through unchanged. Relationship properties other than `strength` are not modelled.
- Neo4jFold.ConceptIdCaseBlind: only the general statement is proved. Two names that differ only in the length of a whitespace run also share an id, and no concrete example of that is proved.
- The Neo4j driver errors inside the fold are not modelled. The only throw is the source's own `rf.properties.text.substring` or `rf.properties.id` on a missing value. The rows a query returns are the input of the fold, so a query that fails before returning rows is outside the model. The source catches that failure and returns an empty graph.
- A step pool per step number, a cap on sessions, per-step debounce and relationship strength thresholds are absent from the code, so they are not modelled. The 0.6 threshold appears only inside prompt text, and the parsed relationships are returned unfiltered.
- HTTP routes, React rendering, the browser-use SDK and the example scripts are outside this model.

=== FILE: flow_graph.dfy ===
/** The node-and-edge graph of the workflow canvas, and the depth-first walk
    both prompt builders share (web-interface/src/lib/workflow-utils.ts and
    web-interface/src/components/WorkflowInterface.tsx): a walk follows the
    outgoing edges of each node in edge order, visits every id at most once,
    and collects the trimmed, non-blank texts of the visited nodes. */
module FlowGraph {
  import opened Options
  import opened Text
  import Seqs

  /** A canvas node: its id, its node type, `data.text` and `data.nodeNumber`. */
  datatype Node = Node(id: string, kind: string, text: Option<string>, nodeNumber: Option<nat>)

  datatype Edge = Edge(source: string, target: string)

  function Ids(ns: seq<Node>): set<string> {
    set i | 0 <= i < |ns| :: ns[i].id
  }

  /** `new Map(nodes.map(n => [n.id, n])).get(id)`: when ids repeat, the last
      node with the id wins. */
  function Lookup(ns: seq<Node>, id: string): (r: Option<Node>)
    ensures r.None? <==> id !in Ids(ns)
    ensures r.Some? ==> r.value.id == id && r.value in ns
    ensures r.Some? ==> exists i :: 0 <= i < |ns| && ns[i] == r.value && LastWithId(ns, i)
  {
    if |ns| == 0 then None
    else if ns[|ns| - 1].id == id then
      assert LastWithId(ns, |ns| - 1);
      Some(ns[|ns| - 1])
    else
      var init := ns[..|ns| - 1];
      assert Ids(ns) == Ids(init) + {ns[|ns| - 1].id} by {
        forall x | x in Ids(ns) ensures x in Ids(init) + {ns[|ns| - 1].id} {
          var i :| 0 <= i < |ns| && ns[i].id == x;
          if i < |ns| - 1 { assert init[i] == ns[i]; }
        }
      }
      var r := Lookup(init, id);
      assert r.Some? ==> exists i :: 0 <= i < |ns| && ns[i] == r.value && LastWithId(ns, i) by {
        if r.Some? {
          var i :| 0 <= i < |init| && init[i] == r.value && LastWithId(init, i);
          assert ns[i] == init[i];
          assert LastWithId(ns, i);
        }
      }
      r
  }

  /** No node after position `i` has the same id. */
  predicate LastWithId(ns: seq<Node>, i: nat)
    requires i < |ns|
  {
    forall j :: i < j < |ns| ==> ns[j].id != ns[i].id
  }

  /** A node whose text the prompt keeps: `node.data.text && node.data.text.trim()`. */
  predicate HasText(n: Node) {
    Present(n.text)
  }

  predicate NoDup(s: seq<string>) {
    forall i, j :: 0 <= i < j < |s| ==> s[i] != s[j]
  }

  /** Appending an id not yet present keeps a list duplicate-free. */
  lemma NoDupAppend(s: seq<string>, x: string)
    requires NoDup(s) && x !in s
    ensures NoDup(s + [x])
  {
  }

  function Seen(order: seq<string>): set<string> {
    set x | x in order
  }

  function Targets(es: seq<Edge>): set<string> {
    set i | 0 <= i < |es| :: es[i].target
  }

  predicate HasEdge(es: seq<Edge>, a: string, b: string) {
    Edge(a, b) in es
  }

  /** `edges.filter(e => e.source === id).map(e => e.target)`. */
  function OutTargets(es: seq<Edge>, id: string): (r: seq<string>)
    ensures forall t :: t in r <==> HasEdge(es, id, t)
    ensures forall t :: t in r ==> t in Targets(es)
  {
    if |es| == 0 then []
    else
      var rest := OutTargets(es[1..], id);
      assert forall t :: t in rest ==> t in Targets(es) by {
        forall t | t in rest ensures t in Targets(es) {
          var i :| 0 <= i < |es| - 1 && es[1..][i].target == t;
          assert es[i + 1].target == t;
        }
      }
      assert forall t :: HasEdge(es, id, t) <==> Edge(id, t) == es[0] || HasEdge(es[1..], id, t);
      if es[0].source == id then [es[0].target] + rest else rest
  }

  /** `e => e.source === id`. */
  function Leaving(id: string): Edge -> bool {
    (e: Edge) => e.source == id
  }

  /** `edges.map(e => e.target)`. */
  function TargetList(es: seq<Edge>): (r: seq<string>)
    ensures |r| == |es| && forall k :: 0 <= k < |es| ==> r[k] == es[k].target
  {
    seq(|es|, k requires 0 <= k < |es| => es[k].target)
  }

  /** The outgoing targets are those of the edges leaving `id`, in edge
      order, repeats included. */
  lemma {:induction false} OutTargetsInEdgeOrder(es: seq<Edge>, id: string)
    ensures OutTargets(es, id) == TargetList(Seqs.Filter(Leaving(id), es))
  {
    if |es| > 0 {
      OutTargetsInEdgeOrder(es[1..], id);
      var rest := Seqs.Filter(Leaving(id), es[1..]);
      if es[0].source == id {
        assert TargetList([es[0]] + rest) == [es[0].target] + TargetList(rest);
      }
    }
  }

  lemma SeenGrows(o1: seq<string>, o2: seq<string>, t: set<string>)
    requires o1 <= o2
    ensures |t - Seen(o2)| <= |t - Seen(o1)|
  {
    assert t - Seen(o2) <= t - Seen(o1);
    SubsetCard(t - Seen(o2), t - Seen(o1));
  }

  lemma SubsetCard(a: set<string>, b: set<string>)
    requires a <= b
    ensures |a| <= |b|
  {
    assert b == a + (b - a);
  }

  lemma SeenAddTarget(order: seq<string>, id: string, t: set<string>)
    requires id in t && id !in order
    ensures |t - Seen(order + [id])| < |t - Seen(order)|
  {
    assert Seen(order + [id]) == Seen(order) + {id};
    assert t - Seen(order) == (t - Seen(order + [id])) + {id};
  }

  lemma SeenAddOther(order: seq<string>, id: string, t: set<string>)
    requires id !in t
    ensures t - Seen(order + [id]) == t - Seen(order)
  {
    assert Seen(order + [id]) == Seen(order) + {id};
  }

  /** Every outgoing edge of a node in `order[from..]` leads into `r`. */
  predicate ClosedFrom(es: seq<Edge>, order: seq<string>, from: nat, r: seq<string>) {
    forall k, t :: from <= k < |order| && t in OutTargets(es, order[k]) ==> t in r
  }

  /** Every entry of `r[from..]` after the first is entered by an edge from an
      earlier entry of `r[from..]`. */
  predicate EnteredFrom(es: seq<Edge>, r: seq<string>, from: nat, k: nat)
    requires k < |r|
  {
    exists j :: from <= j < k && HasEdge(es, r[j], r[k])
  }

  /** `traverseNode(id)`, with `order` the ids visited so far in visit order. */
  function Walk(es: seq<Edge>, id: string, order: seq<string>): (r: seq<string>)
    ensures order <= r
    ensures id in r
    ensures id !in order ==> |r| > |order| && r[|order|] == id
    ensures NoDup(order) ==> NoDup(r)
    ensures forall k :: |order| <= k < |r| ==> r[k] in Targets(es) || r[k] == id
    ensures ClosedFrom(es, r, |order|, r)
    ensures forall k :: |order| < k < |r| ==> EnteredFrom(es, r, |order|, k)
    decreases |Targets(es) - Seen(order)| + (if id !in order && id !in Targets(es) then 1 else 0), 0, 0
  {
    if id in order then order
    else
      var o1 := order + [id];
      assert |Targets(es) - Seen(o1)| < |Targets(es) - Seen(order)| + (if id !in Targets(es) then 1 else 0) by {
        if id in Targets(es) { SeenAddTarget(order, id, Targets(es)); } else { SeenAddOther(order, id, Targets(es)); }
      }
      var r := WalkAll(es, OutTargets(es, id), o1);
      WalkStep(es, id, order, r);
      r
  }

  /** What the walk of `id`'s targets after `order + [id]` gives, read as the
      walk from `id`. */
  lemma WalkStep(es: seq<Edge>, id: string, order: seq<string>, r: seq<string>)
    requires id !in order
    requires order + [id] <= r
    requires forall t :: t in OutTargets(es, id) ==> t in r
    requires NoDup(order + [id]) ==> NoDup(r)
    requires forall k :: |order| + 1 <= k < |r| ==> r[k] in Targets(es)
    requires ClosedFrom(es, r, |order| + 1, r)
    requires forall k :: |order| + 1 <= k < |r| ==> r[k] in OutTargets(es, id) || EnteredFrom(es, r, |order| + 1, k)
    ensures order <= r
    ensures id in r
    ensures |r| > |order| && r[|order|] == id
    ensures NoDup(order) ==> NoDup(r)
    ensures forall k :: |order| <= k < |r| ==> r[k] in Targets(es) || r[k] == id
    ensures ClosedFrom(es, r, |order|, r)
    ensures forall k :: |order| < k < |r| ==> EnteredFrom(es, r, |order|, k)
  {
    EnteredAfterHead(es, id, order, r);
    assert (order + [id])[|order|] == id;
    if NoDup(order) {
      NoDupAppend(order, id);
    }
  }

  lemma EnteredAfterHead(es: seq<Edge>, id: string, order: seq<string>, r: seq<string>)
    requires order + [id] <= r
    requires forall k :: |order| + 1 <= k < |r| ==> r[k] in OutTargets(es, id) || EnteredFrom(es, r, |order| + 1, k)
    requires forall t :: t in OutTargets(es, id) ==> t in r
    requires ClosedFrom(es, r, |order| + 1, r)
    ensures r[|order|] == id
    ensures forall k :: |order| < k < |r| ==> EnteredFrom(es, r, |order|, k)
    ensures ClosedFrom(es, r, |order|, r)
  {
    assert r[|order|] == (order + [id])[|order|];
    forall k | |order| < k < |r| ensures EnteredFrom(es, r, |order|, k) {
      if r[k] in OutTargets(es, id) {
        assert HasEdge(es, r[|order|], r[k]);
      } else {
        var j :| |order| + 1 <= j < k && HasEdge(es, r[j], r[k]);
      }
    }
  }

  /** `outgoing.forEach(e => traverseNode(e.target))`. */
  function WalkAll(es: seq<Edge>, ts: seq<string>, order: seq<string>): (r: seq<string>)
    requires forall t :: t in ts ==> t in Targets(es)
    ensures order <= r
    ensures forall t :: t in ts ==> t in r
    ensures NoDup(order) ==> NoDup(r)
    ensures forall k :: |order| <= k < |r| ==> r[k] in Targets(es)
    ensures ClosedFrom(es, r, |order|, r)
    ensures forall k :: |order| <= k < |r| ==> r[k] in ts || EnteredFrom(es, r, |order|, k)
    decreases |Targets(es) - Seen(order)|, 1, |ts|
  {
    if |ts| == 0 then order
    else
      var o1 := Walk(es, ts[0], order);
      SeenGrows(order, o1, Targets(es));
      var r := WalkAll(es, ts[1..], o1);
      EnteredAfterFirst(es, ts, order, o1, r);
      r
  }

  lemma EnteredAfterFirst(es: seq<Edge>, ts: seq<string>, order: seq<string>, o1: seq<string>, r: seq<string>)
    requires |ts| > 0 && order <= o1 <= r
    requires ts[0] !in order ==> |o1| > |order| && o1[|order|] == ts[0]
    requires ts[0] in order ==> o1 == order
    requires forall k :: |order| < k < |o1| ==> EnteredFrom(es, o1, |order|, k)
    requires forall k :: |o1| <= k < |r| ==> r[k] in ts[1..] || EnteredFrom(es, r, |o1|, k)
    requires ClosedFrom(es, o1, |order|, o1) && ClosedFrom(es, r, |o1|, r)
    ensures forall k :: |order| <= k < |r| ==> r[k] in ts || EnteredFrom(es, r, |order|, k)
    ensures ClosedFrom(es, r, |order|, r)
  {
    forall k | |order| <= k < |r| ensures r[k] in ts || EnteredFrom(es, r, |order|, k) {
      if k < |o1| {
        assert r[k] == o1[k];
        if k > |order| {
          assert EnteredFrom(es, o1, |order|, k);
          var j :| |order| <= j < k && HasEdge(es, o1[j], o1[k]);
          assert r[j] == o1[j];
        }
      } else if r[k] !in ts[1..] {
        var j :| |o1| <= j < k && HasEdge(es, r[j], r[k]);
      }
    }
    forall k, t | |order| <= k < |r| && t in OutTargets(es, r[k]) ensures t in r {
      if k < |o1| {
        assert r[k] == o1[k];
        assert t in o1;
      }
    }
  }

  /** A walk from an empty history visits exactly the ids reachable from its
      start, each once: it is closed under outgoing edges, and every id after
      the start is entered by an edge from one visited before it. */
  lemma WalkFromScratch(es: seq<Edge>, id: string)
    ensures var r := Walk(es, id, []);
      && |r| > 0 && r[0] == id && NoDup(r)
      && (forall k, t :: 0 <= k < |r| && HasEdge(es, r[k], t) ==> t in r)
      && (forall k :: 0 < k < |r| ==> exists j :: 0 <= j < k && HasEdge(es, r[j], r[k]))
      && Preorder(es, [id], r)
  {
    var r := Walk(es, id, []);
    WalkPreorder(es, id, []);
    forall k, t | 0 <= k < |r| && HasEdge(es, r[k], t) ensures t in r {
      assert t in OutTargets(es, r[k]);
    }
    forall k | 0 < k < |r| ensures exists j :: 0 <= j < k && HasEdge(es, r[j], r[k]) {
      assert EnteredFrom(es, r, 0, k);
    }
  }

  // ---------------------------------------------------------------------
  // Depth-first preorder
  // ---------------------------------------------------------------------

  /** The first of `ts` that is not in `seen`. */
  function FirstUnseen(ts: seq<string>, seen: seq<string>): (r: Option<string>)
    ensures r.None? <==> forall t :: t in ts ==> t in seen
    ensures r.Some? ==> r.value in ts && r.value !in seen
  {
    if |ts| == 0 then None
    else if ts[0] !in seen then Some(ts[0])
    else
      assert forall t :: t in ts <==> t == ts[0] || t in ts[1..];
      FirstUnseen(ts[1..], seen)
  }

  /** Scanning the visited ids `seen[lo..hi]` from the latest back: the first
      unseen outgoing target of the latest id that still has one. */
  function Resume(es: seq<Edge>, seen: seq<string>, lo: nat, hi: nat): Option<string>
    requires lo <= hi <= |seen|
    decreases hi - lo
  {
    if hi == lo then None
    else match FirstUnseen(OutTargets(es, seen[hi - 1]), seen)
      case Some(t) => Some(t)
      case None => Resume(es, seen, lo, hi - 1)
  }

  /** Where a depth-first search from `starts`, begun after `seen[..lo]`, goes
      once it has visited `seen`: back to the latest id visited since `lo`
      that still has an unseen outgoing target and on to the first such
      target, or, when there is none, to the first start not yet seen. */
  function NextVisit(es: seq<Edge>, starts: seq<string>, seen: seq<string>, lo: nat): Option<string>
    requires lo <= |seen|
  {
    match Resume(es, seen, lo, |seen|)
    case Some(t) => Some(t)
    case None => FirstUnseen(starts, seen)
  }

  /** `r[lo..]` is the depth-first preorder from `starts` that follows
      `r[..lo]`: every id is the one the search visits next, and after the
      last one the search has nowhere left to go. */
  ghost predicate PreorderFrom(es: seq<Edge>, starts: seq<string>, r: seq<string>, lo: nat) {
    && lo <= |r|
    && (forall k :: lo <= k < |r| ==> NextVisit(es, starts, r[..k], lo) == Some(r[k]))
    && NextVisit(es, starts, r, lo) == None
  }

  /** `r` is the depth-first preorder from `starts`. */
  ghost predicate Preorder(es: seq<Edge>, starts: seq<string>, r: seq<string>) {
    PreorderFrom(es, starts, r, 0)
  }

  /** There is only one depth-first preorder from given starts. */
  lemma PreorderUnique(es: seq<Edge>, starts: seq<string>, r1: seq<string>, r2: seq<string>)
    requires Preorder(es, starts, r1) && Preorder(es, starts, r2)
    ensures r1 == r2
  {
    if |r1| <= |r2| {
      PreorderPrefix(es, starts, r1, r2);
      PreorderEnd(es, starts, r1, r2);
    } else {
      PreorderPrefix(es, starts, r2, r1);
      PreorderEnd(es, starts, r2, r1);
    }
  }

  /** Two preorders agree as far as the shorter one goes. */
  lemma PreorderPrefix(es: seq<Edge>, starts: seq<string>, r1: seq<string>, r2: seq<string>)
    requires Preorder(es, starts, r1) && Preorder(es, starts, r2) && |r1| <= |r2|
    ensures r1 == r2[..|r1|]
  {
    var k := 0;
    while k < |r1|
      invariant k <= |r1| && r1[..k] == r2[..k]
    {
      PreorderAt(es, starts, r1, k);
      PreorderAt(es, starts, r2, k);
      PrefixStep(es, starts, r1, r2, k);
      k := k + 1;
    }
    assert r1 == r1[..k];
  }

  /** Two preorders that agree on their first `k` ids agree on one more. */
  lemma PrefixStep(es: seq<Edge>, starts: seq<string>, r1: seq<string>, r2: seq<string>, k: nat)
    requires k < |r1| && k < |r2| && r1[..k] == r2[..k]
    requires NextVisit(es, starts, r1[..k], 0) == Some(r1[k])
    requires NextVisit(es, starts, r2[..k], 0) == Some(r2[k])
    ensures r1[..k + 1] == r2[..k + 1]
  {
    SameNext(es, starts, r1[..k], r2[..k], r1[k], r2[k]);
    assert r1[..k + 1] == r1[..k] + [r1[k]] && r2[..k + 1] == r2[..k] + [r2[k]];
  }

  lemma PreorderAt(es: seq<Edge>, starts: seq<string>, r: seq<string>, k: nat)
    requires Preorder(es, starts, r) && k < |r|
    ensures NextVisit(es, starts, r[..k], 0) == Some(r[k])
  {
  }

  lemma SameNext(es: seq<Edge>, starts: seq<string>, p1: seq<string>, p2: seq<string>, a: string, b: string)
    requires p1 == p2
    requires NextVisit(es, starts, p1, 0) == Some(a) && NextVisit(es, starts, p2, 0) == Some(b)
    ensures a == b
  {
  }

  /** A preorder is not a proper prefix of another. */
  lemma PreorderEnd(es: seq<Edge>, starts: seq<string>, r1: seq<string>, r2: seq<string>)
    requires Preorder(es, starts, r1) && Preorder(es, starts, r2)
    requires |r1| <= |r2| && r1 == r2[..|r1|]
    ensures r1 == r2
  {
  }

  /** Splitting the scan of `seen[lo..hi]` at `mid`: the later part first. */
  lemma {:induction false} ResumeSplit(es: seq<Edge>, seen: seq<string>, lo: nat, mid: nat, hi: nat)
    requires lo <= mid <= hi <= |seen|
    ensures Resume(es, seen, lo, hi) ==
            match Resume(es, seen, mid, hi)
            case Some(t) => Some(t)
            case None => Resume(es, seen, lo, mid)
    decreases hi - mid
  {
    if hi > mid {
      ResumeSplit(es, seen, lo, mid, hi - 1);
    }
  }

  /** The scan from `lo` is what a search from the targets of `seen[lo]`,
      begun after it, does next. */
  lemma ResumeFromHead(es: seq<Edge>, seen: seq<string>, lo: nat)
    requires lo < |seen|
    ensures Resume(es, seen, lo, |seen|) == NextVisit(es, OutTargets(es, seen[lo]), seen, lo + 1)
  {
    ResumeSplit(es, seen, lo, lo + 1, |seen|);
  }

  /** Ids whose targets were all seen stay so as more ids are seen. */
  lemma {:induction false} ResumeGrow(es: seq<Edge>, seen: seq<string>, more: seq<string>, lo: nat, hi: nat)
    requires lo <= hi <= |seen| && seen <= more
    requires Resume(es, seen, lo, hi) == None
    ensures Resume(es, more, lo, hi) == None
    decreases hi - lo
  {
    if hi > lo {
      assert more[hi - 1] == seen[hi - 1];
      ResumeGrow(es, seen, more, lo, hi - 1);
    }
  }

  lemma FirstUnseenCons(t: string, ts: seq<string>, seen: seq<string>)
    ensures FirstUnseen([t] + ts, seen) == if t !in seen then Some(t) else FirstUnseen(ts, seen)
  {
    assert ([t] + ts)[1..] == ts;
  }

  /** Visiting `id` and then, after it, the preorder from its outgoing
      targets is the preorder from `id`. */
  lemma PreorderHead(es: seq<Edge>, id: string, order: seq<string>, r: seq<string>)
    requires id !in order && order + [id] <= r
    requires PreorderFrom(es, OutTargets(es, id), r, |order| + 1)
    ensures PreorderFrom(es, [id], r, |order|)
  {
    assert r[|order|] == id && r[..|order|] == order;
    FirstUnseenCons(id, [], order);
    forall k | |order| < k < |r| ensures NextVisit(es, [id], r[..k], |order|) == Some(r[k]) {
      ResumeFromHead(es, r[..k], |order|);
    }
    ResumeFromHead(es, r, |order|);
  }

  /** The preorder from `t0` followed by the preorder from `rest` is the
      preorder from `[t0] + rest`. */
  lemma PreorderConcat(es: seq<Edge>, ts: seq<string>, o: seq<string>, o1: seq<string>, r: seq<string>)
    requires |ts| > 0 && o <= o1 <= r
    requires PreorderFrom(es, [ts[0]], o1, |o|)
    requires PreorderFrom(es, ts[1..], r, |o1|)
    ensures PreorderFrom(es, ts, r, |o|)
  {
    assert ts == [ts[0]] + ts[1..];
    forall k | |o| <= k < |o1| ensures NextVisit(es, ts, r[..k], |o|) == Some(r[k]) {
      assert r[..k] == o1[..k] && r[k] == o1[k];
      ConcatHead(es, ts, o1[..k], |o|, o1[k]);
    }
    forall k | |o1| <= k < |r| ensures NextVisit(es, ts, r[..k], |o|) == Some(r[k]) {
      ConcatTail(es, ts, o1, r[..k], |o|);
    }
    ConcatTail(es, ts, o1, r, |o|);
  }

  /** While the first start's preorder runs, the other starts are not
      consulted. */
  lemma ConcatHead(es: seq<Edge>, ts: seq<string>, seen: seq<string>, lo: nat, t: string)
    requires |ts| > 0 && lo <= |seen| && ts == [ts[0]] + ts[1..]
    requires NextVisit(es, [ts[0]], seen, lo) == Some(t)
    ensures NextVisit(es, ts, seen, lo) == Some(t)
  {
    FirstUnseenCons(ts[0], [], seen);
    FirstUnseenCons(ts[0], ts[1..], seen);
  }

  /** Once the first start's preorder is done, the search goes where the
      other starts' search goes. */
  lemma ConcatTail(es: seq<Edge>, ts: seq<string>, o1: seq<string>, seen: seq<string>, lo: nat)
    requires |ts| > 0 && ts == [ts[0]] + ts[1..] && lo <= |o1| && o1 <= seen
    requires NextVisit(es, [ts[0]], o1, lo) == None
    ensures NextVisit(es, ts, seen, lo) == NextVisit(es, ts[1..], seen, |o1|)
  {
    FirstUnseenCons(ts[0], [], o1);
    ResumeSplit(es, seen, lo, |o1|, |seen|);
    ResumeGrow(es, o1, seen, lo, |o1|);
    FirstUnseenCons(ts[0], ts[1..], seen);
  }

  /** `traverseNode(id)` visits in depth-first preorder from `id`. */
  lemma {:induction false} WalkPreorder(es: seq<Edge>, id: string, order: seq<string>)
    ensures PreorderFrom(es, [id], Walk(es, id, order), |order|)
    decreases |Targets(es) - Seen(order)| + (if id !in order && id !in Targets(es) then 1 else 0), 0, 0
  {
    if id in order {
      FirstUnseenCons(id, [], order);
    } else {
      var o1 := order + [id];
      assert |Targets(es) - Seen(o1)| < |Targets(es) - Seen(order)| + (if id !in Targets(es) then 1 else 0) by {
        if id in Targets(es) { SeenAddTarget(order, id, Targets(es)); } else { SeenAddOther(order, id, Targets(es)); }
      }
      WalkAllPreorder(es, OutTargets(es, id), o1);
      PreorderHead(es, id, order, Walk(es, id, order));
    }
  }

  /** `targets.forEach(t => traverseNode(t))` visits in depth-first preorder
      from the targets, in their order. */
  lemma {:induction false} WalkAllPreorder(es: seq<Edge>, ts: seq<string>, order: seq<string>)
    requires forall t :: t in ts ==> t in Targets(es)
    ensures PreorderFrom(es, ts, WalkAll(es, ts, order), |order|)
    decreases |Targets(es) - Seen(order)|, 1, |ts|
  {
    if |ts| > 0 {
      var o1 := Walk(es, ts[0], order);
      SeenGrows(order, o1, Targets(es));
      WalkPreorder(es, ts[0], order);
      WalkAllPreorder(es, ts[1..], o1);
      PreorderConcat(es, ts, order, o1, WalkAll(es, ts, order));
    }
  }

  /** The trimmed non-blank texts of the visited ids, in visit order; ids
      without a node contribute nothing. */
  function Texts(ns: seq<Node>, order: seq<string>): (r: seq<string>)
    ensures |r| <= |order|
    ensures forall k :: 0 <= k < |r| ==> r[k] != [] && IsTrimmed(r[k])
  {
    if |order| == 0 then []
    else
      var rest := Texts(ns, order[1..]);
      match Lookup(ns, order[0])
      case Some(n) =>
        if HasText(n) then
          PresentIsNonEmptyTrim(n.text);
          [Trim(n.text.value)] + rest
        else rest
      case None => rest
  }

  /** No text is collected exactly when no visited id names a node with a
      non-blank text. */
  lemma {:induction false} TextsEmpty(ns: seq<Node>, order: seq<string>)
    ensures Texts(ns, order) == [] <==>
            forall k :: 0 <= k < |order| ==> Lookup(ns, order[k]).None? || !HasText(Lookup(ns, order[k]).value)
  {
    if |order| > 0 {
      TextsEmpty(ns, order[1..]);
      assert forall k :: 1 <= k < |order| ==> order[1..][k - 1] == order[k];
    }
  }

  /** A visited id whose node has a non-blank text. */
  predicate Kept(ns: seq<Node>, id: string) {
    Lookup(ns, id).Some? && HasText(Lookup(ns, id).value)
  }

  function KeptIn(ns: seq<Node>): string -> bool {
    (id: string) => Kept(ns, id)
  }

  /** The trimmed text of the node `id` names. */
  function TextOf(ns: seq<Node>, id: string): string
    requires Kept(ns, id)
  {
    Trim(Lookup(ns, id).value.text.value)
  }

  function TextList(ns: seq<Node>, ids: seq<string>): (r: seq<string>)
    requires forall x :: x in ids ==> Kept(ns, x)
    ensures |r| == |ids| && forall k :: 0 <= k < |ids| ==> r[k] == TextOf(ns, ids[k])
  {
    seq(|ids|, k requires 0 <= k < |ids| => TextOf(ns, ids[k]))
  }

  /** The collected texts are those of the kept ids, in visit order. */
  lemma {:induction false} TextsOfKept(ns: seq<Node>, order: seq<string>)
    ensures forall x :: x in Seqs.Filter(KeptIn(ns), order) ==> Kept(ns, x)
    ensures Texts(ns, order) == TextList(ns, Seqs.Filter(KeptIn(ns), order))
  {
    if |order| > 0 {
      TextsOfKept(ns, order[1..]);
      TextsCons(ns, order);
      if Kept(ns, order[0]) {
        TextListCons(ns, order[0], Seqs.Filter(KeptIn(ns), order[1..]));
      }
    }
  }

  lemma TextsCons(ns: seq<Node>, order: seq<string>)
    requires |order| > 0
    ensures Texts(ns, order) ==
            (if Kept(ns, order[0]) then [TextOf(ns, order[0])] else []) + Texts(ns, order[1..])
  {
  }

  lemma TextListCons(ns: seq<Node>, x: string, rest: seq<string>)
    requires Kept(ns, x) && forall y :: y in rest ==> Kept(ns, y)
    ensures TextList(ns, [x] + rest) == [TextOf(ns, x)] + TextList(ns, rest)
  {
  }

  /** `Texts` picks, in increasing positions of `order`, the trimmed text of
      every visited id that has one, and of no other. */
  lemma TextsEmbedding(ns: seq<Node>, order: seq<string>) returns (idx: seq<nat>)
    ensures |idx| == |Texts(ns, order)|
    ensures forall k :: 0 <= k < |idx| ==>
      idx[k] < |order| && Kept(ns, order[idx[k]]) && Texts(ns, order)[k] == TextOf(ns, order[idx[k]])
    ensures forall k, l :: 0 <= k < l < |idx| ==> idx[k] < idx[l]
    ensures forall i :: 0 <= i < |order| && Kept(ns, order[i]) ==> i in idx
  {
    TextsOfKept(ns, order);
    idx := Seqs.FilterEmbedding(KeptIn(ns), order);
    var kept := Seqs.Filter(KeptIn(ns), order);
    forall k | 0 <= k < |idx| ensures Kept(ns, order[idx[k]]) && Texts(ns, order)[k] == TextOf(ns, order[idx[k]]) {
      assert kept[k] == order[idx[k]] && kept[k] in kept;
    }
  }

  /** `result.join(' ')`. */
  function Prompt(ns: seq<Node>, order: seq<string>): string {
    Join(" ", Texts(ns, order))
  }

  /** The prompt is the kept texts, in visit order, joined by single spaces. */
  lemma PromptContent(ns: seq<Node>, order: seq<string>)
    ensures forall x :: x in Seqs.Filter(KeptIn(ns), order) ==> Kept(ns, x)
    ensures Prompt(ns, order) == Join(" ", TextList(ns, Seqs.Filter(KeptIn(ns), order)))
  {
    TextsOfKept(ns, order);
  }

  /** Joining non-empty trimmed texts gives a blank string only when there is
      nothing to join. */
  lemma JoinBlank(xs: seq<string>)
    requires forall k :: 0 <= k < |xs| ==> xs[k] != [] && IsTrimmed(xs[k])
    ensures Trim(Join(" ", xs)) == "" <==> xs == []
  {
    if xs != [] {
      var r := Join(" ", xs);
      assert r[0] == xs[0][0];
      assert !AllSpace(r) by { assert !IsSpace(r[0]); }
    }
  }

  /** A walk's prompt is blank exactly when no visited id names a node with a
      non-blank text. */
  lemma PromptBlank(ns: seq<Node>, order: seq<string>)
    ensures Trim(Prompt(ns, order)) == "" <==>
            forall k :: 0 <= k < |order| ==> Lookup(ns, order[k]).None? || !HasText(Lookup(ns, order[k]).value)
  {
    JoinBlank(Texts(ns, order));
    TextsEmpty(ns, order);
  }
}

=== FILE: knowledge_graph.dfy ===
/** The orchestration in `KnowledgeGraphService`
    (web-interface/src/lib/knowledge-graph-service.ts): turning one agent step
    into typed reasoning fragments, processing each fragment (analysis,
    caching, persistence) so that one failure never stops the others, and the
    guarded relationship pass over the whole set.

    The analysis of a single fragment, the semantic vector, and the outcome of
    each Neo4j write are parameters: they are foreign calls. */
module KnowledgeGraph {
  import opened Options
  import opened Text
  import L = LlmService
  import Seqs

  /** The fields of an agent step the service reads; every text may be absent. */
  datatype AgentStep = AgentStep(
    number: int,
    memory: Option<string>,
    evaluationPreviousGoal: Option<string>,
    nextGoal: Option<string>,
    url: Option<string>,
    actions: Option<seq<Option<string>>>)

  datatype Kind = Memory | Evaluation | Goal | Action

  function KindName(k: Kind): string {
    match k
    case Memory => "memory"
    case Evaluation => "evaluation"
    case Goal => "goal"
    case Action => "action"
  }

  /** The order in which a step's fragments are emitted. */
  function Rank(k: Kind): nat {
    match k
    case Memory => 0
    case Evaluation => 1
    case Goal => 2
    case Action => 3
  }

  datatype Fragment = Fragment(
    id: string,
    text: string,
    kind: Kind,
    sessionId: string,
    taskId: string,
    stepNumber: int,
    timestamp: int,
    url: Option<string>,
    concepts: seq<string>,
    semanticVector: seq<real>)

  /** The fragment id: kind, session, step number, action index for actions,
      and the clock reading. Ids are not claimed to be unique. */
  function FragmentId(k: Kind, sessionId: string, number: int, index: Option<nat>, now: int): string {
    var idx := match index case Some(i) => NatToString(i) + "_" case None => "";
    KindName(k) + "_" + sessionId + "_" + IntToString(number) + "_" + idx + IntToString(now)
  }

  /** A freshly extracted fragment: nothing analysed yet. */
  function NewFragment(
    k: Kind, text: string, index: Option<nat>, step: AgentStep, sessionId: string, taskId: string, now: int)
    : Fragment
  {
    Fragment(FragmentId(k, sessionId, step.number, index, now), text, k, sessionId, taskId,
      step.number, now, step.url, [], [])
  }

  /** The step's action texts that are present, in order. */
  function PresentActions(actions: seq<Option<string>>): (r: seq<string>)
    ensures |r| <= |actions|
    ensures forall i :: 0 <= i < |r| ==> !AllSpace(r[i]) && Some(r[i]) in actions
  {
    if |actions| == 0 then []
    else if Present(actions[0]) then [actions[0].value] + PresentActions(actions[1..])
    else PresentActions(actions[1..])
  }

  /** The texts of options that all hold one. */
  function Values(xs: seq<Option<string>>): (r: seq<string>)
    ensures |r| == |xs|
    ensures forall k :: 0 <= k < |xs| && xs[k].Some? ==> r[k] == xs[k].value
  {
    seq(|xs|, k requires 0 <= k < |xs| => xs[k].GetOr(""))
  }

  /** `actions.filter(a => a && a.trim())`, read out. */
  lemma {:induction false} PresentActionsIsFilter(actions: seq<Option<string>>)
    ensures PresentActions(actions) == Values(Seqs.Filter(Present, actions))
  {
    if |actions| > 0 {
      PresentActionsIsFilter(actions[1..]);
      var rest := Seqs.Filter(Present, actions[1..]);
      if Present(actions[0]) {
        assert Values([actions[0]] + rest) == [actions[0].value] + Values(rest);
      }
    }
  }

  /** `PresentActions` keeps, in increasing positions, the text of every
      present action and of no other. */
  lemma PresentActionsEmbedding(actions: seq<Option<string>>) returns (idx: seq<nat>)
    ensures |idx| == |PresentActions(actions)|
    ensures forall k :: 0 <= k < |idx| ==>
      idx[k] < |actions| && Present(actions[idx[k]]) && PresentActions(actions)[k] == actions[idx[k]].value
    ensures forall k, l :: 0 <= k < l < |idx| ==> idx[k] < idx[l]
    ensures forall i :: 0 <= i < |actions| && Present(actions[i]) ==> i in idx
  {
    PresentActionsIsFilter(actions);
    idx := Seqs.FilterEmbedding(Present, actions);
    var kept := Seqs.Filter(Present, actions);
    forall k | 0 <= k < |idx|
      ensures Present(actions[idx[k]]) && PresentActions(actions)[k] == actions[idx[k]].value
    {
      assert kept[k] == actions[idx[k]] && kept[k] in kept;
    }
  }

  function ActionTexts(fs: seq<Fragment>): seq<string> {
    if |fs| == 0 then []
    else if fs[0].kind == Action then [fs[0].text] + ActionTexts(fs[1..])
    else ActionTexts(fs[1..])
  }

  /** Facts shared by every fragment extracted from `step`. */
  predicate FromStep(f: Fragment, step: AgentStep, sessionId: string, taskId: string, now: int) {
    && f.sessionId == sessionId && f.taskId == taskId
    && f.stepNumber == step.number && f.url == step.url && f.timestamp == now
    && f.concepts == [] && f.semanticVector == []
    && !AllSpace(f.text)
  }

  /** One fragment per present action, starting at action index `from`. */
  function ActionFragments(
    step: AgentStep, actions: seq<Option<string>>, from: nat, sessionId: string, taskId: string, now: int)
    : (r: seq<Fragment>)
    requires from <= |actions|
    ensures forall i :: 0 <= i < |r| ==> r[i].kind == Action && FromStep(r[i], step, sessionId, taskId, now)
    ensures ActionTexts(r) == PresentActions(actions[from..])
    decreases |actions| - from
  {
    if from == |actions| then []
    else
      var rest := ActionFragments(step, actions, from + 1, sessionId, taskId, now);
      assert actions[from..][1..] == actions[from + 1..];
      if Present(actions[from]) then
        [NewFragment(Action, actions[from].value, Some(from), step, sessionId, taskId, now)] + rest
      else rest
  }

  /** The optional header fragment for one of the three text fields. */
  function HeaderFragment(
    k: Kind, field: Option<string>, step: AgentStep, sessionId: string, taskId: string, now: int)
    : (r: seq<Fragment>)
    ensures Present(field) <==> |r| == 1
    ensures |r| <= 1
    ensures forall i :: 0 <= i < |r| ==> r[i].kind == k && field == Some(r[i].text)
    ensures forall i :: 0 <= i < |r| ==> FromStep(r[i], step, sessionId, taskId, now)
  {
    if Present(field) then [NewFragment(k, field.value, None, step, sessionId, taskId, now)] else []
  }

  /** The memory, evaluation and goal fragments, each present or not, in
      that order. */
  function Headers(step: AgentStep, sessionId: string, taskId: string, now: int): (r: seq<Fragment>)
    ensures forall i :: 0 <= i < |r| ==> FromStep(r[i], step, sessionId, taskId, now) && r[i].kind != Action
    ensures forall i, j :: 0 <= i < j < |r| ==> Rank(r[i].kind) < Rank(r[j].kind)
  {
    var m := HeaderFragment(Memory, step.memory, step, sessionId, taskId, now);
    var e := HeaderFragment(Evaluation, step.evaluationPreviousGoal, step, sessionId, taskId, now);
    var g := HeaderFragment(Goal, step.nextGoal, step, sessionId, taskId, now);
    m + e + g
  }

  /** `extractFragmentsFromStep`. */
  function ExtractFragmentsFromStep(step: AgentStep, sessionId: string, taskId: string, now: int)
    : (r: seq<Fragment>)
    ensures forall i :: 0 <= i < |r| ==> FromStep(r[i], step, sessionId, taskId, now)
  {
    Headers(step, sessionId, taskId, now) + ActionFragments(step, step.actions.GetOr([]), 0, sessionId, taskId, now)
  }

  /** The step's fragments split as its header fragments followed by its
      action fragments. */
  lemma ExtractSplit(step: AgentStep, sessionId: string, taskId: string, now: int)
    ensures var r := ExtractFragmentsFromStep(step, sessionId, taskId, now);
      var m := HeaderFragment(Memory, step.memory, step, sessionId, taskId, now);
      var e := HeaderFragment(Evaluation, step.evaluationPreviousGoal, step, sessionId, taskId, now);
      var g := HeaderFragment(Goal, step.nextGoal, step, sessionId, taskId, now);
      && r[..|m| + |e| + |g|] == m + e + g
      && forall i :: |m| + |e| + |g| <= i < |r| ==> r[i].kind == Action
  {
  }

  /** A memory fragment exists exactly when the memory field is present; it
      comes first and carries the field's text untrimmed. */
  lemma ExtractMemory(step: AgentStep, sessionId: string, taskId: string, now: int)
    ensures var r := ExtractFragmentsFromStep(step, sessionId, taskId, now);
      && (Present(step.memory) <==> |r| > 0 && r[0].kind == Memory)
      && (forall i :: 0 <= i < |r| && r[i].kind == Memory ==> i == 0 && step.memory == Some(r[i].text))
  {
    var r := ExtractFragmentsFromStep(step, sessionId, taskId, now);
    var m := HeaderFragment(Memory, step.memory, step, sessionId, taskId, now);
    var e := HeaderFragment(Evaluation, step.evaluationPreviousGoal, step, sessionId, taskId, now);
    var g := HeaderFragment(Goal, step.nextGoal, step, sessionId, taskId, now);
    ExtractSplit(step, sessionId, taskId, now);
    var n := |m| + |e| + |g|;
    assert forall i :: 0 <= i < n ==> r[i] == r[..n][i];
  }

  /** The step field a header kind is read from. */
  function Field(k: Kind, step: AgentStep): Option<string>
    requires k != Action
  {
    match k
    case Memory => step.memory
    case Evaluation => step.evaluationPreviousGoal
    case Goal => step.nextGoal
  }

  /** Within the header fragments, a kind appears exactly when its field is
      present, and carries the field's text. */
  lemma HeadersOfKind(k: Kind, step: AgentStep, sessionId: string, taskId: string, now: int)
    requires k != Action
    ensures var h := Headers(step, sessionId, taskId, now);
      && (Present(Field(k, step)) ==> exists i :: 0 <= i < |h| && h[i].kind == k)
      && (forall i :: 0 <= i < |h| && h[i].kind == k ==> Field(k, step) == Some(h[i].text))
  {
    var h := Headers(step, sessionId, taskId, now);
    var m := HeaderFragment(Memory, step.memory, step, sessionId, taskId, now);
    var e := HeaderFragment(Evaluation, step.evaluationPreviousGoal, step, sessionId, taskId, now);
    var g := HeaderFragment(Goal, step.nextGoal, step, sessionId, taskId, now);
    assert h == m + e + g;
    forall i | 0 <= i < |h| && h[i].kind == k ensures Field(k, step) == Some(h[i].text) {
      if i < |m| { assert h[i] == m[i]; }
      else if i < |m| + |e| { assert h[i] == e[i - |m|]; }
      else { assert h[i] == g[i - |m| - |e|]; }
    }
    if Present(Field(k, step)) {
      match k
      case Memory => assert h[0] == m[0];
      case Evaluation => assert h[|m|] == e[0];
      case Goal => assert h[|m| + |e|] == g[0];
    }
  }

  /** Behind a run of action fragments, every non-action fragment sits in
      the prefix. */
  lemma PrefixOfKind(h: seq<Fragment>, a: seq<Fragment>, k: Kind)
    requires k != Action && forall i :: 0 <= i < |a| ==> a[i].kind == Action
    ensures (exists i :: 0 <= i < |h + a| && (h + a)[i].kind == k) <==> (exists i :: 0 <= i < |h| && h[i].kind == k)
    ensures forall i :: 0 <= i < |h + a| && (h + a)[i].kind == k ==> i < |h| && (h + a)[i] == h[i]
  {
    assert forall i :: |h| <= i < |h + a| ==> (h + a)[i] == a[i - |h|];
    if exists i :: 0 <= i < |h| && h[i].kind == k {
      var i :| 0 <= i < |h| && h[i].kind == k;
      assert (h + a)[i] == h[i];
    }
  }

  /** A header fragment of kind `k` exists exactly when its field is
      present, and carries the field's text untrimmed. */
  lemma ExtractHeader(k: Kind, step: AgentStep, sessionId: string, taskId: string, now: int)
    requires k != Action
    ensures var r := ExtractFragmentsFromStep(step, sessionId, taskId, now);
      && (Present(Field(k, step)) <==> exists i :: 0 <= i < |r| && r[i].kind == k)
      && (forall i :: 0 <= i < |r| && r[i].kind == k ==> Field(k, step) == Some(r[i].text))
  {
    var h := Headers(step, sessionId, taskId, now);
    var a := ActionFragments(step, step.actions.GetOr([]), 0, sessionId, taskId, now);
    assert ExtractFragmentsFromStep(step, sessionId, taskId, now) == h + a;
    HeadersOfKind(k, step, sessionId, taskId, now);
    PrefixOfKind(h, a, k);
  }

  /** An evaluation fragment exists exactly when the evaluation field is
      present, and carries the field's text untrimmed. */
  lemma ExtractEvaluation(step: AgentStep, sessionId: string, taskId: string, now: int)
    ensures var r := ExtractFragmentsFromStep(step, sessionId, taskId, now);
      && (Present(step.evaluationPreviousGoal) <==> exists i :: 0 <= i < |r| && r[i].kind == Evaluation)
      && (forall i :: 0 <= i < |r| && r[i].kind == Evaluation ==> step.evaluationPreviousGoal == Some(r[i].text))
  {
    ExtractHeader(Evaluation, step, sessionId, taskId, now);
  }

  /** A goal fragment exists exactly when the next-goal field is present,
      and carries the field's text untrimmed. */
  lemma ExtractGoal(step: AgentStep, sessionId: string, taskId: string, now: int)
    ensures var r := ExtractFragmentsFromStep(step, sessionId, taskId, now);
      && (Present(step.nextGoal) <==> exists i :: 0 <= i < |r| && r[i].kind == Goal)
      && (forall i :: 0 <= i < |r| && r[i].kind == Goal ==> step.nextGoal == Some(r[i].text))
  {
    ExtractHeader(Goal, step, sessionId, taskId, now);
  }

  /** Memory, evaluation and goal come first, in that order, each at most
      once; the actions follow. */
  lemma ExtractOrder(step: AgentStep, sessionId: string, taskId: string, now: int)
    ensures var r := ExtractFragmentsFromStep(step, sessionId, taskId, now);
      forall i, j :: 0 <= i < j < |r| ==> Rank(r[i].kind) < Rank(r[j].kind) || r[i].kind == r[j].kind == Action
  {
  }

  /** The action fragments carry exactly the present action texts, in order,
      and the fragment count is one per present field plus one per present
      action. */
  lemma ExtractActions(step: AgentStep, sessionId: string, taskId: string, now: int)
    ensures var r := ExtractFragmentsFromStep(step, sessionId, taskId, now);
      && ActionTexts(r) == PresentActions(step.actions.GetOr([]))
      && |r| == (if Present(step.memory) then 1 else 0)
              + (if Present(step.evaluationPreviousGoal) then 1 else 0)
              + (if Present(step.nextGoal) then 1 else 0)
              + |PresentActions(step.actions.GetOr([]))|
  {
    var acts := step.actions.GetOr([]);
    var h := Headers(step, sessionId, taskId, now);
    var a := ActionFragments(step, acts, 0, sessionId, taskId, now);
    assert acts[0..] == acts;
    ActionTextsAppend(h, a);
    ActionCount(step, acts, 0, sessionId, taskId, now);
  }

  lemma ActionTextsAppend(a: seq<Fragment>, b: seq<Fragment>)
    requires forall i :: 0 <= i < |a| ==> a[i].kind != Action
    ensures ActionTexts(a + b) == ActionTexts(b)
  {
    if |a| > 0 {
      assert (a + b)[1..] == a[1..] + b;
    } else {
      assert a + b == b;
    }
  }

  lemma {:induction false} ActionTextsLength(fs: seq<Fragment>)
    requires forall i :: 0 <= i < |fs| ==> fs[i].kind == Action
    ensures |ActionTexts(fs)| == |fs|
  {
    if |fs| > 0 {
      ActionTextsLength(fs[1..]);
    }
  }

  lemma ActionCount(
    step: AgentStep, actions: seq<Option<string>>, from: nat, sessionId: string, taskId: string, now: int)
    requires from <= |actions|
    ensures |ActionFragments(step, actions, from, sessionId, taskId, now)| == |PresentActions(actions[from..])|
  {
    ActionTextsLength(ActionFragments(step, actions, from, sessionId, taskId, now));
  }

  /** The worked example: memory, a blank evaluation, a goal and one action
      give exactly three fragments, in the order memory, goal, action. */
  lemma BlankEvaluationIsSkipped(sessionId: string, taskId: string, now: int)
    ensures
      var step := AgentStep(1, Some("opened page A"), Some(""), Some("click button"), None,
                            Some([Some("click#submit")]));
      var r := ExtractFragmentsFromStep(step, sessionId, taskId, now);
      |r| == 3 && r[0].kind == Memory && r[1].kind == Goal && r[2].kind == Action
      && r[2].text == "click#submit"
  {
    var step := AgentStep(1, Some("opened page A"), Some(""), Some("click button"), None,
                          Some([Some("click#submit")]));
    assert Present(step.memory) by { assert !IsSpace("opened page A"[0]); }
    assert !Present(step.evaluationPreviousGoal);
    assert Present(step.nextGoal) by { assert !IsSpace("click button"[0]); }
    var acts := [Some("click#submit")];
    assert Present(acts[0]) by { assert !IsSpace("click#submit"[0]); }
    assert ActionFragments(step, acts, 1, sessionId, taskId, now) == [];
    assert |ActionFragments(step, acts, 0, sessionId, taskId, now)| == 1;
    assert |Headers(step, sessionId, taskId, now)| == 2;
  }

  /** All fragments of a list of steps, in step order. */
  function AllFragments(steps: seq<AgentStep>, sessionId: string, taskId: string, now: int): (r: seq<Fragment>)
    ensures forall i :: 0 <= i < |r| ==> r[i].sessionId == sessionId && r[i].taskId == taskId
  {
    if |steps| == 0 then []
    else ExtractFragmentsFromStep(steps[0], sessionId, taskId, now) + AllFragments(steps[1..], sessionId, taskId, now)
  }

  /** Extraction is step by step: handing the steps over in two pieces gives
      the same fragments as handing them over at once. */
  lemma {:induction false} AllFragmentsAppend(s1: seq<AgentStep>, s2: seq<AgentStep>, sessionId: string, taskId: string, now: int)
    ensures AllFragments(s1 + s2, sessionId, taskId, now)
            == AllFragments(s1, sessionId, taskId, now) + AllFragments(s2, sessionId, taskId, now)
  {
    if |s1| == 0 {
      assert s1 + s2 == s2;
    } else {
      assert (s1 + s2)[1..] == s1[1..] + s2;
      AllFragmentsAppend(s1[1..], s2, sessionId, taskId, now);
    }
  }

  // ---------------------------------------------------------------------
  // Processing
  // ---------------------------------------------------------------------

  /** The service's fragment cache and the fragments Neo4j accepted. */
  datatype State = State(cache: map<string, Fragment>, stored: seq<Fragment>)

  /** The foreign calls a fragment goes through: its analysis (`None` when
      anything before the cache write throws), its semantic vector, and
      whether the Neo4j write succeeds. */
  datatype Oracles = Oracles(
    analyze: Fragment -> Option<L.Analysis>,
    vectorOf: string -> seq<real>,
    persist: Fragment -> bool)

  /** The fragment after a successful analysis. */
  function Analyzed(f: Fragment, a: L.Analysis, o: Oracles): Fragment {
    f.(concepts := a.concepts, semanticVector := o.vectorOf(f.text))
  }

  /** `processFragment`: on a successful analysis the concepts become exactly
      the analysis's concepts and the fragment is cached, whether or not the
      Neo4j write then fails; on a failed analysis nothing changes. */
  function ProcessFragment(st: State, f: Fragment, o: Oracles): (r: State)
    ensures o.analyze(f).None? ==> r == st
    ensures o.analyze(f).Some? ==>
              && f.id in r.cache
              && r.cache[f.id].concepts == o.analyze(f).value.concepts
              && r.cache[f.id].text == f.text && r.cache[f.id].kind == f.kind
              && r.cache.Keys == st.cache.Keys + {f.id}
              && (forall id :: id in st.cache && id != f.id ==> r.cache[id] == st.cache[id])
    ensures st.stored <= r.stored
    ensures |r.stored| == |st.stored| + (if o.analyze(f).Some? && o.persist(Analyzed(f, o.analyze(f).value, o)) then 1 else 0)
  {
    match o.analyze(f)
    case None => st
    case Some(a) =>
      var g := Analyzed(f, a, o);
      var cache := st.cache[f.id := g];
      State(cache, if o.persist(g) then st.stored + [g] else st.stored)
  }

  /** True when no later fragment overwrites the cache entry of `fs[i]`. */
  predicate LastWriter(fs: seq<Fragment>, i: nat, o: Oracles)
    requires i < |fs|
  {
    forall j :: i < j < |fs| ==> fs[j].id != fs[i].id || o.analyze(fs[j]).None?
  }

  /** The loop of `processAgentSteps` over the extracted fragments; what it
      computes is stated by the lemmas below. */
  function ProcessFragments(st: State, fs: seq<Fragment>, o: Oracles): (r: State)
    ensures st.stored <= r.stored
    decreases |fs|
  {
    if |fs| == 0 then st
    else ProcessFragments(ProcessFragment(st, fs[0], o), fs[1..], o)
  }

  /** The ids of the fragments whose analysis succeeds. */
  function SucceededIds(fs: seq<Fragment>, o: Oracles): set<string> {
    set i | 0 <= i < |fs| && o.analyze(fs[i]).Some? :: fs[i].id
  }

  lemma SucceededIdsCons(fs: seq<Fragment>, o: Oracles)
    requires |fs| > 0
    ensures SucceededIds(fs, o) == SucceededIds(fs[1..], o) + (if o.analyze(fs[0]).Some? then {fs[0].id} else {})
  {
    var tail, all := SucceededIds(fs[1..], o), SucceededIds(fs, o);
    forall id | id in all ensures id in tail + (if o.analyze(fs[0]).Some? then {fs[0].id} else {}) {
      var i :| 0 <= i < |fs| && o.analyze(fs[i]).Some? && fs[i].id == id;
      if i > 0 { assert fs[1..][i - 1] == fs[i]; }
    }
    forall id | id in tail ensures id in all {
      var i :| 0 <= i < |fs| - 1 && o.analyze(fs[1..][i]).Some? && fs[1..][i].id == id;
      assert fs[1..][i] == fs[i + 1];
    }
  }

  /** The cache gains exactly the ids of the fragments whose analysis
      succeeded. */
  lemma {:induction false} ProcessedKeys(st: State, fs: seq<Fragment>, o: Oracles)
    ensures ProcessFragments(st, fs, o).cache.Keys == st.cache.Keys + SucceededIds(fs, o)
    decreases |fs|
  {
    if |fs| > 0 {
      ProcessedKeys(ProcessFragment(st, fs[0], o), fs[1..], o);
      SucceededIdsCons(fs, o);
    }
  }

  /** An entry that no successfully analysed fragment targets keeps its
      value. */
  lemma {:induction false} ProcessedUntouched(st: State, fs: seq<Fragment>, o: Oracles, id: string)
    requires id in st.cache
    requires forall j :: 0 <= j < |fs| ==> fs[j].id != id || o.analyze(fs[j]).None?
    ensures id in ProcessFragments(st, fs, o).cache
    ensures ProcessFragments(st, fs, o).cache[id] == st.cache[id]
    decreases |fs|
  {
    if |fs| > 0 {
      var st1 := ProcessFragment(st, fs[0], o);
      assert forall j :: 0 <= j < |fs| - 1 ==> fs[1..][j].id != id || o.analyze(fs[1..][j]).None? by {
        forall j | 0 <= j < |fs| - 1 ensures fs[1..][j].id != id || o.analyze(fs[1..][j]).None? {
          assert fs[1..][j] == fs[j + 1];
        }
      }
      ProcessedUntouched(st1, fs[1..], o, id);
    }
  }

  /** A fragment whose analysis succeeded is cached with the analysis's
      concepts unless a later successful fragment with the same id
      overwrites it. */
  lemma {:induction false} ProcessedLastWriter(st: State, fs: seq<Fragment>, o: Oracles, i: nat)
    requires i < |fs| && o.analyze(fs[i]).Some? && LastWriter(fs, i, o)
    ensures fs[i].id in ProcessFragments(st, fs, o).cache
    ensures ProcessFragments(st, fs, o).cache[fs[i].id] == Analyzed(fs[i], o.analyze(fs[i]).value, o)
    decreases |fs|
  {
    var st1 := ProcessFragment(st, fs[0], o);
    if i == 0 {
      assert forall j :: 0 <= j < |fs| - 1 ==> fs[1..][j].id != fs[0].id || o.analyze(fs[1..][j]).None? by {
        forall j | 0 <= j < |fs| - 1 ensures fs[1..][j].id != fs[0].id || o.analyze(fs[1..][j]).None? {
          assert fs[1..][j] == fs[j + 1];
        }
      }
      ProcessedUntouched(st1, fs[1..], o, fs[0].id);
    } else {
      assert fs[1..][i - 1] == fs[i];
      assert LastWriter(fs[1..], i - 1, o) by {
        forall j | i - 1 < j < |fs| - 1 ensures fs[1..][j].id != fs[1..][i - 1].id || o.analyze(fs[1..][j]).None? {
          assert fs[1..][j] == fs[j + 1];
        }
      }
      ProcessedLastWriter(st1, fs[1..], o, i - 1);
    }
  }

  /** One failure never stops the others: every fragment whose analysis and
      write both succeed ends up stored. */
  lemma {:induction false} ProcessedStored(st: State, fs: seq<Fragment>, o: Oracles, i: nat)
    requires i < |fs| && o.analyze(fs[i]).Some?
    requires o.persist(Analyzed(fs[i], o.analyze(fs[i]).value, o))
    ensures Analyzed(fs[i], o.analyze(fs[i]).value, o) in ProcessFragments(st, fs, o).stored
    decreases |fs|
  {
    var st1 := ProcessFragment(st, fs[0], o);
    if i == 0 {
      var g := Analyzed(fs[0], o.analyze(fs[0]).value, o);
      var r := ProcessFragments(st1, fs[1..], o);
      assert st1.stored[|st1.stored| - 1] == g;
      assert r.stored[|st1.stored| - 1] == g;
    } else {
      assert fs[1..][i - 1] == fs[i];
      ProcessedStored(st1, fs[1..], o, i - 1);
    }
  }

  // ---------------------------------------------------------------------
  // Relationships
  // ---------------------------------------------------------------------

  function Refs(fs: seq<Fragment>): (r: seq<L.FragmentRef>)
    ensures |r| == |fs|
  {
    seq(|fs|, i requires 0 <= i < |fs| => L.FragmentRef(fs[i].id, fs[i].text, KindName(fs[i].kind)))
  }

  /** What the relationship pass did: the rate limiter afterwards, every
      relationship whose write was attempted, and those that were written. */
  datatype RelationshipPass = RelationshipPass(
    limiter: L.Limiter, attempted: seq<L.FragmentRelationship>, created: seq<L.FragmentRelationship>)

  /** The writes that succeed, in order. */
  function Written(rels: seq<L.FragmentRelationship>, ok: L.FragmentRelationship -> bool)
    : (r: seq<L.FragmentRelationship>)
    ensures |r| <= |rels|
    ensures forall x :: x in r <==> x in rels && ok(x)
  {
    if |rels| == 0 then []
    else if ok(rels[0]) then [rels[0]] + Written(rels[1..], ok)
    else Written(rels[1..], ok)
  }

  /** `createFragmentRelationships`: nothing for fewer than two fragments;
      otherwise every relationship found is attempted, a failed write
      skipping only itself. */
  function CreateFragmentRelationships(
    l: L.Limiter, fs: seq<Fragment>, now: int, resumedAt: int,
    reply: Option<string>, parse: string -> Option<L.RelationshipReply>,
    writeOk: L.FragmentRelationship -> bool)
    : (r: RelationshipPass)
    ensures |fs| < 2 ==> r == RelationshipPass(l, [], [])
    ensures |fs| >= 2 ==>
              (r.limiter, r.attempted) == L.FindFragmentRelationships(l, now, resumedAt, Refs(fs), reply, parse)
    ensures forall x :: x in r.created <==> x in r.attempted && writeOk(x)
  {
    if |fs| < 2 then RelationshipPass(l, [], [])
    else
      var (l', rels) := L.FindFragmentRelationships(l, now, resumedAt, Refs(fs), reply, parse);
      RelationshipPass(l', rels, Written(rels, writeOk))
  }

  /** The result of `processAgentSteps`. */
  datatype Ingest = Ingest(state: State, fragments: seq<Fragment>, relationships: RelationshipPass)

  /** The rate limiter after the analyses of fragments `i` up to `n`. Each
      `processFragment` awaits its own analysis, so every fragment goes out
      as a batch of one and charges the limiter once; `clock(j)` is the
      clock reading of the `j`-th charge and the reading after its sleep. */
  function Charged(l: L.Limiter, clock: nat -> (int, int), i: nat, n: nat): (r: L.Limiter)
    ensures i >= n ==> r == l
    ensures i < n ==> 1 <= r.requestCount <= L.MaxRequestsPerMinute
    decreases n - i
  {
    if i >= n then l
    else Charged(L.EnforceRateLimit(l, clock(i).0, clock(i).1).limiter, clock, i + 1, n)
  }

  /** Charges made at one instant are the limiter's burst. */
  lemma {:induction false} ChargedIsBurst(l: L.Limiter, clock: nat -> (int, int), i: nat, n: nat, now: int, resumedAt: int)
    requires forall j :: i <= j < n ==> clock(j) == (now, resumedAt)
    ensures i <= n ==> Charged(l, clock, i, n) == L.Burst(l, now, resumedAt, n - i).0
    decreases n - i
  {
    if i < n {
      var a := L.EnforceRateLimit(l, now, resumedAt);
      assert clock(i) == (now, resumedAt);
      ChargedIsBurst(a.limiter, clock, i + 1, n, now, resumedAt);
    }
  }

  /** `processAgentSteps`: extract every step's fragments in step order,
      process each (its analysis charging the rate limiter), then run the
      relationship pass over all of them at clock reading `clock(n)`, where
      `n` is the number of fragments. Fragment ids use the extraction time
      `now`. It always returns: there is no failure outcome. */
  function ProcessAgentSteps(
    st: State, l: L.Limiter, steps: seq<AgentStep>, sessionId: string, taskId: string,
    now: int, clock: nat -> (int, int), o: Oracles,
    reply: Option<string>, parse: string -> Option<L.RelationshipReply>,
    writeOk: L.FragmentRelationship -> bool)
    : (r: Ingest)
    ensures r.fragments == AllFragments(steps, sessionId, taskId, now)
    ensures r.state == ProcessFragments(st, r.fragments, o)
  {
    var fs := AllFragments(steps, sessionId, taskId, now);
    var n := |fs|;
    Ingest(ProcessFragments(st, fs, o), fs,
      CreateFragmentRelationships(Charged(l, clock, 0, n), fs, clock(n).0, clock(n).1, reply, parse, writeOk))
  }

  /** What an ingest leaves behind: the cache gains exactly the ids of the
      fragments whose analysis succeeded, every fragment whose analysis and
      write succeed is stored whatever happened to the others, and fewer
      than two fragments skip the relationship pass. */
  lemma ProcessAgentStepsSpec(
    st: State, l: L.Limiter, steps: seq<AgentStep>, sessionId: string, taskId: string,
    now: int, clock: nat -> (int, int), o: Oracles,
    reply: Option<string>, parse: string -> Option<L.RelationshipReply>,
    writeOk: L.FragmentRelationship -> bool)
    ensures var r := ProcessAgentSteps(st, l, steps, sessionId, taskId, now, clock, o, reply, parse, writeOk);
      && r.state.cache.Keys == st.cache.Keys + SucceededIds(r.fragments, o)
      && st.stored <= r.state.stored
      && (forall i :: 0 <= i < |r.fragments| && o.analyze(r.fragments[i]).Some?
            && o.persist(Analyzed(r.fragments[i], o.analyze(r.fragments[i]).value, o))
            ==> Analyzed(r.fragments[i], o.analyze(r.fragments[i]).value, o) in r.state.stored)
      && (|r.fragments| < 2 ==> r.relationships.attempted == [] && r.relationships.created == [])
  {
    var fs := AllFragments(steps, sessionId, taskId, now);
    ProcessedKeys(st, fs, o);
    forall i | 0 <= i < |fs| && o.analyze(fs[i]).Some? && o.persist(Analyzed(fs[i], o.analyze(fs[i]).value, o))
      ensures Analyzed(fs[i], o.analyze(fs[i]).value, o) in ProcessFragments(st, fs, o).stored
    {
      ProcessedStored(st, fs, o, i);
    }
  }

  /** The relationship request is admitted by the rate limiter as the
      fragment analyses left it; a pass that never reaches the model leaves
      the limiter as the analyses left it. */
  lemma IngestLimiter(
    st: State, l: L.Limiter, steps: seq<AgentStep>, sessionId: string, taskId: string,
    now: int, clock: nat -> (int, int), o: Oracles,
    reply: Option<string>, parse: string -> Option<L.RelationshipReply>,
    writeOk: L.FragmentRelationship -> bool)
    ensures var r := ProcessAgentSteps(st, l, steps, sessionId, taskId, now, clock, o, reply, parse, writeOk);
      var n := |r.fragments|;
      && (L.RelationshipSizeOk(n) ==>
            r.relationships.limiter == L.EnforceRateLimit(Charged(l, clock, 0, n), clock(n).0, clock(n).1).limiter)
      && (!L.RelationshipSizeOk(n) ==> r.relationships.limiter == Charged(l, clock, 0, n))
  {
  }

  /** A step list yielding more than ten fragments never reaches the model
      for relationships: nothing is attempted, and the rate limiter is left
      as the fragment analyses left it. */
  lemma LargeIngestSkipsRelationships(
    st: State, l: L.Limiter, steps: seq<AgentStep>, sessionId: string, taskId: string,
    now: int, clock: nat -> (int, int), o: Oracles,
    reply: Option<string>, parse: string -> Option<L.RelationshipReply>,
    writeOk: L.FragmentRelationship -> bool)
    requires |AllFragments(steps, sessionId, taskId, now)| > L.MaxRelationshipFragments
    ensures ProcessAgentSteps(st, l, steps, sessionId, taskId, now, clock, o, reply, parse, writeOk).relationships
            == RelationshipPass(Charged(l, clock, 0, |AllFragments(steps, sessionId, taskId, now)|), [], [])
  {
  }

  /** Two fragments analysed at one instant in a window that has already
      counted ten requests bring it to twelve, so the relationship request
      that follows has to sleep out the window. */
  lemma BusyWindowDelaysRelationships(
    st: State, l: L.Limiter, steps: seq<AgentStep>, sessionId: string, taskId: string,
    now: int, resumedAt: int, clock: nat -> (int, int), o: Oracles,
    reply: Option<string>, parse: string -> Option<L.RelationshipReply>,
    writeOk: L.FragmentRelationship -> bool)
    requires |AllFragments(steps, sessionId, taskId, now)| == 2
    requires !L.WindowExpired(l, now) && l.requestCount == 10
    requires forall j :: j <= 2 ==> clock(j) == (now, resumedAt)
    ensures ProcessAgentSteps(st, l, steps, sessionId, taskId, now, clock, o, reply, parse, writeOk).relationships.limiter
            == L.Limiter(resumedAt, 1)
  {
    ChargedIsBurst(l, clock, 0, 2, now, resumedAt);
    L.BurstWithinWindow(l, now, resumedAt, 2);
    assert clock(2) == (now, resumedAt);
    assert L.MustWait(Charged(l, clock, 0, 2), now);
  }
}

=== FILE: llm_service.dfy ===
/** The deterministic part of `LLMService` (web-interface/src/lib/llm-service.ts):
    the keyword fallback analysis, the clean-up of model replies, the
    index-aligned mapping of a batch reply back onto its fragments, the
    fixed-window rate limiter, the batching request queue and the size guard
    of relationship finding.

    The Gemini call is not modelled: every operation that calls it takes the
    model's reply as a parameter (`None` when the call throws), and `JSON.parse`
    is a parameter `parse` returning `None` when it throws. Clock readings are
    parameters too. */
module LlmService {
  import opened Options
  import opened Text
  import Seqs

  const BatchSize: nat := 8
  const BatchDelay: nat := 1500
  const RateLimitWindow: int := 60000
  const MaxRequestsPerMinute: nat := 12
  const MinRelationshipFragments: nat := 2
  const MaxRelationshipFragments: nat := 10
  const SummaryLength: nat := 100

  datatype FragmentKind = Memory | Evaluation | Goal | Action | MegaBatch

  function KindName(k: FragmentKind): string {
    match k
    case Memory => "memory"
    case Evaluation => "evaluation"
    case Goal => "goal"
    case Action => "action"
    case MegaBatch => "mega_batch"
  }

  datatype ReasoningFragment =
    ReasoningFragment(text: string, kind: FragmentKind, context: Option<string>, stepNumber: int)

  datatype ConceptLink = ConceptLink(from: string, to: string, linkType: string, strength: real)

  datatype Analysis = Analysis(
    concepts: seq<string>,
    entities: seq<string>,
    relationships: seq<ConceptLink>,
    summary: string,
    keyInsights: seq<string>)

  /** One element of the `analyses` array as the model returned it; every
      field may be missing. */
  datatype RawAnalysis = RawAnalysis(
    fragmentIndex: Option<int>,
    concepts: Option<seq<string>>,
    entities: Option<seq<string>>,
    relationships: Option<seq<ConceptLink>>,
    summary: Option<string>,
    keyInsights: Option<seq<string>>)

  /** The parsed top-level reply object of a batch or mega-batch request. */
  datatype BatchReply = BatchReply(analyses: Option<seq<RawAnalysis>>)

  datatype FragmentRelationship = FragmentRelationship(
    fragmentId1: string,
    fragmentId2: string,
    relationshipType: string,
    strength: real,
    explanation: string)

  /** The parsed reply of a relationship request. */
  datatype RelationshipReply = RelationshipReply(relationships: Option<seq<FragmentRelationship>>)

  /** What relationship finding is told about a fragment. */
  datatype FragmentRef = FragmentRef(id: string, text: string, kind: string)

  // ---------------------------------------------------------------------
  // Fallback analysis
  // ---------------------------------------------------------------------

  const StopWords: seq<string> := [
    "the", "and", "for", "are", "but", "not", "you", "all", "can", "had", "her",
    "was", "one", "our", "out", "day", "get", "has", "him", "his", "how", "man",
    "new", "now", "old", "see", "two", "way", "who", "boy", "did", "its", "let",
    "put", "say", "she", "too", "use"]

  /** A token the fallback keeps as a concept: longer than three UTF-16
      code units and not a stop word. */
  predicate IsKeyword(w: string) {
    Utf16Length(w) > 3 && w !in StopWords
  }

  /** The keyword tokens of `ws`, in order. */
  function Keywords(ws: seq<string>): (r: seq<string>)
    ensures |r| <= |ws|
    ensures forall k :: 0 <= k < |r| ==> IsKeyword(r[k]) && r[k] in ws
    ensures forall w :: w in ws && IsKeyword(w) ==> w in r
  {
    if |ws| == 0 then []
    else if IsKeyword(ws[0]) then [ws[0]] + Keywords(ws[1..])
    else Keywords(ws[1..])
  }

  /** The keywords are `ws.filter(isKeyword)`: every keyword token, in token
      order, repeats included. */
  lemma {:induction false} KeywordsIsFilter(ws: seq<string>)
    ensures Keywords(ws) == Seqs.Filter(IsKeyword, ws)
  {
    if |ws| > 0 {
      KeywordsIsFilter(ws[1..]);
    }
  }

  /** Every stop word has three letters, so the length test alone already
      rejects all of them: the stop list never changes the outcome. */
  lemma StopListIsRedundant(w: string)
    ensures IsKeyword(w) <==> Utf16Length(w) > 3
  {
    if w in StopWords {
      StopWordsShort();
      BmpLength(w);
    }
  }

  /** Every stop word is three characters, none of them a surrogate pair. */
  lemma StopWordsShort()
    ensures forall w :: w in StopWords ==> |w| == 3 && Bmp(w)
  {
    assert forall k :: 0 <= k < |StopWords| ==> |StopWords[k]| == 3 && Bmp(StopWords[k]);
  }

  /** The lower-cased whitespace-separated tokens of a fragment's text. */
  function Tokens(text: string): seq<string> {
    SplitWs(Lower(text))
  }

  /** The fallback's concepts: the first five keyword tokens. */
  function FallbackConcepts(text: string): (r: seq<string>)
    ensures r <= Keywords(Tokens(text))
    ensures |r| == if |Keywords(Tokens(text))| < 5 then |Keywords(Tokens(text))| else 5
    ensures forall k :: 0 <= k < |r| ==> IsKeyword(r[k]) && NoSpace(r[k]) && r[k] in Tokens(text)
    ensures |Keywords(Tokens(text))| <= 5 ==>
              forall w :: w in Tokens(text) && IsKeyword(w) ==> w in r
  {
    var ks := Keywords(Tokens(text));
    if |ks| <= 5 then ks else ks[..5]
  }

  /** `createFallbackAnalysis`: never fails, finds no entities or links, and
      summarises by truncation. */
  function Fallback(f: ReasoningFragment): (a: Analysis)
    ensures a.concepts == FallbackConcepts(f.text)
    ensures a.entities == [] && a.relationships == []
    ensures |a.summary| == |Take(f.text, SummaryLength)| + 3
    ensures a.summary[..|a.summary| - 3] <= f.text && a.summary[|a.summary| - 3..] == "..."
    ensures |a.keyInsights| == 1
    ensures a.keyInsights[0] == KindName(f.kind) + " step focusing on: " + Join(", ", a.concepts)
  {
    var concepts := FallbackConcepts(f.text);
    var summary := Take(f.text, SummaryLength) + "...";
    assert summary[..|summary| - 3] == Take(f.text, SummaryLength);
    Analysis(concepts, [], [], summary,
      [KindName(f.kind) + " step focusing on: " + Join(", ", concepts)])
  }

  /** The fallback applied to a whole batch. */
  function FallbackAll(fs: seq<ReasoningFragment>): (r: seq<Analysis>)
    ensures |r| == |fs|
    ensures forall i :: 0 <= i < |fs| ==> r[i] == Fallback(fs[i])
  {
    seq(|fs|, i requires 0 <= i < |fs| => Fallback(fs[i]))
  }

  // ---------------------------------------------------------------------
  // Reply clean-up
  // ---------------------------------------------------------------------

  const Fence: string := "```"
  const JsonFence: string := "```json"

  /** `s.replace(new RegExp(m + "\\s*", "g"), "")`: removes, left to right,
      every occurrence of `m` together with the whitespace that follows it. */
  function StripFence(s: string, m: string): (r: string)
    requires |m| > 0
    ensures |r| <= |s|
    decreases |s|
  {
    if |s| == 0 then ""
    else if m <= s then StripFence(TrimStart(s[|m|..]), m)
    else [s[0]] + StripFence(s[1..], m)
  }

  /** Text without an occurrence of `m` passes through unchanged. */
  lemma {:induction false} StripFenceNone(s: string, m: string)
    requires |m| > 0 && forall i :: !OccursAt(s, m, i)
    ensures StripFence(s, m) == s
    decreases |s|
  {
    if |s| > 0 {
      NotAtHead(s, m);
      forall i ensures !OccursAt(s[1..], m, i) {
        if i >= 0 { OccursShift(s, m, i); }
      }
      StripFenceNone(s[1..], m);
    }
  }

  /** At the first occurrence of `m`, the text before it is kept as it is,
      and the scan resumes after `m` and the whitespace that follows it. */
  lemma StripFenceFirst(s: string, m: string, i: nat)
    requires |m| > 0 && OccursAt(s, m, i)
    requires forall j :: 0 <= j < i ==> !OccursAt(s, m, j)
    ensures StripFence(s, m) == s[..i] + StripFence(TrimStart(s[i + |m|..]), m)
  {
    var p, q := s[..i], s[i..];
    assert p + q == s by {}
    assert q[|m|..] == s[i + |m|..] by {}
    StripFencePrefix(p, q, m);
    AtHead(q, m);
  }

  /** A prefix in which no occurrence of `m` starts is kept as it is. */
  lemma {:induction false} StripFencePrefix(p: string, q: string, m: string)
    requires |m| > 0
    requires forall j :: 0 <= j < |p| ==> !OccursAt(p + q, m, j)
    ensures StripFence(p + q, m) == p + StripFence(q, m)
    decreases |p|
  {
    if |p| == 0 {
      assert p + q == q;
    } else {
      var s, t := p + q, p[1..] + q;
      assert s[1..] == t && s[0] == p[0] by {}
      NotAtHead(s, m);
      assert forall j :: 0 <= j < |p| - 1 ==> !OccursAt(t, m, j) by {
        forall j | 0 <= j < |p| - 1 ensures !OccursAt(t, m, j) {
          OccursShift(s, m, j);
        }
      }
      StripFencePrefix(p[1..], q, m);
      assert [p[0]] + (p[1..] + StripFence(q, m)) == p + StripFence(q, m) by {
        assert p == [p[0]] + p[1..];
      }
    }
  }

  /** Where `m` starts the text, it goes with the whitespace after it. */
  lemma AtHead(s: string, m: string)
    requires |m| > 0 && OccursAt(s, m, 0)
    ensures StripFence(s, m) == StripFence(TrimStart(s[|m|..]), m)
  {
    assert s[0..|m|] == m;
    assert m <= s;
  }

  /** Where `m` does not start the text, its first character is kept. */
  lemma NotAtHead(s: string, m: string)
    requires |m| > 0 && |s| > 0 && !OccursAt(s, m, 0)
    ensures StripFence(s, m) == [s[0]] + StripFence(s[1..], m)
  {
    assert |m| <= |s| ==> (s[0..|m|] == m <==> m <= s);
  }

  lemma OccursShift(s: string, m: string, j: nat)
    requires |s| > 0
    ensures OccursAt(s[1..], m, j) <==> OccursAt(s, m, j + 1)
  {
    if 0 <= j && j + |m| <= |s| - 1 {
      assert s[1..][j..j + |m|] == s[j + 1..j + 1 + |m|];
    }
  }

  /** Stripping fences never puts a backtick first unless the input had one. */
  lemma StripFenceHead(s: string)
    ensures |StripFence(s, Fence)| > 0 && StripFence(s, Fence)[0] == '`' ==> |s| > 0 && s[0] == '`'
  {
  }

  lemma {:induction false} StripFenceTwoTicks(s: string)
    ensures |StripFence(s, Fence)| >= 2 && StripFence(s, Fence)[0] == '`' && StripFence(s, Fence)[1] == '`'
            ==> |s| >= 2 && s[0] == '`' && s[1] == '`'
  {
    if |s| > 0 && !(Fence <= s) {
      StripFenceHead(s[1..]);
    }
  }

  /** After the second replacement no fence is left anywhere: removing a
      fence never glues two halves into a new one. */
  lemma {:induction false} StripFenceLeavesNoFence(s: string)
    ensures forall i :: !OccursAt(StripFence(s, Fence), Fence, i)
    decreases |s|
  {
    var r := StripFence(s, Fence);
    if |s| == 0 {
    } else if Fence <= s {
      StripFenceLeavesNoFence(TrimStart(s[|Fence|..]));
    } else {
      var rest := StripFence(s[1..], Fence);
      StripFenceLeavesNoFence(s[1..]);
      StripFenceTwoTicks(s[1..]);
      assert r == [s[0]] + rest;
      assert !(s[0] == '`' && |rest| >= 2 && rest[0] == '`' && rest[1] == '`');
      ConsNoFence(s[0], rest);
    }
  }

  /** Putting one character in front of fence-free text makes a fence only
      when it completes one with the first two characters. */
  lemma ConsNoFence(c: char, rest: string)
    requires forall i :: !OccursAt(rest, Fence, i)
    requires !(c == '`' && |rest| >= 2 && rest[0] == '`' && rest[1] == '`')
    ensures forall i :: !OccursAt([c] + rest, Fence, i)
  {
    var r := [c] + rest;
    forall i | 0 <= i ensures !OccursAt(r, Fence, i) {
      if i == 0 {
        assert |r| >= 3 ==> r[0] == c && r[1] == rest[0] && r[2] == rest[1];
      } else if i + 3 <= |r| {
        assert r[i..i + 3] == rest[i - 1..i + 2];
        assert !OccursAt(rest, Fence, i - 1);
      }
    }
  }

  /** True when `s` has a `{` followed somewhere later by a `}`: when the
      regular expression `/\{[\s\S]*\}/` matches. */
  predicate HasBraceSpan(s: string) {
    IndexOf(s, '{').Some? && LastIndexOf(s, '}').Some?
    && IndexOf(s, '{').value < LastIndexOf(s, '}').value
  }

  /** `r` runs from the first `{` of `s` to its last `}`. */
  predicate BraceSpan(s: string, r: string)
    requires HasBraceSpan(s)
  {
    var i := IndexOf(s, '{').value;
    var j := LastIndexOf(s, '}').value;
    r == s[i..j + 1] && '{' !in s[..i] && '}' !in s[j + 1..]
  }

  /** `s.match(/\{[\s\S]*\}/)`: the greedy match runs from the first `{` to the
      last `}`; without a match the text is kept as it is. */
  function ExtractBraces(s: string): (r: string)
    ensures !HasBraceSpan(s) ==> r == s
    ensures HasBraceSpan(s) ==>
              var i := IndexOf(s, '{').value;
              var j := LastIndexOf(s, '}').value;
              && r == s[i..j + 1]
              && r[0] == '{' && r[|r| - 1] == '}'
              && '{' !in s[..i] && '}' !in s[j + 1..]
  {
    if HasBraceSpan(s) then s[IndexOf(s, '{').value..LastIndexOf(s, '}').value + 1] else s
  }

  lemma NoFenceInInfix(s: string, i: nat, j: nat)
    requires i <= j <= |s|
    requires forall k :: !OccursAt(s, Fence, k)
    ensures forall k :: !OccursAt(s[i..j], Fence, k)
  {
    forall k | OccursAt(s[i..j], Fence, k)
      ensures false
    {
      assert 0 <= k && k + 3 <= j - i;
      assert s[i..j][k] == s[i + k] && s[i..j][k + 1] == s[i + k + 1] && s[i..j][k + 2] == s[i + k + 2];
      assert s[i..j][k..k + 3] == s[i + k..i + k + 3];
      assert OccursAt(s, Fence, i + k);
    }
  }

  /** The reply text with the markdown fences removed, before brace extraction. */
  function Unfenced(text: string): string {
    StripFence(StripFence(Trim(text), JsonFence), Fence)
  }

  /** The clean-up applied to every reply before `JSON.parse`. */
  function CleanReply(text: string): (r: string)
    ensures CleanedFrom(Unfenced(text), r)
  {
    UnfencedNoFence(text);
    ExtractBracesClean(Unfenced(text));
    ExtractBraces(Unfenced(text))
  }

  /** No fence is left once both replacements have run. */
  lemma UnfencedNoFence(text: string)
    ensures forall i :: !OccursAt(Unfenced(text), Fence, i)
  {
    StripFenceLeavesNoFence(StripFence(Trim(text), JsonFence));
  }

  /** `r` is the cleaned form of the unfenced text `u`: it holds no fence,
      it is the span from the first `{` to the last `}` when `u` has one, and
      it is `u` itself otherwise. */
  ghost predicate CleanedFrom(u: string, r: string) {
    && (forall i :: !OccursAt(r, Fence, i))
    && (HasBraceSpan(u) ==> |r| >= 2 && r[0] == '{' && r[|r| - 1] == '}' && BraceSpan(u, r))
    && (!HasBraceSpan(u) ==> r == u)
  }

  /** Extracting the braces from fence-free text leaves it fence-free, and
      yields the span from the first `{` to the last `}` when there is one. */
  lemma ExtractBracesClean(u: string)
    requires forall i :: !OccursAt(u, Fence, i)
    ensures CleanedFrom(u, ExtractBraces(u))
  {
    if HasBraceSpan(u) {
      NoFenceInInfix(u, IndexOf(u, '{').value, LastIndexOf(u, '}').value + 1);
    }
  }

  // ---------------------------------------------------------------------
  // Mapping a batch reply back onto the fragments
  // ---------------------------------------------------------------------

  /** `analyses.find(a => a.fragmentIndex === i)`, as a position. */
  function FindAnalysis(raws: seq<RawAnalysis>, i: int): (r: Option<nat>)
    ensures r.None? ==> forall k :: 0 <= k < |raws| ==> raws[k].fragmentIndex != Some(i)
    ensures r.Some? ==> r.value < |raws| && raws[r.value].fragmentIndex == Some(i)
    ensures r.Some? ==> forall k :: 0 <= k < r.value ==> raws[k].fragmentIndex != Some(i)
  {
    if |raws| == 0 then None
    else if raws[0].fragmentIndex == Some(i) then Some(0)
    else match FindAnalysis(raws[1..], i)
      case None => None
      case Some(k) => Some(k + 1)
  }

  /** Missing fields of a returned analysis default to empty. */
  function Normalize(a: RawAnalysis): Analysis {
    Analysis(a.concepts.GetOr([]), a.entities.GetOr([]), a.relationships.GetOr([]),
      a.summary.GetOr(""), a.keyInsights.GetOr([]))
  }

  /** What slot `i` of a batch result holds: the first returned analysis
      claiming index `i`, or the fallback for fragment `i`. */
  function SlotResult(fs: seq<ReasoningFragment>, raws: seq<RawAnalysis>, i: nat): Analysis
    requires i < |fs|
  {
    match FindAnalysis(raws, i)
    case Some(k) => Normalize(raws[k])
    case None => Fallback(fs[i])
  }

  /** The results loop of `analyzeFragmentBatch` after `n` rounds: one
      result pushed per fragment index. */
  function MapAnalyses(fs: seq<ReasoningFragment>, raws: seq<RawAnalysis>, n: nat): (r: seq<Analysis>)
    requires n <= |fs|
    ensures |r| == n
    ensures forall i :: 0 <= i < n ==> r[i] == SlotResult(fs, raws, i)
  {
    if n == 0 then []
    else MapAnalyses(fs, raws, n - 1) + [SlotResult(fs, raws, n - 1)]
  }

  /** A reply that does not mention some fragment at all costs only that
      fragment its analysis: it alone gets the fallback. */
  lemma UnmentionedFragmentFallsBack(fs: seq<ReasoningFragment>, raws: seq<RawAnalysis>, i: nat)
    requires i < |fs|
    requires forall k :: 0 <= k < |raws| ==> raws[k].fragmentIndex != Some(i)
    ensures MapAnalyses(fs, raws, |fs|)[i] == Fallback(fs[i])
  {
    if FindAnalysis(raws, i).Some? {
      assert false;
    }
  }

  // ---------------------------------------------------------------------
  // Rate limiter
  // ---------------------------------------------------------------------

  datatype Limiter = Limiter(lastRequestTime: int, requestCount: nat)

  const InitialLimiter: Limiter := Limiter(0, 0)

  /** The outcome of `enforceRateLimit`: the new counters and how long the
      caller slept (0 when it did not). */
  datatype Admission = Admission(limiter: Limiter, waited: int)

  /** True when the window that started at `l.lastRequestTime` is over. */
  predicate WindowExpired(l: Limiter, now: int) {
    now - l.lastRequestTime > RateLimitWindow
  }

  /** True when a call at `now` has to sleep until the window ends. */
  predicate MustWait(l: Limiter, now: int) {
    !WindowExpired(l, now) && l.requestCount >= MaxRequestsPerMinute
  }

  /** `enforceRateLimit`. `resumedAt` is the clock reading after the sleep. */
  function EnforceRateLimit(l: Limiter, now: int, resumedAt: int): (r: Admission)
    ensures 1 <= r.limiter.requestCount <= MaxRequestsPerMinute
    ensures r.waited >= 0
    ensures WindowExpired(l, now) ==> r == Admission(Limiter(now, 1), 0)
    ensures MustWait(l, now) ==>
              r.limiter == Limiter(resumedAt, 1)
              && r.waited == RateLimitWindow - (now - l.lastRequestTime)
    ensures now >= l.lastRequestTime ==> r.waited <= RateLimitWindow
    ensures !WindowExpired(l, now) && !MustWait(l, now) ==>
              r == Admission(Limiter(l.lastRequestTime, l.requestCount + 1), 0)
  {
    var l1 := if WindowExpired(l, now) then Limiter(now, 0) else l;
    if l1.requestCount >= MaxRequestsPerMinute then
      Admission(Limiter(resumedAt, 1), RateLimitWindow - (now - l1.lastRequestTime))
    else
      Admission(l1.(requestCount := l1.requestCount + 1), 0)
  }

  /** `k` calls in a row at the same instant `now`; each sleeper resumes at
      `resumedAt`. Returns the counters and how many of the calls slept. */
  function Burst(l: Limiter, now: int, resumedAt: int, k: nat): (Limiter, nat)
    decreases k
  {
    if k == 0 then (l, 0)
    else
      var a := EnforceRateLimit(l, now, resumedAt);
      var (l', waits) := Burst(a.limiter, now, resumedAt, k - 1);
      (l', waits + (if a.waited > 0 || MustWait(l, now) then 1 else 0))
  }

  lemma {:induction false} BurstWithinWindow(l: Limiter, now: int, resumedAt: int, k: nat)
    requires !WindowExpired(l, now)
    requires l.requestCount + k <= MaxRequestsPerMinute
    ensures Burst(l, now, resumedAt, k) == (Limiter(l.lastRequestTime, l.requestCount + k), 0)
    decreases k
  {
    if k > 0 {
      var a := EnforceRateLimit(l, now, resumedAt);
      BurstWithinWindow(a.limiter, now, resumedAt, k - 1);
    }
  }

  /** Twelve calls in a fresh window all go through at once, and the
      thirteenth has to wait out the rest of the window. */
  lemma ThirteenthCallWaits(l: Limiter, now: int, resumedAt: int)
    requires WindowExpired(l, now)
    ensures Burst(l, now, resumedAt, 12) == (Limiter(now, 12), 0)
    ensures MustWait(Burst(l, now, resumedAt, 12).0, now)
    ensures EnforceRateLimit(Burst(l, now, resumedAt, 12).0, now, resumedAt)
            == Admission(Limiter(resumedAt, 1), RateLimitWindow)
  {
    var a := EnforceRateLimit(l, now, resumedAt);
    assert a.limiter == Limiter(now, 1) && a.waited == 0;
    BurstWithinWindow(a.limiter, now, resumedAt, 11);
  }

  // ---------------------------------------------------------------------
  // Batch analysis
  // ---------------------------------------------------------------------

  /** `analyzeFragmentBatch`: charges the rate limiter once, then maps the
      reply onto the fragments; a failed call or an unparsable reply gives
      every fragment its fallback. It never fails. */
  function AnalyzeFragmentBatch(
    l: Limiter, now: int, resumedAt: int,
    fs: seq<ReasoningFragment>, reply: Option<string>, parse: string -> Option<BatchReply>)
    : (r: (Limiter, seq<Analysis>))
    ensures r.0 == EnforceRateLimit(l, now, resumedAt).limiter
    ensures |r.1| == |fs|
    ensures reply.None? ==> r.1 == FallbackAll(fs)
    ensures reply.Some? && parse(CleanReply(reply.value)).None? ==> r.1 == FallbackAll(fs)
    ensures reply.Some? && parse(CleanReply(reply.value)).Some? ==>
              var raws := parse(CleanReply(reply.value)).value.analyses.GetOr([]);
              forall i :: 0 <= i < |fs| ==> r.1[i] == SlotResult(fs, raws, i)
  {
    var l' := EnforceRateLimit(l, now, resumedAt).limiter;
    match reply
    case None => (l', FallbackAll(fs))
    case Some(text) =>
      match parse(CleanReply(text))
      case None => (l', FallbackAll(fs))
      case Some(p) => (l', MapAnalyses(fs, p.analyses.GetOr([]), |fs|))
  }

  /** `processMegaBatch`: one pre-built prompt, charged once; a failure of
      either kind yields an empty analyses array. */
  function ProcessMegaBatch(
    l: Limiter, now: int, resumedAt: int, reply: Option<string>, parse: string -> Option<BatchReply>)
    : (r: (Limiter, BatchReply))
    ensures r.0 == EnforceRateLimit(l, now, resumedAt).limiter
    ensures reply.None? ==> r.1 == BatchReply(Some([]))
    ensures reply.Some? ==> r.1 == parse(CleanReply(reply.value)).GetOr(BatchReply(Some([])))
  {
    var l' := EnforceRateLimit(l, now, resumedAt).limiter;
    match reply
    case None => (l', BatchReply(Some([])))
    case Some(text) => (l', parse(CleanReply(text)).GetOr(BatchReply(Some([]))))
  }

  // ---------------------------------------------------------------------
  // Request queue
  // ---------------------------------------------------------------------

  datatype Request = Request(id: string, fragment: ReasoningFragment)

  datatype Resolution = Resolution(id: string, analysis: Analysis)

  /** The service's mutable fields: pending requests, the in-progress flag,
      the deadline of the armed batch timer, and the rate-limit counters. */
  datatype Service = Service(queue: seq<Request>, processing: bool, timer: Option<int>, limiter: Limiter)

  const InitialService: Service := Service([], false, None, InitialLimiter)

  /** The first half of `processBatch`, up to the await: takes at most
      `BatchSize` requests off the head of the queue and raises the flag. */
  function BeginBatch(s: Service): (r: (Service, seq<Request>))
    ensures s.processing || |s.queue| == 0 ==> r == (s, [])
    ensures !s.processing && |s.queue| > 0 ==>
              && r.0.processing
              && 1 <= |r.1| <= BatchSize
              && |r.1| == (if |s.queue| < BatchSize then |s.queue| else BatchSize)
              && r.1 + r.0.queue == s.queue
              && r.0.timer == s.timer && r.0.limiter == s.limiter
  {
    if s.processing || |s.queue| == 0 then (s, [])
    else
      var n := if |s.queue| < BatchSize then |s.queue| else BatchSize;
      (s.(processing := true, queue := s.queue[n..]), s.queue[..n])
  }

  /** `scheduleBatchProcessing` at time `now`: re-arms the timer, or, when a
      full batch is waiting, disarms it and starts a batch straight away. */
  function ScheduleBatch(s: Service, now: int): (r: (Service, seq<Request>))
    ensures |s.queue| < BatchSize ==> r == (s.(timer := Some(now + BatchDelay)), [])
    ensures |s.queue| >= BatchSize ==> r.0.timer == None
    ensures |s.queue| >= BatchSize && !s.processing ==> |r.1| == BatchSize && r.1 + r.0.queue == s.queue
    ensures |s.queue| >= BatchSize && s.processing ==> r == (s.(timer := None), [])
  {
    if |s.queue| >= BatchSize then BeginBatch(s.(timer := None))
    else (s.(timer := Some(now + BatchDelay)), [])
  }

  /** The batch timer going off at time `now`. */
  function TimerFires(s: Service, now: int): (r: (Service, seq<Request>))
    ensures s.timer.None? || s.timer.value > now ==> r == (s, [])
    ensures s.timer.Some? && s.timer.value <= now ==>
              r.0.timer == None && r.1 + r.0.queue == s.queue && r.0.limiter == s.limiter
    ensures s.timer.Some? && s.timer.value <= now && !s.processing && |s.queue| > 0 ==>
              r.0.processing && |r.1| == (if |s.queue| < BatchSize then |s.queue| else BatchSize)
    ensures s.timer.Some? && s.timer.value <= now && (s.processing || |s.queue| == 0) ==>
              r == (s.(timer := None), [])
  {
    if s.timer.Some? && s.timer.value <= now then BeginBatch(s.(timer := None)) else (s, [])
  }

  /** The outcome of `analyzeReasoningFragment`: an ordinary fragment is
      queued (and may start a batch); a mega-batch goes straight to the model. */
  datatype Dispatch =
    | Queued(service: Service, started: seq<Request>)
    | Bypassed(service: Service, reply: BatchReply)

  function AnalyzeReasoningFragment(
    s: Service, id: string, f: ReasoningFragment, now: int, resumedAt: int,
    reply: Option<string>, parse: string -> Option<BatchReply>): (r: Dispatch)
    ensures f.kind == MegaBatch <==> r.Bypassed?
    ensures r.Bypassed? ==> r.service == s.(limiter := EnforceRateLimit(s.limiter, now, resumedAt).limiter)
    ensures r.Queued? && |s.queue| + 1 < BatchSize ==>
              r.service.queue == s.queue + [Request(id, f)] && r.started == []
    ensures r.Queued? ==> r.started + r.service.queue == s.queue + [Request(id, f)]
  {
    if f.kind == MegaBatch then
      var (l', out) := ProcessMegaBatch(s.limiter, now, resumedAt, reply, parse);
      Bypassed(s.(limiter := l'), out)
    else
      var (s', started) := ScheduleBatch(s.(queue := s.queue + [Request(id, f)]), now);
      Queued(s', started)
  }

  function Fragments(rs: seq<Request>): (fs: seq<ReasoningFragment>)
    ensures |fs| == |rs|
    ensures forall i :: 0 <= i < |rs| ==> fs[i] == rs[i].fragment
  {
    seq(|rs|, i requires 0 <= i < |rs| => rs[i].fragment)
  }

  /** The id a request is resolved under. */
  function RequestId(q: Request): string { q.id }

  /** The id a resolution answers. */
  function ResolutionId(q: Resolution): string { q.id }

  /** Pairs every request of a batch with the result in the same slot. */
  function Resolve(batch: seq<Request>, results: seq<Analysis>): (r: seq<Resolution>)
    requires |results| == |batch|
    ensures |r| == |batch|
    ensures forall i :: 0 <= i < |batch| ==> r[i] == Resolution(batch[i].id, results[i])
  {
    seq(|batch|, i requires 0 <= i < |batch| => Resolution(batch[i].id, results[i]))
  }

  /** The result of finishing a batch: the new state, one resolution per
      request taken, and the next batch if finishing started one. */
  datatype Completion = Completion(service: Service, resolved: seq<Resolution>, started: seq<Request>)

  /** The second half of `processBatch`, after the await: analyse the batch,
      resolve each request with its slot, drop the flag, and reschedule at
      `doneAt` if requests arrived meanwhile. */
  function CompleteBatch(
    s: Service, batch: seq<Request>, now: int, resumedAt: int, doneAt: int,
    reply: Option<string>, parse: string -> Option<BatchReply>): (r: Completion)
    ensures |r.resolved| == |batch|
    ensures Seqs.Map(ResolutionId, r.resolved) == Seqs.Map(RequestId, batch)
    ensures forall i :: 0 <= i < |batch| ==>
              r.resolved[i].analysis == AnalyzeFragmentBatch(s.limiter, now, resumedAt, Fragments(batch), reply, parse).1[i]
    ensures r.service.limiter == EnforceRateLimit(s.limiter, now, resumedAt).limiter
    ensures |s.queue| == 0 ==> !r.service.processing && r.started == [] && r.service.queue == []
    ensures r.started + r.service.queue == s.queue
    ensures |s.queue| > 0 ==> r.service.timer.Some? || |r.started| > 0
    ensures |s.queue| == 0 ==> r.service.timer == s.timer
    ensures 0 < |s.queue| < BatchSize ==>
              && !r.service.processing && r.started == []
              && r.service.timer == Some(doneAt + BatchDelay)
    ensures |s.queue| >= BatchSize ==>
              && r.service.processing && r.service.timer == None
              && |r.started| == BatchSize
  {
    var (l', results) := AnalyzeFragmentBatch(s.limiter, now, resumedAt, Fragments(batch), reply, parse);
    var resolved := Resolve(batch, results);
    var s1 := s.(processing := false, limiter := l');
    if |s1.queue| > 0 then
      var (s2, started) := ScheduleBatch(s1, doneAt);
      Completion(s2, resolved, started)
    else Completion(s1, resolved, [])
  }

  /** Runs the queue to completion with no new arrivals: finish the batch in
      flight, then keep starting batches (by timer or by size) until the queue
      is empty. `llm` gives the reply to each batch. */
  function Drain(
    s: Service, inFlight: seq<Request>, now: int,
    llm: seq<ReasoningFragment> -> Option<string>, parse: string -> Option<BatchReply>)
    : (r: seq<Resolution>)
    requires s.processing <==> |inFlight| > 0
    ensures Seqs.Map(ResolutionId, r) == Seqs.Map(RequestId, inFlight) + Seqs.Map(RequestId, s.queue)
    decreases |s.queue| + |inFlight|, if |inFlight| > 0 then 0 else 1
  {
    if |inFlight| > 0 then
      var c := CompleteBatch(s, inFlight, now, now, now, llm(Fragments(inFlight)), parse);
      var rest := Drain(c.service, c.started, now, llm, parse);
      Seqs.MapAppend(RequestId, c.started, c.service.queue);
      Seqs.MapAppend(ResolutionId, c.resolved, rest);
      c.resolved + rest
    else if |s.queue| > 0 then
      var (s', batch) := BeginBatch(s.(timer := None));
      Seqs.MapAppend(RequestId, batch, s'.queue);
      Drain(s', batch, now, llm, parse)
    else []
  }

  /** Every queued request is resolved exactly once, in queue order. */
  lemma DrainResolvesEachRequestOnce(
    s: Service, now: int, llm: seq<ReasoningFragment> -> Option<string>, parse: string -> Option<BatchReply>)
    requires !s.processing
    ensures Seqs.Map(ResolutionId, Drain(s, [], now, llm, parse)) == Seqs.Map(RequestId, s.queue)
  {
    assert Seqs.Map(RequestId, []) + Seqs.Map(RequestId, s.queue) == Seqs.Map(RequestId, s.queue);
  }

  // ---------------------------------------------------------------------
  // Relationship finding
  // ---------------------------------------------------------------------

  predicate RelationshipSizeOk(n: nat) {
    MinRelationshipFragments <= n <= MaxRelationshipFragments
  }

  /** `findFragmentRelationships`. Out-of-range sizes are skipped without
      touching the rate limiter; failures give no relationships; otherwise
      the parsed list is returned as it is, with no strength filter. */
  function FindFragmentRelationships(
    l: Limiter, now: int, resumedAt: int, fs: seq<FragmentRef>,
    reply: Option<string>, parse: string -> Option<RelationshipReply>)
    : (r: (Limiter, seq<FragmentRelationship>))
    ensures !RelationshipSizeOk(|fs|) ==> r == (l, [])
    ensures RelationshipSizeOk(|fs|) ==> r.0 == EnforceRateLimit(l, now, resumedAt).limiter
    ensures reply.None? ==> r.1 == []
    ensures reply.Some? && parse(CleanReply(reply.value)).None? ==> r.1 == []
    ensures RelationshipSizeOk(|fs|) && reply.Some? && parse(CleanReply(reply.value)).Some? ==>
              r.1 == parse(CleanReply(reply.value)).value.relationships.GetOr([])
  {
    if !RelationshipSizeOk(|fs|) then (l, [])
    else
      var l' := EnforceRateLimit(l, now, resumedAt).limiter;
      match reply
      case None => (l', [])
      case Some(text) =>
        match parse(CleanReply(text))
        case None => (l', [])
        case Some(p) => (l', p.relationships.GetOr([]))
  }
}

=== FILE: neo4j_fold.dfy ===
/** The pure parts of the Neo4j service (web-interface/src/lib/neo4j-service.ts):
    concept-id derivation, and the folding of `(rf, r, other)` query records
    into a node list deduplicated by id and an edge list, for the
    per-session and the pooled graph. The Cypher queries and the driver are
    not modelled: the records are the input. */
module Neo4jFold {
  import opened Options
  import opened Text
  import Seqs

  // ---------------------------------------------------------------- concept ids

  /** `name.toLowerCase().replace(/\s+/g, '_')`. */
  function Normalize(name: string): (r: string)
    ensures NoSpace(r)
    ensures r == Join("_", SplitWs(Lower(name)))
  {
    ReplaceSpaceRunsIsSplitJoin(Lower(name), "_");
    ReplaceSpaceRuns(Lower(name), "_")
  }

  /** Every whitespace run of the lower-cased name becomes one `_`, and the
      text between the runs is kept. */
  lemma NormalizeRuns(name: string) returns (toks: seq<string>, gaps: seq<string>)
    ensures CutAtSpaceRuns(Lower(name), toks, gaps)
    ensures Normalize(name) == Weave(toks, Fill(|gaps|, "_"))
  {
    toks, gaps := ReplaceEachSpaceRun(Lower(name), "_");
  }

  /** `concept_${name.toLowerCase().replace(/\s+/g, '_')}`. */
  function ConceptId(name: string): (r: string)
    ensures |r| >= 8 && r[..8] == "concept_"
    ensures NoSpace(r)
    ensures r == "concept_" + Join("_", SplitWs(Lower(name)))
  {
    ConceptPrefix(Normalize(name));
    "concept_" + Normalize(name)
  }

  lemma ConceptPrefix(x: string)
    requires NoSpace(x)
    ensures NoSpace("concept_" + x) && ("concept_" + x)[..8] == "concept_"
  {
    assert NoSpace("concept_");
  }

  /** Lower-casing leaves the string alone. */
  predicate LowerStable(s: string) {
    forall i :: 0 <= i < |s| ==> LowerChar(s[i]) == s[i]
  }

  lemma LowerIsLowerStable(s: string)
    ensures LowerStable(Lower(s))
  {
  }

  lemma {:induction false} ReplaceSpaceRunsStable(s: string, rep: string)
    requires NoSpace(rep) && LowerStable(s) && LowerStable(rep)
    ensures LowerStable(ReplaceSpaceRuns(s, rep))
    decreases |s|
  {
    if |s| > 0 {
      if IsSpace(s[0]) {
        var t := TrimStart(s);
        assert forall i :: 0 <= i < |t| ==> t[i] == s[|s| - |t| + i];
        ReplaceSpaceRunsStable(t, rep);
        var r := ReplaceSpaceRuns(t, rep);
        assert forall i :: |rep| <= i < |rep| + |r| ==> (rep + r)[i] == r[i - |rep|];
      } else {
        assert forall i :: 0 <= i < |s| - 1 ==> s[1..][i] == s[i + 1];
        ReplaceSpaceRunsStable(s[1..], rep);
        var r := ReplaceSpaceRuns(s[1..], rep);
        assert forall i :: 1 <= i < 1 + |r| ==> ([s[0]] + r)[i] == r[i - 1];
      }
    }
  }

  /** Normalising a normalised name changes nothing, so a concept id
      derived from the name part of a concept id is the same id. */
  lemma NormalizeIdempotent(name: string)
    ensures Normalize(Normalize(name)) == Normalize(name)
  {
    var n := Normalize(name);
    LowerIsLowerStable(name);
    ReplaceSpaceRunsStable(Lower(name), "_");
    assert Lower(n) == n;
    ReplaceSpaceRunsNoSpace(n, "_");
  }

  /** Names that differ only in ASCII case share one concept node. */
  lemma ConceptIdCaseBlind(a: string, b: string)
    requires Lower(a) == Lower(b)
    ensures ConceptId(a) == ConceptId(b)
  {
  }

  /** A concept id is unchanged by lower-casing the name first. */
  lemma ConceptIdOfLowered(name: string)
    ensures ConceptId(Lower(name)) == ConceptId(name)
  {
    LowerIsLowerStable(name);
    assert Lower(Lower(name)) == Lower(name);
  }

  // ---------------------------------------------------------------- records

  /** The node properties the fold reads or writes. `kind` is the stored
      `type` (memory, evaluation, goal or action); `nodeType` is the field
      the pooled graph adds. */
  datatype Props = Props(id: string, text: Option<string>, name: Option<string>, kind: Option<string>,
                         nodeType: Option<string>)

  datatype DbNode = DbNode(labels: seq<string>, props: Props)

  /** A stored relationship: its type and its `strength` property. */
  datatype DbRel = DbRel(relType: string, strength: Option<real>)

  /** One `RETURN rf, r, other` record; `r` and `other` come from an
      OPTIONAL MATCH and may be null. */
  datatype Row = Row(rf: Option<DbNode>, rel: Option<DbRel>, other: Option<DbNode>)

  /** A graph node as the service returns it; `caption` (the `label` field) and `kind` (the
      `type` field) are `None` where the source yields `undefined`. */
  datatype GNode = GNode(id: string, caption: Option<string>, kind: Option<string>, props: Props)

  datatype GEdge = GEdge(source: string, target: string, relType: string, strength: Option<real>)

  datatype Graph = Graph(nodes: seq<GNode>, edges: seq<GEdge>)

  /** `getSessionKnowledgeGraph` or `getPooledKnowledgeGraph`. */
  datatype Variant = SessionGraph | PooledGraph

  function First(labels: seq<string>): Option<string> {
    if |labels| > 0 then Some(labels[0]) else None
  }

  /** `text.substring(0, 50) + '...'`. */
  function Snippet(text: string): (r: string)
    ensures |r| >= 3 && r[|r| - 3..] == "..."
    ensures var head := r[..|r| - 3];
      && head <= text && Utf16Length(head) <= 50
      && (Utf16Length(text) <= 50 ==> head == text)
      && (head != text ==> Utf16Length(text[..|head| + 1]) > 50)
  {
    Take(text, 50) + "..."
  }

  /** The session graph reads `rf.properties.text.substring(...)`, which
      throws when the text is missing. */
  predicate RfThrows(v: Variant, rf: DbNode) {
    v == SessionGraph && rf.props.text.None?
  }

  /** The node built for a fragment record (when it does not throw). */
  function RfNode(v: Variant, rf: DbNode): GNode {
    match v
    case SessionGraph =>
      GNode(rf.props.id, Some(Snippet(rf.props.text.GetOr(""))), Some("ReasonFragment"), rf.props)
    case PooledGraph =>
      var caption := if rf.props.text.Some? && rf.props.text.value != "" then Snippet(rf.props.text.value) else "Fragment";
      GNode(rf.props.id, Some(caption), Some("ReasonFragment"), rf.props.(nodeType := rf.props.kind))
  }

  /** The node built for the `other` end of a record. */
  function OtherNode(v: Variant, o: DbNode): GNode {
    match v
    case SessionGraph =>
      // `other.properties.text?.substring(0, 50) + '...'` yields "undefined..." without a text.
      var caption := if First(o.labels) == Some("Concept") then o.props.name
                   else Some(if o.props.text.Some? then Snippet(o.props.text.value) else "undefined...");
      GNode(o.props.id, caption, First(o.labels), o.props)
    case PooledGraph =>
      var concept := "Concept" in o.labels;
      var caption := if concept then o.props.name
                   else Some(if o.props.text.Some? && o.props.text.value != "" then Snippet(o.props.text.value) else "Node");
      GNode(o.props.id, caption, First(o.labels), o.props.(nodeType := if concept then Some("concept") else o.props.kind))
  }

  /** `relationship.properties.strength || 1.0` in the pooled graph; the
      session graph passes the stored properties through. */
  function EdgeStrength(v: Variant, rel: DbRel): (r: Option<real>)
    ensures v == PooledGraph ==> r.Some? && r.value != 0.0
    ensures v == PooledGraph && rel.strength.Some? && rel.strength.value != 0.0 ==> r == rel.strength
    ensures v == SessionGraph ==> r == rel.strength
  {
    match v
    case SessionGraph => rel.strength
    case PooledGraph => if rel.strength.None? || rel.strength.value == 0.0 then Some(1.0) else rel.strength
  }

  /** A record that yields an edge: it has both a relationship and an other end. */
  predicate IsLink(row: Row) {
    row.rel.Some? && row.other.Some?
  }

  function NodeIds(ns: seq<GNode>): set<string> {
    set i | 0 <= i < |ns| :: ns[i].id
  }

  /** `if (!nodes.has(n.id)) nodes.set(n.id, n)` on an insertion-ordered map. */
  function Insert(ns: seq<GNode>, n: GNode): (r: seq<GNode>)
    ensures NodeIds(r) == NodeIds(ns) + {n.id}
  {
    if n.id in NodeIds(ns) then ns
    else
      var r := ns + [n];
      assert NodeIds(r) == NodeIds(ns) + {n.id} by {
        forall x | x in NodeIds(r) ensures x in NodeIds(ns) + {n.id} {
          var i :| 0 <= i < |r| && r[i].id == x;
          if i < |ns| { assert r[i] == ns[i]; }
        }
        forall x | x in NodeIds(ns) ensures x in NodeIds(r) {
          var i :| 0 <= i < |ns| && ns[i].id == x;
          assert r[i] == ns[i];
        }
        assert r[|ns|] == n;
      }
      r
  }

  /** One `records.forEach` round; `None` when the round throws. */
  function Step(v: Variant, row: Row, g: Graph): Option<Graph> {
    if row.rf.Some? && row.rf.value.props.id !in NodeIds(g.nodes) && RfThrows(v, row.rf.value) then None
    else
      var ns1 := if row.rf.Some? then Insert(g.nodes, RfNode(v, row.rf.value)) else g.nodes;
      var ns2 := if row.other.Some? then Insert(ns1, OtherNode(v, row.other.value)) else ns1;
      if IsLink(row) then
        if row.rf.None? then None  // `rf.properties.id` on a null fragment
        else Some(Graph(ns2, g.edges + [GEdge(row.rf.value.props.id, row.other.value.props.id,
                                              row.rel.value.relType, EdgeStrength(v, row.rel.value))]))
      else Some(Graph(ns2, g.edges))
  }

  /** The whole `forEach`; `None` when some round throws. */
  function Fold(v: Variant, rows: seq<Row>, g: Graph): Option<Graph>
    decreases |rows|
  {
    if |rows| == 0 then Some(g)
    else match Step(v, rows[0], g)
      case None => None
      case Some(g1) => Fold(v, rows[1..], g1)
  }

  /** The service result: the folded graph, or the empty graph the `catch`
      returns. */
  function KnowledgeGraph(v: Variant, rows: seq<Row>): Graph {
    match Fold(v, rows, Graph([], []))
    case Some(g) => g
    case None => Graph([], [])
  }

  // ---------------------------------------------------------------- reference definitions

  /** The node candidates of one record, in the order the fold offers
      them: the fragment, then the other end. */
  function RowCandidates(v: Variant, row: Row): seq<GNode> {
    (if row.rf.Some? then [RfNode(v, row.rf.value)] else [])
    + (if row.other.Some? then [OtherNode(v, row.other.value)] else [])
  }

  function Candidates(v: Variant, rows: seq<Row>): seq<GNode>
    decreases |rows|
  {
    if |rows| == 0 then [] else RowCandidates(v, rows[0]) + Candidates(v, rows[1..])
  }

  function InsertAll(ns: seq<GNode>, cs: seq<GNode>): seq<GNode>
    decreases |cs|
  {
    if |cs| == 0 then ns else InsertAll(Insert(ns, cs[0]), cs[1..])
  }

  lemma {:induction false} InsertAllAppend(ns: seq<GNode>, a: seq<GNode>, b: seq<GNode>)
    ensures InsertAll(ns, a + b) == InsertAll(InsertAll(ns, a), b)
    decreases |a|
  {
    if |a| == 0 {
      assert a + b == b;
    } else {
      assert (a + b)[1..] == a[1..] + b;
      InsertAllAppend(Insert(ns, a[0]), a[1..], b);
    }
  }

  /** `r` keeps, in order, the first candidate carrying each id; `idx`
      gives their positions among the candidates. */
  ghost predicate FirstWins(cs: seq<GNode>, r: seq<GNode>, idx: seq<nat>) {
    && Seqs.Embedding(r, cs, idx)
    && (forall k, j :: 0 <= k < |idx| && 0 <= j < idx[k] ==> cs[j].id != r[k].id)
    && (forall i :: 0 <= i < |cs| ==> cs[i].id in NodeIds(r))
  }

  /** Ids are unique in a first-wins list. */
  lemma FirstWinsUnique(cs: seq<GNode>, r: seq<GNode>, idx: seq<nat>)
    requires FirstWins(cs, r, idx)
    ensures forall k, l :: 0 <= k < l < |r| ==> r[k].id != r[l].id
  {
    forall k, l | 0 <= k < l < |r| ensures r[k].id != r[l].id {
      assert idx[k] < idx[l];
      assert cs[idx[k]] == r[k];
    }
  }

  /** A candidate whose id is already kept is dropped. */
  lemma InsertKnown(cs: seq<GNode>, r: seq<GNode>, idx: seq<nat>, c: GNode)
    requires FirstWins(cs, r, idx) && c.id in NodeIds(r)
    ensures FirstWins(cs + [c], r, idx)
  {
    var cs1 := cs + [c];
    assert forall i :: 0 <= i < |cs| ==> cs1[i] == cs[i];
  }

  /** A candidate with a new id is kept, at the end. */
  lemma InsertNew(cs: seq<GNode>, r: seq<GNode>, idx: seq<nat>, c: GNode)
    requires FirstWins(cs, r, idx) && c.id !in NodeIds(r)
    ensures FirstWins(cs + [c], r + [c], idx + [|cs|])
  {
    var cs1, r1, idx1 := cs + [c], r + [c], idx + [|cs|];
    assert forall i :: 0 <= i < |cs| ==> cs1[i] == cs[i];
    assert forall k :: 0 <= k < |idx| ==> r1[k] == r[k] && idx1[k] == idx[k];
    assert Insert(r, c) == r1;
    forall k, j | 0 <= k < |idx1| && 0 <= j < idx1[k] ensures cs1[j].id != r1[k].id {
      if k == |idx| {
        assert cs[j].id in NodeIds(r);
      }
    }
  }

  lemma InsertStep(cs: seq<GNode>, r: seq<GNode>, idx: seq<nat>, c: GNode) returns (idx1: seq<nat>)
    requires FirstWins(cs, r, idx)
    ensures FirstWins(cs + [c], Insert(r, c), idx1)
  {
    if c.id in NodeIds(r) {
      InsertKnown(cs, r, idx, c);
      idx1 := idx;
    } else {
      InsertNew(cs, r, idx, c);
      idx1 := idx + [|cs|];
    }
  }

  /** Folding `Insert` over candidates keeps the first candidate per id. */
  lemma {:induction false} InsertAllFirstWins(cs0: seq<GNode>, r0: seq<GNode>, idx0: seq<nat>, cs: seq<GNode>)
    returns (idx: seq<nat>)
    requires FirstWins(cs0, r0, idx0)
    ensures FirstWins(cs0 + cs, InsertAll(r0, cs), idx)
    decreases |cs|
  {
    if |cs| == 0 {
      assert cs0 + cs == cs0;
      idx := idx0;
    } else {
      var cs1, r1 := cs0 + [cs[0]], Insert(r0, cs[0]);
      var idx1 := InsertStep(cs0, r0, idx0, cs[0]);
      assert cs1 + cs[1..] == cs0 + cs;
      assert InsertAll(r0, cs) == InsertAll(r1, cs[1..]);
      idx := InsertAllFirstWins(cs1, r1, idx1, cs[1..]);
    }
  }

  /** Every link record carries a fragment. */
  predicate Anchored(rows: seq<Row>) {
    forall i :: 0 <= i < |rows| && IsLink(rows[i]) ==> rows[i].rf.Some?
  }

  function LinkEdge(v: Variant, row: Row): GEdge
    requires IsLink(row) && row.rf.Some?
  {
    GEdge(row.rf.value.props.id, row.other.value.props.id, row.rel.value.relType, EdgeStrength(v, row.rel.value))
  }

  /** The edge a record contributes: one for a link record with a fragment. */
  function RowEdge(v: Variant, row: Row): seq<GEdge> {
    if IsLink(row) && row.rf.Some? then [LinkEdge(v, row)] else []
  }

  /** The edges of the link records that carry a fragment, in order. */
  function LinkEdges(v: Variant, rows: seq<Row>): seq<GEdge>
    decreases |rows|
  {
    if |rows| == 0 then [] else RowEdge(v, rows[0]) + LinkEdges(v, rows[1..])
  }

  lemma AnchoredCons(rows: seq<Row>)
    requires |rows| > 0 && Anchored(rows[1..]) && (IsLink(rows[0]) ==> rows[0].rf.Some?)
    ensures Anchored(rows)
  {
    forall i | 0 < i < |rows| && IsLink(rows[i]) ensures rows[i].rf.Some? {
      assert rows[i] == rows[1..][i - 1];
    }
  }

  /** One edge per link record. */
  lemma {:induction false} LinkEdgesCount(v: Variant, rows: seq<Row>)
    requires Anchored(rows)
    ensures |LinkEdges(v, rows)| == |Seqs.Filter(IsLink, rows)|
    decreases |rows|
  {
    if |rows| > 0 {
      assert forall i :: 0 <= i < |rows| - 1 ==> rows[1..][i] == rows[i + 1];
      LinkEdgesCount(v, rows[1..]);
      assert IsLink(rows[0]) ==> rows[0].rf.Some?;
    }
  }

  /** One round adds the record's candidates, first one per id kept. */
  lemma StepNodes(v: Variant, row: Row, g: Graph)
    requires Step(v, row, g).Some?
    ensures Step(v, row, g).value.nodes == InsertAll(g.nodes, RowCandidates(v, row))
  {
    var cs := RowCandidates(v, row);
    if row.rf.Some? && row.other.Some? {
      var n1 := Insert(g.nodes, cs[0]);
      assert cs[1..] == [OtherNode(v, row.other.value)];
      assert InsertAll(n1, cs[1..]) == InsertAll(Insert(n1, cs[1]), cs[2..]);
    } else if row.rf.Some? || row.other.Some? {
      assert cs[1..] == [];
    }
  }

  /** One round adds an edge exactly for a link record, which must carry
      a fragment. */
  lemma StepEdges(v: Variant, row: Row, g: Graph)
    requires Step(v, row, g).Some?
    ensures IsLink(row) ==> row.rf.Some?
    ensures Step(v, row, g).value.edges == g.edges + RowEdge(v, row)
  {
  }

  lemma AppendAssoc(a: seq<GEdge>, b: seq<GEdge>, c: seq<GEdge>)
    ensures (a + b) + c == a + (b + c)
  {
  }

  /** A successful fold is a successful first round followed by a
      successful fold of the rest. */
  lemma FoldCons(v: Variant, rows: seq<Row>, g: Graph)
    requires |rows| > 0 && Fold(v, rows, g).Some?
    ensures Step(v, rows[0], g).Some?
    ensures Fold(v, rows, g) == Fold(v, rows[1..], Step(v, rows[0], g).value)
  {
  }

  /** When the fold succeeds, its nodes are the candidates with the first
      one per id kept. */
  lemma {:induction false} FoldNodes(v: Variant, rows: seq<Row>, g: Graph)
    requires Fold(v, rows, g).Some?
    ensures Fold(v, rows, g).value.nodes == InsertAll(g.nodes, Candidates(v, rows))
    decreases |rows|
  {
    if |rows| > 0 {
      var g1 := Step(v, rows[0], g).value;
      StepNodes(v, rows[0], g);
      FoldNodes(v, rows[1..], g1);
      InsertAllAppend(g.nodes, RowCandidates(v, rows[0]), Candidates(v, rows[1..]));
    }
  }

  /** When the fold succeeds, every link record had a fragment. */
  lemma {:induction false} FoldAnchored(v: Variant, rows: seq<Row>, g: Graph)
    requires Fold(v, rows, g).Some?
    ensures Anchored(rows)
    decreases |rows|
  {
    if |rows| > 0 {
      var g1 := Step(v, rows[0], g).value;
      StepEdges(v, rows[0], g);
      FoldAnchored(v, rows[1..], g1);
      AnchoredCons(rows);
    }
  }

  /** When the fold succeeds, its edges follow the link records in order. */
  lemma {:induction false} FoldEdges(v: Variant, rows: seq<Row>, g: Graph)
    requires Fold(v, rows, g).Some?
    ensures Fold(v, rows, g).value.edges == g.edges + LinkEdges(v, rows)
    decreases |rows|
  {
    if |rows| > 0 {
      FoldCons(v, rows, g);
      var g1 := Step(v, rows[0], g).value;
      StepEdges(v, rows[0], g);
      FoldEdges(v, rows[1..], g1);
      AppendAssoc(g.edges, RowEdge(v, rows[0]), LinkEdges(v, rows[1..]));
    }
  }

  /** The returned graph, when no record throws: the first node per id, in
      the order the records offer them, ids unique, and one edge per link
      record. */
  lemma KnowledgeGraphSpec(v: Variant, rows: seq<Row>) returns (idx: seq<nat>)
    requires Fold(v, rows, Graph([], [])).Some?
    ensures var g := KnowledgeGraph(v, rows);
      && FirstWins(Candidates(v, rows), g.nodes, idx)
      && (forall k, l :: 0 <= k < l < |g.nodes| ==> g.nodes[k].id != g.nodes[l].id)
      && |g.edges| == |Seqs.Filter(IsLink, rows)|
  {
    var g0 := Graph([], []);
    var g := Fold(v, rows, g0).value;
    var cs := Candidates(v, rows);
    assert KnowledgeGraph(v, rows) == g;
    assert |g.edges| == |Seqs.Filter(IsLink, rows)| by {
      FoldEdges(v, rows, g0);
      FoldAnchored(v, rows, g0);
      LinkEdgesCount(v, rows);
    }
    assert g.nodes == InsertAll([], cs) by { FoldNodes(v, rows, g0); }
    assert FirstWins([], [], []);
    idx := InsertAllFirstWins([], [], [], cs);
    assert [] + cs == cs;
    FirstWinsUnique(cs, g.nodes, idx);
  }

  /** How a concept node is shown: by its name, and in the pooled graph
      with `nodeType` "concept". */
  predicate ConceptShown(v: Variant, n: GNode) {
    n.kind == Some("Concept") ==> n.caption == n.props.name && (v == PooledGraph ==> n.props.nodeType == Some("concept"))
  }

  lemma {:induction false} CandidatesShowConcepts(v: Variant, rows: seq<Row>)
    ensures forall c :: c in Candidates(v, rows) ==> ConceptShown(v, c)
    decreases |rows|
  {
    if |rows| > 0 {
      CandidatesShowConcepts(v, rows[1..]);
      var row := rows[0];
      if row.other.Some? {
        var o := row.other.value;
        assert First(o.labels) == Some("Concept") ==> "Concept" in o.labels;
      }
    }
  }

  /** Every concept node of the returned graph is shown by name, and the
      pooled graph tags it with `nodeType` "concept". */
  lemma ConceptNodesShown(v: Variant, rows: seq<Row>)
    ensures forall n :: n in KnowledgeGraph(v, rows).nodes ==> ConceptShown(v, n)
  {
    var g := KnowledgeGraph(v, rows);
    if Fold(v, rows, Graph([], [])).Some? {
      var idx := KnowledgeGraphSpec(v, rows);
      var cs := Candidates(v, rows);
      CandidatesShowConcepts(v, rows);
      forall n | n in g.nodes ensures ConceptShown(v, n) {
        var k :| 0 <= k < |g.nodes| && g.nodes[k] == n;
        assert cs[idx[k]] == n;
      }
    }
  }

  /** A link record without a fragment makes the whole call return the empty
      graph. */
  lemma {:induction false} DanglingLinkFails(v: Variant, rows: seq<Row>, g: Graph, i: nat)
    requires i < |rows| && IsLink(rows[i]) && rows[i].rf.None?
    ensures Fold(v, rows, g).None?
    decreases i
  {
    if i == 0 {
      DanglingStep(v, rows[0], g);
    } else {
      match Step(v, rows[0], g)
      case None =>
      case Some(g1) =>
        assert rows[1..][i - 1] == rows[i];
        DanglingLinkFails(v, rows[1..], g1, i - 1);
    }
  }

  lemma DanglingStep(v: Variant, row: Row, g: Graph)
    requires IsLink(row) && row.rf.None?
    ensures Step(v, row, g).None?
  {
  }

  /** The pooled fold never throws on records that all carry a fragment, as
      the query's `MATCH (rf:ReasonFragment)` guarantees. */
  lemma {:induction false} PooledFoldSucceeds(rows: seq<Row>, g: Graph)
    requires forall i :: 0 <= i < |rows| ==> rows[i].rf.Some?
    ensures Fold(PooledGraph, rows, g).Some?
    decreases |rows|
  {
    if |rows| > 0 {
      assert forall i :: 0 <= i < |rows| - 1 ==> rows[1..][i] == rows[i + 1];
      PooledFoldSucceeds(rows[1..], Step(PooledGraph, rows[0], g).value);
    }
  }

  // ---------------------------------------------------------------- pooled statistics

  /** The statistics record; each count may be missing. */
  datatype StatsRow = StatsRow(totalSessions: Option<int>, totalFragments: Option<int>, totalConcepts: Option<int>)

  datatype Stats = Stats(totalSessions: int, totalFragments: int, totalConcepts: int)

  /** `get(key)?.toNumber() || 0`. */
  function CountOrZero(c: Option<int>): (r: int)
    ensures c.None? ==> r == 0
    ensures c.Some? ==> r == c.value
  {
    c.GetOr(0)
  }

  /** The statistics: the first record's counts, missing ones as 0; all
      zeros without a record. */
  function PooledStats(rows: seq<StatsRow>): (r: Stats)
    ensures |rows| == 0 ==> r == Stats(0, 0, 0)
    ensures |rows| > 0 ==> r == Stats(CountOrZero(rows[0].totalSessions), CountOrZero(rows[0].totalFragments),
                                      CountOrZero(rows[0].totalConcepts))
  {
    if |rows| > 0 then
      Stats(CountOrZero(rows[0].totalSessions), CountOrZero(rows[0].totalFragments), CountOrZero(rows[0].totalConcepts))
    else Stats(0, 0, 0)
  }

  /** `getPooledKnowledgeGraph`: the pooled graph with its statistics, or
      an empty graph with zero statistics when the fold throws. */
  function PooledKnowledgeGraph(rows: seq<Row>, stats: seq<StatsRow>): (r: (Graph, Stats))
    ensures Fold(PooledGraph, rows, Graph([], [])).None? ==> r == (Graph([], []), Stats(0, 0, 0))
    ensures Fold(PooledGraph, rows, Graph([], [])).Some? ==>
      r.0 == KnowledgeGraph(PooledGraph, rows) && r.1 == PooledStats(stats)
  {
    match Fold(PooledGraph, rows, Graph([], []))
    case Some(g) => (g, PooledStats(stats))
    case None => (Graph([], []), Stats(0, 0, 0))
  }
}

=== FILE: options.dfy ===
/** An optional value: JavaScript's `undefined`/`null` beside a present
    value, and the result of a lookup that may find nothing. */
module Options {

  datatype Option<+T> = None | Some(value: T) {
    /** The value, or `default` when there is none. */
    function GetOr(default: T): T {
      match this
      case Some(v) => v
      case None => default
    }
  }
}

=== FILE: pooled_view.dfy ===
/** The pure parts of the pooled knowledge-graph view
    (web-interface/src/components/PooledReason.tsx): the subgraph filter
    behind the filter buttons, and the node size and colour rules. Nodes
    and links are the ones the Neo4j service returns. */
module PooledView {
  import opened Options
  import opened Text
  import Seqs
  import opened Neo4jFold

  // ---------------------------------------------------------------- filter

  /** Whether a node survives the filter `filter` (any value but "all"). */
  predicate Keep(filter: string, n: GNode) {
    if filter == "concepts" then n.kind == Some("Concept")
    else if filter == "fragments" then n.kind == Some("ReasonFragment")
    else if n.kind == Some("ReasonFragment") then n.props.nodeType == Some(filter) || n.props.kind == Some(filter)
    else false
  }

  function Keeps(filter: string): GNode -> bool {
    (n: GNode) => Keep(filter, n)
  }

  /** A link whose two ends are both among `ids`. */
  function Inside(ids: set<string>): GEdge -> bool {
    (e: GEdge) => e.source in ids && e.target in ids
  }

  /** `getFilteredData`: "all" shows the whole graph; otherwise the kept
      nodes, and the links between kept nodes. */
  function FilterGraph(filter: string, g: Graph): (r: Graph)
    ensures filter == "all" ==> r == g
    ensures filter != "all" ==> forall n :: n in r.nodes <==> n in g.nodes && Keep(filter, n)
    ensures filter != "all" ==> forall e :: e in r.edges <==>
      e in g.edges && e.source in NodeIds(r.nodes) && e.target in NodeIds(r.nodes)
  {
    if filter == "all" then g
    else
      var nodes := Seqs.Filter(Keeps(filter), g.nodes);
      Graph(nodes, Seqs.Filter(Inside(NodeIds(nodes)), g.edges))
  }

  /** Every shown link joins two shown nodes, unless the filter is "all",
      which shows the graph as it came. */
  lemma FilteredLinksClosed(filter: string, g: Graph)
    requires filter != "all"
    ensures var r := FilterGraph(filter, g);
      forall k :: 0 <= k < |r.edges| ==> r.edges[k].source in NodeIds(r.nodes) && r.edges[k].target in NodeIds(r.nodes)
  {
    var r := FilterGraph(filter, g);
    forall k | 0 <= k < |r.edges|
      ensures r.edges[k].source in NodeIds(r.nodes) && r.edges[k].target in NodeIds(r.nodes)
    {
      assert r.edges[k] in r.edges;
    }
  }

  /** The shown nodes and links keep their original order: each is an
      order-preserving subsequence of the original list, and nothing that
      passes the filter is dropped. */
  lemma FilterKeepsOrder(filter: string, g: Graph) returns (nodeIdx: seq<nat>, edgeIdx: seq<nat>)
    ensures var r := FilterGraph(filter, g);
      && Seqs.Embedding(r.nodes, g.nodes, nodeIdx)
      && Seqs.Embedding(r.edges, g.edges, edgeIdx)
    ensures filter != "all" ==> forall i :: 0 <= i < |g.nodes| && Keep(filter, g.nodes[i]) ==> i in nodeIdx
    ensures filter != "all" ==> var ids := NodeIds(FilterGraph(filter, g).nodes);
      forall i :: 0 <= i < |g.edges| && g.edges[i].source in ids && g.edges[i].target in ids ==> i in edgeIdx
  {
    if filter == "all" {
      nodeIdx := seq(|g.nodes|, i requires 0 <= i < |g.nodes| => i);
      edgeIdx := seq(|g.edges|, i requires 0 <= i < |g.edges| => i);
    } else {
      var nodes := Seqs.Filter(Keeps(filter), g.nodes);
      nodeIdx := Seqs.FilterEmbedding(Keeps(filter), g.nodes);
      edgeIdx := Seqs.FilterEmbedding(Inside(NodeIds(nodes)), g.edges);
    }
  }

  /** Pressing the same filter button twice changes nothing. */
  lemma FilterIdempotent(filter: string, g: Graph)
    ensures FilterGraph(filter, FilterGraph(filter, g)) == FilterGraph(filter, g)
  {
    if filter != "all" {
      var nodes := Seqs.Filter(Keeps(filter), g.nodes);
      Seqs.FilterIdempotent(Keeps(filter), g.nodes);
      Seqs.FilterIdempotent(Inside(NodeIds(nodes)), g.edges);
    }
  }

  /** The "concepts" view shows exactly the concept nodes, and the
      "fragments" view exactly the reasoning fragments. */
  lemma ConceptAndFragmentViews(g: Graph)
    ensures forall n :: n in FilterGraph("concepts", g).nodes <==> n in g.nodes && n.kind == Some("Concept")
    ensures forall n :: n in FilterGraph("fragments", g).nodes <==> n in g.nodes && n.kind == Some("ReasonFragment")
  {
  }

  /** Any other filter value names a fragment subtype: only fragment nodes
      whose `nodeType` or `type` equals it are shown. */
  lemma SubtypeView(filter: string, g: Graph)
    requires filter != "all" && filter != "concepts" && filter != "fragments"
    ensures forall n :: n in FilterGraph(filter, g).nodes <==>
      n in g.nodes && n.kind == Some("ReasonFragment") && (n.props.nodeType == Some(filter) || n.props.kind == Some(filter))
  {
  }

  // ---------------------------------------------------------------- size and colour

  /** `getNodeSize`. */
  function NodeSize(n: GNode): (r: nat)
    ensures r == 8 <==> n.kind == Some("Concept")
    ensures r == 6 <==> n.kind == Some("ReasonFragment")
    ensures r == 4 <==> n.kind != Some("Concept") && n.kind != Some("ReasonFragment")
  {
    if n.kind == Some("Concept") then 8
    else if n.kind == Some("ReasonFragment") then 6
    else 4
  }

  const MemoryColor := "#3B82F6"
  const EvaluationColor := "#10B981"
  const GoalColor := "#8B5CF6"
  const ActionColor := "#F59E0B"
  const ConceptColor := "#EF4444"
  const GrayColor := "#6B7280"
  const TaskColor := "#14B8A6"

  /** The fragment subtypes that have a colour of their own. */
  predicate KnownSubtype(t: string) {
    t == "memory" || t == "evaluation" || t == "goal" || t == "action"
  }

  /** `nodeColors.ReasonFragment[t]`, `None` where the table has no entry. */
  function SubtypeColor(t: Option<string>): (r: Option<string>)
    ensures r.Some? <==> t.Some? && KnownSubtype(t.value)
  {
    match t
    case None => None
    case Some(s) =>
      if s == "memory" then Some(MemoryColor)
      else if s == "evaluation" then Some(EvaluationColor)
      else if s == "goal" then Some(GoalColor)
      else if s == "action" then Some(ActionColor)
      else None
  }

  /** `nodeType || type`: the subtype a fragment is drawn as. */
  function FragmentType(n: GNode): Option<string> {
    if n.props.nodeType.Some? && n.props.nodeType.value != "" then n.props.nodeType else n.props.kind
  }

  /** `getNodeColor`. */
  function NodeColor(n: GNode): string {
    if n.kind == Some("ReasonFragment") then SubtypeColor(FragmentType(n)).GetOr(MemoryColor)
    else if n.kind == Some("Concept") then ConceptColor
    else if n.kind == Some("BrowserSession") then GrayColor
    else if n.kind == Some("Task") then TaskColor
    else GrayColor
  }

  /** A fragment is drawn in its subtype's colour when the subtype is known
      and in the memory colour otherwise; distinct known subtypes get
      distinct colours. */
  lemma FragmentColors(a: GNode, b: GNode)
    requires a.kind == Some("ReasonFragment") && b.kind == Some("ReasonFragment")
    ensures !(FragmentType(a).Some? && KnownSubtype(FragmentType(a).value)) ==> NodeColor(a) == MemoryColor
    ensures FragmentType(a).Some? && KnownSubtype(FragmentType(a).value) && FragmentType(b).Some? && KnownSubtype(FragmentType(b).value)
      ==> (NodeColor(a) == NodeColor(b) <==> FragmentType(a) == FragmentType(b))
  {
  }

  /** Outside the fragments, concepts are red, tasks teal and every other
      node type gray. */
  lemma OtherColors(n: GNode)
    requires n.kind != Some("ReasonFragment")
    ensures NodeColor(n) == ConceptColor <==> n.kind == Some("Concept")
    ensures NodeColor(n) == TaskColor <==> n.kind == Some("Task")
    ensures NodeColor(n) == GrayColor <==> n.kind != Some("Concept") && n.kind != Some("Task")
  {
  }
}

=== FILE: seqs.dfy ===
/** `Array.prototype.filter` and the order-preserving-subsequence facts the
    reducers and the graph filter rely on. */
module Seqs {

  /** `s.filter(f)`. */
  function Filter<T(!new)>(f: T -> bool, s: seq<T>): (r: seq<T>)
    ensures |r| <= |s|
    ensures forall x :: x in r <==> x in s && f(x)
  {
    if |s| == 0 then []
    else if f(s[0]) then [s[0]] + Filter(f, s[1..])
    else Filter(f, s[1..])
  }

  /** `s.map(f)`. */
  function Map<A, B>(f: A -> B, s: seq<A>): (r: seq<B>)
    ensures |r| == |s|
    ensures forall i :: 0 <= i < |s| ==> r[i] == f(s[i])
  {
    seq(|s|, i requires 0 <= i < |s| => f(s[i]))
  }

  /** Mapping distributes over concatenation. */
  lemma MapAppend<A, B>(f: A -> B, a: seq<A>, b: seq<A>)
    ensures Map(f, a + b) == Map(f, a) + Map(f, b)
  {
  }

  /** `idx` lists, in increasing order, positions of `s` whose elements
      spell out `r`. */
  ghost predicate Embedding<T>(r: seq<T>, s: seq<T>, idx: seq<nat>) {
    && |idx| == |r|
    && (forall k :: 0 <= k < |idx| ==> idx[k] < |s| && r[k] == s[idx[k]])
    && (forall k, l :: 0 <= k < l < |idx| ==> idx[k] < idx[l])
  }

  /** Every position moved one to the right. */
  function Shift(idx: seq<nat>): (r: seq<nat>)
    ensures |r| == |idx|
    ensures forall k :: 0 <= k < |idx| ==> r[k] == idx[k] + 1
  {
    seq(|idx|, k requires 0 <= k < |idx| => idx[k] + 1)
  }

  lemma ShiftEmbedding<T>(r: seq<T>, s: seq<T>, idx: seq<nat>)
    requires |s| > 0 && Embedding(r, s[1..], idx)
    ensures Embedding(r, s, Shift(idx))
    ensures Embedding([s[0]] + r, s, [0] + Shift(idx))
  {
    var sh := Shift(idx);
    forall k | 0 <= k < |sh| ensures sh[k] < |s| && r[k] == s[sh[k]] {
      assert s[1..][idx[k]] == s[idx[k] + 1];
    }
    var r2, i2 := [s[0]] + r, [0] + sh;
    forall k | 0 <= k < |i2| ensures i2[k] < |s| && r2[k] == s[i2[k]] {
      if k > 0 { assert r2[k] == r[k - 1] && i2[k] == sh[k - 1]; }
    }
    forall k, l | 0 <= k < l < |i2| ensures i2[k] < i2[l] {
      if k > 0 { assert i2[k] == sh[k - 1] && i2[l] == sh[l - 1]; }
    }
  }

  /** The filter keeps its survivors in their original order, and keeps
      every position whose element passes. */
  lemma {:induction false} FilterEmbedding<T(!new)>(f: T -> bool, s: seq<T>) returns (idx: seq<nat>)
    ensures Embedding(Filter(f, s), s, idx)
    ensures forall i :: 0 <= i < |s| && f(s[i]) ==> i in idx
  {
    if |s| == 0 {
      idx := [];
    } else {
      var rest := FilterEmbedding(f, s[1..]);
      var sh := Shift(rest);
      ShiftEmbedding(Filter(f, s[1..]), s, rest);
      idx := if f(s[0]) then [0] + sh else sh;
      forall i | 0 < i < |s| && f(s[i]) ensures i in idx {
        assert s[1..][i - 1] == s[i];
        var k :| 0 <= k < |rest| && rest[k] == i - 1;
        assert sh[k] == i;
      }
    }
  }

  /** A filter every element passes is the identity. */
  lemma {:induction false} FilterAll<T(!new)>(f: T -> bool, s: seq<T>)
    requires forall x :: x in s ==> f(x)
    ensures Filter(f, s) == s
  {
    if |s| > 0 {
      assert s[0] in s;
      assert forall x :: x in s[1..] ==> x in s;
      FilterAll(f, s[1..]);
      assert s == [s[0]] + s[1..];
    }
  }

  /** A filter no element passes is empty. */
  lemma FilterNone<T(!new)>(f: T -> bool, s: seq<T>)
    requires forall x :: x in s ==> !f(x)
    ensures Filter(f, s) == []
  {
  }

  /** Filtering twice with the same test is filtering once. */
  lemma FilterIdempotent<T(!new)>(f: T -> bool, s: seq<T>)
    ensures Filter(f, Filter(f, s)) == Filter(f, s)
  {
    FilterAll(f, Filter(f, s));
  }

  /** Filtering distributes over concatenation. */
  lemma {:induction false} FilterAppend<T(!new)>(f: T -> bool, a: seq<T>, b: seq<T>)
    ensures Filter(f, a + b) == Filter(f, a) + Filter(f, b)
  {
    if |a| == 0 {
      assert a + b == b;
    } else {
      assert (a + b)[0] == a[0] && (a + b)[1..] == a[1..] + b by {}
      FilterAppend(f, a[1..], b);
      if f(a[0]) {
        assert [a[0]] + (Filter(f, a[1..]) + Filter(f, b)) == [a[0]] + Filter(f, a[1..]) + Filter(f, b);
      }
    }
  }
}

=== FILE: store.dfy ===
/** The application store (web-interface/src/lib/store.ts): chat messages,
    the current and active browser sessions, and UI flags. Every action is a
    pure function from one state to the next; the random message id and the
    clock reading `addMessage` takes are parameters. */
module Store {
  import opened Options
  import opened Text
  import Seqs

  datatype Role = User | Assistant | System

  datatype Message = Message(
    id: string, role: Role, content: string, timestamp: int,
    sessionId: Option<string>, taskId: Option<string>)

  datatype SessionStatus = Active | Stopped

  datatype TaskStatus = TaskStarted | TaskPaused | TaskFinished | TaskStopped

  /** A browser-use task as the session carries it; the free-form
      `metadata` record is not modelled. */
  datatype Task = Task(
    id: string, sessionId: string, llm: string, task: string, status: TaskStatus,
    startedAt: string, finishedAt: Option<string>, isScheduled: bool,
    doneOutput: Option<string>, browserUseVersion: Option<string>, isSuccess: Option<bool>)

  datatype Session = Session(
    id: string, status: SessionStatus, liveUrl: Option<string>, recordUrl: Option<string>,
    publicShareUrl: Option<string>, startedAt: string, finishedAt: Option<string>, tasks: seq<Task>)

  /** `Partial<BrowserSession>`: a `Some` field is present in the update. */
  datatype SessionPatch = SessionPatch(
    id: Option<string>, status: Option<SessionStatus>, liveUrl: Option<Option<string>>,
    recordUrl: Option<Option<string>>, publicShareUrl: Option<Option<string>>,
    startedAt: Option<string>, finishedAt: Option<Option<string>>, tasks: Option<seq<Task>>)

  const NoChange := SessionPatch(None, None, None, None, None, None, None, None)

  datatype State = State(
    messages: seq<Message>, isLoading: bool, currentSession: Option<Session>,
    activeSessions: seq<Session>, showLiveBrowser: bool, selectedSessionId: Option<string>,
    isWorkflowMode: bool)

  /** The store's initial state. */
  const Initial := State([], false, None, [], false, None, false)

  /** One field of a spread: the update's value when it has the field, the
      old value when it does not. */
  predicate Spread<T(==)>(field: Option<T>, before: T, r: T) {
    match field
    case Some(v) => r == v
    case None => r == before
  }

  /** `{ ...s, ...p }`: every field present in the update replaces the
      session's, and every absent field keeps the session's value. */
  function Apply(s: Session, p: SessionPatch): (r: Session)
    ensures p == NoChange ==> r == s
    ensures Spread(p.id, s.id, r.id) && Spread(p.status, s.status, r.status)
    ensures Spread(p.liveUrl, s.liveUrl, r.liveUrl) && Spread(p.recordUrl, s.recordUrl, r.recordUrl)
    ensures Spread(p.publicShareUrl, s.publicShareUrl, r.publicShareUrl)
    ensures Spread(p.startedAt, s.startedAt, r.startedAt) && Spread(p.finishedAt, s.finishedAt, r.finishedAt)
    ensures Spread(p.tasks, s.tasks, r.tasks)
  {
    Session(
      p.id.GetOr(s.id), p.status.GetOr(s.status), p.liveUrl.GetOr(s.liveUrl), p.recordUrl.GetOr(s.recordUrl),
      p.publicShareUrl.GetOr(s.publicShareUrl), p.startedAt.GetOr(s.startedAt), p.finishedAt.GetOr(s.finishedAt),
      p.tasks.GetOr(s.tasks))
  }

  /** Applying the same update twice is applying it once. */
  lemma ApplyIdempotent(s: Session, p: SessionPatch)
    ensures Apply(Apply(s, p), p) == Apply(s, p)
  {
  }

  /** `{ ...p, ...q }`: the later update's fields win. */
  function Merge(p: SessionPatch, q: SessionPatch): (r: SessionPatch) {
    SessionPatch(
      if q.id.Some? then q.id else p.id,
      if q.status.Some? then q.status else p.status,
      if q.liveUrl.Some? then q.liveUrl else p.liveUrl,
      if q.recordUrl.Some? then q.recordUrl else p.recordUrl,
      if q.publicShareUrl.Some? then q.publicShareUrl else p.publicShareUrl,
      if q.startedAt.Some? then q.startedAt else p.startedAt,
      if q.finishedAt.Some? then q.finishedAt else p.finishedAt,
      if q.tasks.Some? then q.tasks else p.tasks)
  }

  /** Two updates in a row are the one update that merges them. */
  lemma ApplyMerge(s: Session, p: SessionPatch, q: SessionPatch)
    ensures Apply(Apply(s, p), q) == Apply(s, Merge(p, q))
  {
  }

  /** `addMessage`: appends one message built from the input, the fresh id
      and the clock reading. */
  function AddMessage(st: State, role: Role, content: string, sessionId: Option<string>, taskId: Option<string>,
                      id: string, now: int): (r: State)
    ensures |r.messages| == |st.messages| + 1 && r.messages[..|st.messages|] == st.messages
    ensures r.messages[|st.messages|] == Message(id, role, content, now, sessionId, taskId)
    ensures r == st.(messages := r.messages)
  {
    st.(messages := st.messages + [Message(id, role, content, now, sessionId, taskId)])
  }

  function SetLoading(st: State, loading: bool): (r: State)
    ensures r.isLoading == loading && r.(isLoading := st.isLoading) == st
  {
    st.(isLoading := loading)
  }

  /** `setCurrentSession`: a session also opens the live browser; `null`
      leaves the browser flag alone. */
  function SetCurrentSession(st: State, session: Option<Session>): (r: State)
    ensures r.currentSession == session
    ensures session.Some? ==> r.showLiveBrowser
    ensures session.None? ==> r.showLiveBrowser == st.showLiveBrowser
    ensures r.(currentSession := st.currentSession, showLiveBrowser := st.showLiveBrowser) == st
  {
    var s1 := st.(currentSession := session);
    if session.Some? && !s1.showLiveBrowser then s1.(showLiveBrowser := true) else s1
  }

  /** `state.activeSessions.map(s => s.id === id ? { ...s, ...p } : s)`. */
  function UpdateEach(ss: seq<Session>, id: string, p: SessionPatch): (r: seq<Session>)
    ensures |r| == |ss|
    ensures forall i :: 0 <= i < |ss| ==> r[i] == if ss[i].id == id then Apply(ss[i], p) else ss[i]
  {
    seq(|ss|, i requires 0 <= i < |ss| => if ss[i].id == id then Apply(ss[i], p) else ss[i])
  }

  /** `updateSession`: patches the active sessions and the current session
      whose id matches; nothing else changes. */
  function UpdateSession(st: State, id: string, p: SessionPatch): (r: State)
    ensures |r.activeSessions| == |st.activeSessions|
    ensures forall i :: 0 <= i < |st.activeSessions| && st.activeSessions[i].id != id ==>
              r.activeSessions[i] == st.activeSessions[i]
    ensures forall i :: 0 <= i < |st.activeSessions| && st.activeSessions[i].id == id ==>
              r.activeSessions[i] == Apply(st.activeSessions[i], p)
    ensures st.currentSession.None? ==> r.currentSession.None?
    ensures st.currentSession.Some? && st.currentSession.value.id != id ==> r.currentSession == st.currentSession
    ensures st.currentSession.Some? && st.currentSession.value.id == id ==>
              r.currentSession == Some(Apply(st.currentSession.value, p))
    ensures r.(activeSessions := st.activeSessions, currentSession := st.currentSession) == st
  {
    var current := match st.currentSession
      case Some(c) => if c.id == id then Some(Apply(c, p)) else Some(c)
      case None => None;
    st.(activeSessions := UpdateEach(st.activeSessions, id, p), currentSession := current)
  }

  /** An update that leaves the id alone can be repeated without effect. */
  lemma UpdateSessionIdempotent(st: State, id: string, p: SessionPatch)
    requires p.id.None?
    ensures UpdateSession(UpdateSession(st, id, p), id, p) == UpdateSession(st, id, p)
  {
    var a := UpdateSession(st, id, p).activeSessions;
    var b := UpdateSession(UpdateSession(st, id, p), id, p).activeSessions;
    forall i | 0 <= i < |a| ensures b[i] == a[i] {
      ApplyIdempotent(st.activeSessions[i], p);
    }
    if st.currentSession.Some? { ApplyIdempotent(st.currentSession.value, p); }
  }

  /** An empty update changes nothing. */
  lemma UpdateSessionNoChange(st: State, id: string)
    ensures UpdateSession(st, id, NoChange) == st
  {
    var r := UpdateSession(st, id, NoChange);
    assert r.activeSessions == st.activeSessions;
  }

  /** The sessions whose id differs from `id`, in order. */
  function Without(ss: seq<Session>, id: string): (r: seq<Session>)
    ensures forall s :: s in r <==> s in ss && s.id != id
  {
    Seqs.Filter((s: Session) => s.id != id, ss)
  }

  /** The number of sessions carrying `id`. */
  function CountId(ss: seq<Session>, id: string): nat {
    if |ss| == 0 then 0 else CountId(ss[1..], id) + (if ss[0].id == id then 1 else 0)
  }

  lemma {:induction false} CountIdAppend(a: seq<Session>, b: seq<Session>, id: string)
    ensures CountId(a + b, id) == CountId(a, id) + CountId(b, id)
  {
    if |a| == 0 {
      assert a + b == b;
    } else {
      assert (a + b)[1..] == a[1..] + b;
      CountIdAppend(a[1..], b, id);
    }
  }

  lemma {:induction false} CountIdZero(ss: seq<Session>, id: string)
    requires forall s :: s in ss ==> s.id != id
    ensures CountId(ss, id) == 0
  {
    if |ss| > 0 {
      assert ss[0] in ss;
      assert forall s :: s in ss[1..] ==> s in ss;
      CountIdZero(ss[1..], id);
    }
  }

  /** `addSession`: drops any session with the same id and appends the new
      one. */
  function AddSession(st: State, s: Session): (r: State)
    ensures |r.activeSessions| > 0 && r.activeSessions[|r.activeSessions| - 1] == s
    ensures r.activeSessions[..|r.activeSessions| - 1] == Without(st.activeSessions, s.id)
    ensures r == st.(activeSessions := r.activeSessions)
  {
    var r := Without(st.activeSessions, s.id) + [s];
    assert r[..|r| - 1] == Without(st.activeSessions, s.id);
    st.(activeSessions := r)
  }

  /** After `addSession` exactly one session has the id, and the others keep
      their relative order. */
  lemma AddSessionSpec(st: State, s: Session) returns (idx: seq<nat>)
    ensures CountId(AddSession(st, s).activeSessions, s.id) == 1
    ensures var r := AddSession(st, s).activeSessions;
      Seqs.Embedding(r[..|r| - 1], st.activeSessions, idx)
    ensures forall i :: 0 <= i < |st.activeSessions| && st.activeSessions[i].id != s.id ==> i in idx
  {
    var w := Without(st.activeSessions, s.id);
    CountIdZero(w, s.id);
    CountIdAppend(w, [s], s.id);
    assert CountId([s], s.id) == 1 by { assert [s][1..] == []; }
    idx := Seqs.FilterEmbedding((x: Session) => x.id != s.id, st.activeSessions);
  }

  /** Adding the same session twice is adding it once. */
  lemma AddSessionIdempotent(st: State, s: Session)
    ensures AddSession(AddSession(st, s), s) == AddSession(st, s)
  {
    var f := (x: Session) => x.id != s.id;
    var w := Without(st.activeSessions, s.id);
    assert w == Seqs.Filter(f, st.activeSessions);
    Seqs.FilterAppend(f, w, [s]);
    assert Seqs.Filter(f, [s]) == [] by { assert [s][1..] == []; }
    Seqs.FilterIdempotent(f, st.activeSessions);
  }

  /** `removeSession`: drops the sessions with the id; when the current
      session has it, the current session is cleared and the live browser
      closed. */
  function RemoveSession(st: State, id: string): (r: State)
    ensures forall s :: s in r.activeSessions <==> s in st.activeSessions && s.id != id
    ensures CountId(r.activeSessions, id) == 0
    ensures (st.currentSession.Some? && st.currentSession.value.id == id) ==> r.currentSession.None? && !r.showLiveBrowser
    ensures !(st.currentSession.Some? && st.currentSession.value.id == id) ==>
              r.currentSession == st.currentSession && r.showLiveBrowser == st.showLiveBrowser
    ensures r.(activeSessions := st.activeSessions, currentSession := st.currentSession, showLiveBrowser := st.showLiveBrowser) == st
  {
    var hit := st.currentSession.Some? && st.currentSession.value.id == id;
    var w := Without(st.activeSessions, id);
    CountIdZero(w, id);
    st.(activeSessions := w,
        currentSession := if hit then None else st.currentSession,
        showLiveBrowser := if hit then false else st.showLiveBrowser)
  }

  /** Removing a session right after adding it leaves the same sessions as
      removing it straight away. */
  lemma RemoveAfterAdd(st: State, s: Session)
    ensures RemoveSession(AddSession(st, s), s.id).activeSessions == RemoveSession(st, s.id).activeSessions
  {
    var f := (x: Session) => x.id != s.id;
    var w := Without(st.activeSessions, s.id);
    Seqs.FilterAppend(f, w, [s]);
    assert Seqs.Filter(f, [s]) == [] by { assert [s][1..] == []; }
    Seqs.FilterIdempotent(f, st.activeSessions);
  }

  function ToggleLiveBrowser(st: State): (r: State)
    ensures r.showLiveBrowser != st.showLiveBrowser
    ensures r.(showLiveBrowser := st.showLiveBrowser) == st
  {
    st.(showLiveBrowser := !st.showLiveBrowser)
  }

  function ToggleWorkflowMode(st: State): (r: State)
    ensures r.isWorkflowMode != st.isWorkflowMode
    ensures r.(isWorkflowMode := st.isWorkflowMode) == st
  {
    st.(isWorkflowMode := !st.isWorkflowMode)
  }

  function SetWorkflowMode(st: State, mode: bool): (r: State)
    ensures r.isWorkflowMode == mode && r.(isWorkflowMode := st.isWorkflowMode) == st
  {
    st.(isWorkflowMode := mode)
  }

  /** Both toggles undo themselves. */
  lemma TogglesAreInvolutions(st: State)
    ensures ToggleLiveBrowser(ToggleLiveBrowser(st)) == st
    ensures ToggleWorkflowMode(ToggleWorkflowMode(st)) == st
  {
  }

  /** `activeSessions.find(s => s.id === id)`. */
  function Find(ss: seq<Session>, id: string): (r: Option<Session>)
    ensures r.None? <==> forall i :: 0 <= i < |ss| ==> ss[i].id != id
    ensures r.Some? ==> exists i :: 0 <= i < |ss| && ss[i] == r.value && r.value.id == id &&
                                   forall j :: 0 <= j < i ==> ss[j].id != id
  {
    if |ss| == 0 then None
    else if ss[0].id == id then Some(ss[0])
    else
      var r := Find(ss[1..], id);
      assert forall i :: 1 <= i < |ss| ==> ss[i] == ss[1..][i - 1];
      r
  }

  /** `selectSession`: always records the selection; a non-empty id found
      among the active sessions also becomes the current session and opens
      the live browser. The empty string is falsy and looks nothing up. */
  function SelectSession(st: State, id: Option<string>): (r: State)
    ensures r.selectedSessionId == id
    ensures r.(selectedSessionId := st.selectedSessionId, currentSession := st.currentSession,
               showLiveBrowser := st.showLiveBrowser) == st
  {
    var s1 := st.(selectedSessionId := id);
    if id.Some? && id.value != "" then
      match Find(s1.activeSessions, id.value)
      case Some(s) => s1.(currentSession := Some(s), showLiveBrowser := true)
      case None => s1
    else s1
  }

  /** The current session changes exactly when a non-empty id names an
      active session, and then it is the first such session. */
  lemma SelectSessionSpec(st: State, id: Option<string>)
    ensures var r := SelectSession(st, id);
      var found := id.Some? && id.value != "" && exists i :: 0 <= i < |st.activeSessions| && st.activeSessions[i].id == id.value;
      && (!found ==> r.currentSession == st.currentSession && r.showLiveBrowser == st.showLiveBrowser)
      && (found ==> r.showLiveBrowser && r.currentSession == Find(st.activeSessions, id.value)
                    && r.currentSession.Some? && r.currentSession.value.id == id.value)
  {
  }

  /** Selecting the empty id only records it. */
  lemma SelectEmptyIdOnlyRecords(st: State)
    ensures SelectSession(st, Some("")) == st.(selectedSessionId := Some(""))
  {
  }

  /** `clearChat`. */
  function ClearChat(st: State): (r: State)
    ensures r.messages == [] && r.currentSession.None? && !r.showLiveBrowser
    ensures r.(messages := st.messages, currentSession := st.currentSession, showLiveBrowser := st.showLiveBrowser) == st
  {
    st.(messages := [], currentSession := None, showLiveBrowser := false)
  }

  /** `clearMessages`. */
  function ClearMessages(st: State): (r: State)
    ensures r.messages == [] && r.(messages := st.messages) == st
  {
    st.(messages := [])
  }

  /** Clearing the chat forgets every message added before it. */
  lemma ClearChatForgetsMessages(st: State, role: Role, content: string, id: string, now: int)
    ensures ClearChat(AddMessage(st, role, content, None, None, id, now)) == ClearChat(st)
  {
  }
}

=== FILE: text.dfy ===
/** String helpers with the semantics of the JavaScript built-ins the web
    interface relies on: `trim`, `\s`, `split(/\s+/)`, `join`, `substring`,
    `toLowerCase` and decimal number formatting. Strings are `seq<char>`. */
module Text {

  import opened Options

  /** ECMAScript WhiteSpace and LineTerminator code points: the set matched by
      `\s` and removed by `String.prototype.trim`. */
  predicate IsSpace(c: char) {
    || c == '\t' || c == '\n' || c == '\U{B}' || c == '\U{C}' || c == '\r' || c == ' '
    || c == '\U{A0}' || c == '\U{1680}' || ('\U{2000}' <= c <= '\U{200A}')
    || c == '\U{2028}' || c == '\U{2029}' || c == '\U{202F}' || c == '\U{205F}'
    || c == '\U{3000}' || c == '\U{FEFF}'
  }

  predicate AllSpace(s: string) {
    forall i :: 0 <= i < |s| ==> IsSpace(s[i])
  }

  predicate NoSpace(s: string) {
    forall i :: 0 <= i < |s| ==> !IsSpace(s[i])
  }

  /** A string with no whitespace at either end: what `trim` produces. */
  predicate IsTrimmed(s: string) {
    s == [] || (!IsSpace(s[0]) && !IsSpace(s[|s| - 1]))
  }

  /** `s.trimStart()`: drops the leading whitespace run. */
  function TrimStart(s: string): (r: string)
    ensures |r| <= |s| && r == s[|s| - |r|..]
    ensures AllSpace(s[..|s| - |r|])
    ensures r == [] || !IsSpace(r[0])
    ensures |s| > 0 && IsSpace(s[0]) ==> |r| < |s|
  {
    if |s| > 0 && IsSpace(s[0]) then
      var r := TrimStart(s[1..]);
      TrimStartStep(s, r);
      r
    else s
  }

  /** A leading space before an already-trimmed suffix joins the dropped run. */
  lemma TrimStartStep(s: string, r: string)
    requires |s| > 0 && IsSpace(s[0])
    requires |r| <= |s| - 1 && r == s[1..][|s| - 1 - |r|..]
    requires AllSpace(s[1..][..|s| - 1 - |r|])
    ensures r == s[|s| - |r|..] && AllSpace(s[..|s| - |r|])
  {
    assert s[..|s| - |r|] == [s[0]] + s[1..][..|s| - 1 - |r|];
    assert s[1..][|s| - 1 - |r|..] == s[|s| - |r|..];
  }

  /** `s.trimEnd()`: drops the trailing whitespace run. */
  function TrimEnd(s: string): (r: string)
    ensures |r| <= |s| && r == s[..|r|]
    ensures AllSpace(s[|r|..])
    ensures r == [] || !IsSpace(r[|r| - 1])
  {
    if |s| > 0 && IsSpace(s[|s| - 1]) then
      var r := TrimEnd(s[..|s| - 1]);
      assert s[|r|..] == s[..|s| - 1][|r|..] + [s[|s| - 1]];
      r
    else s
  }

  /** `s.trim()`: the input without its leading and trailing whitespace runs. */
  function Trim(s: string): (r: string)
    ensures IsTrimmed(r)
    ensures |r| <= |s|
    ensures r == [] <==> AllSpace(s)
    ensures exists i, j :: 0 <= i <= j <= |s| && r == s[i..j] && AllSpace(s[..i]) && AllSpace(s[j..])
  {
    var a := TrimStart(s);
    var r := TrimEnd(a);
    TrimSlices(s, a, r);
    r
  }

  /** Where the trimmed text sits in the input: a suffix `a` after a
      whitespace run, then a prefix `r` of `a` before one. */
  lemma TrimSlices(s: string, a: string, r: string)
    requires |a| <= |s| && a == s[|s| - |a|..] && AllSpace(s[..|s| - |a|])
    requires |r| <= |a| && r == a[..|r|] && AllSpace(a[|r|..])
    ensures r == s[|s| - |a|..|s| - |a| + |r|]
    ensures AllSpace(s[|s| - |a| + |r|..])
    ensures r == [] ==> AllSpace(s)
  {
    var i := |s| - |a|;
    assert s[i + |r|..] == a[|r|..];
    if r == [] {
      assert s == s[..i] + a;
    }
  }

  lemma TrimOfTrimmed(s: string)
    requires IsTrimmed(s)
    ensures Trim(s) == s
  {
  }

  /** `trim` is idempotent. */
  lemma TrimIdempotent(s: string)
    ensures Trim(Trim(s)) == Trim(s)
  {
    TrimOfTrimmed(Trim(s));
  }

  /** `s && s.trim()` is truthy: the string is there and not blank. */
  predicate Present(o: Option<string>) {
    o.Some? && !AllSpace(o.value)
  }

  /** `Present` is exactly the truthiness of the trimmed string. */
  lemma PresentIsNonEmptyTrim(o: Option<string>)
    ensures Present(o) <==> o.Some? && Trim(o.value) != ""
  {
  }

  /** The UTF-16 code units JavaScript spends on `c`: two (a surrogate
      pair) above U+FFFF, one otherwise. */
  function Units(c: char): nat {
    if c as int > 0xFFFF then 2 else 1
  }

  /** `s.length`, which counts UTF-16 code units. */
  function Utf16Length(s: string): (n: nat)
    ensures |s| <= n <= 2 * |s|
  {
    if |s| == 0 then 0 else Units(s[0]) + Utf16Length(s[1..])
  }

  /** No character of `s` needs a surrogate pair. */
  predicate Bmp(s: string) {
    forall i :: 0 <= i < |s| ==> s[i] as int <= 0xFFFF
  }

  /** Without surrogate pairs, code units and characters agree. */
  lemma {:induction false} BmpLength(s: string)
    requires Bmp(s)
    ensures Utf16Length(s) == |s|
  {
    if |s| > 0 {
      assert forall i :: 0 <= i < |s| - 1 ==> s[1..][i] == s[i + 1];
      BmpLength(s[1..]);
    }
  }

  /** `s.substring(0, n)` for a non-negative `n`: the longest prefix of whole
      characters that fits in `n` UTF-16 code units. */
  function Take(s: string, n: nat): (r: string)
    ensures r <= s
    ensures Utf16Length(r) <= n
    ensures r != s ==> Utf16Length(s[..|r| + 1]) > n
    ensures Utf16Length(s) <= n ==> r == s
  {
    if |s| == 0 || Units(s[0]) > n then
      assert s != [] ==> s[..1] == [s[0]];
      []
    else
      var rest := Take(s[1..], n - Units(s[0]));
      ConsPrefixOf(s, rest);
      Utf16Cons(s[0], rest);
      if rest != s[1..] then
        Utf16Prefix(s, |rest| + 2);
        [s[0]] + rest
      else
        [s[0]] + rest
  }

  /** A character followed by a prefix of the rest is a prefix. */
  lemma ConsPrefixOf(s: string, rest: string)
    requires |s| > 0 && rest <= s[1..]
    ensures [s[0]] + rest == s[..|rest| + 1]
    ensures rest == s[1..] ==> [s[0]] + rest == s
  {
    assert s[..|rest| + 1] == [s[0]] + s[1..][..|rest|];
  }

  lemma Utf16Cons(c: char, t: string)
    ensures Utf16Length([c] + t) == Units(c) + Utf16Length(t)
  {
    assert ([c] + t)[1..] == t;
  }

  lemma Utf16Prefix(s: string, k: nat)
    requires 0 < k <= |s|
    ensures Utf16Length(s[..k]) == Units(s[0]) + Utf16Length(s[1..][..k - 1])
  {
    assert s[..k][1..] == s[1..][..k - 1];
  }

  /** On a string without surrogate pairs `substring(0, n)` keeps the first
      `n` characters, or all of them when there are fewer. */
  lemma {:induction false} TakeBmp(s: string, n: nat)
    requires Bmp(s)
    ensures Take(s, n) == if |s| <= n then s else s[..n]
  {
    if |s| > 0 && n > 0 {
      var t := s[1..];
      assert Bmp(t) by {
        assert forall i :: 0 <= i < |s| - 1 ==> t[i] == s[i + 1];
      }
      assert Units(s[0]) == 1;
      assert Take(s, n) == [s[0]] + Take(t, n - 1);
      TakeBmp(t, n - 1);
      if |s| > n {
        ConsPrefixOf(s, t[..n - 1]);
      } else {
        ConsPrefixOf(s, t);
      }
    }
  }

  /** `s.toLowerCase()` on the ASCII letters. */
  function LowerChar(c: char): (d: char)
    ensures 'A' <= c <= 'Z' ==> d as int == c as int + 32
    ensures !('A' <= c <= 'Z') ==> d == c
  {
    if 'A' <= c <= 'Z' then (c as int + 32) as char else c
  }

  function Lower(s: string): (r: string)
    ensures |r| == |s|
    ensures forall i :: 0 <= i < |s| ==> r[i] == LowerChar(s[i])
  {
    seq(|s|, i requires 0 <= i < |s| => LowerChar(s[i]))
  }

  lemma LowerCharSpace(c: char)
    ensures IsSpace(LowerChar(c)) <==> IsSpace(c)
  {
  }

  /** `xs.join(sep)`. */
  function Join(sep: string, xs: seq<string>): (r: string)
    ensures |xs| == 0 ==> r == []
    ensures |xs| == 1 ==> r == xs[0]
    ensures |xs| > 0 ==> xs[0] <= r
    ensures |xs| >= 2 ==> xs[0] + sep <= r
    ensures |xs| > 0 ==> |r| == |Concat(xs)| + (|xs| - 1) * |sep|
  {
    if |xs| == 0 then ""
    else if |xs| == 1 then xs[0]
    else xs[0] + sep + Join(sep, xs[1..])
  }

  /** Concatenation of a list of strings. */
  function Concat(xs: seq<string>): string {
    if |xs| == 0 then "" else xs[0] + Concat(xs[1..])
  }

  /** The characters of `s` that are not whitespace, in order. */
  function DropSpaces(s: string): (r: string)
    ensures NoSpace(r)
  {
    if |s| == 0 then ""
    else if IsSpace(s[0]) then DropSpaces(s[1..])
    else [s[0]] + DropSpaces(s[1..])
  }

  /** `s.split(/\s+/)`: cuts at every maximal whitespace run. A leading run
      yields an empty first token and a trailing run an empty last token;
      the empty string yields one empty token. */
  function SplitWs(s: string): (r: seq<string>)
    ensures |r| >= 1
    ensures forall k :: 0 <= k < |r| ==> NoSpace(r[k])
  {
    SplitFrom(s, "")
  }

  /** Splitting with a partly read token `cur` in hand. */
  function SplitFrom(s: string, cur: string): (r: seq<string>)
    requires NoSpace(cur)
    ensures |r| >= 1
    ensures forall k :: 0 <= k < |r| ==> NoSpace(r[k])
    ensures cur <= r[0]
    decreases |s|
  {
    if |s| == 0 then [cur]
    else if IsSpace(s[0]) then [cur] + SplitFrom(TrimStart(s), "")
    else SplitFrom(s[1..], cur + [s[0]])
  }

  lemma DropSpacesTrimStart(s: string)
    ensures DropSpaces(TrimStart(s)) == DropSpaces(s)
  {
  }

  lemma {:induction false} SplitFromConcat(s: string, cur: string)
    requires NoSpace(cur)
    ensures Concat(SplitFrom(s, cur)) == cur + DropSpaces(s)
    decreases |s|
  {
    if |s| == 0 {
      assert Concat([cur]) == cur + Concat([]);
    } else if IsSpace(s[0]) {
      var t := TrimStart(s);
      var rest := SplitFrom(t, "");
      SplitFromConcat(t, "");
      SpaceGlue(SplitFrom(s, cur), cur, rest, DropSpaces(t), DropSpaces(s)) by {
        ConcatCons(cur, rest);
        DropSpacesTrimStart(s);
      }
    } else {
      var c, rest := s[0], s[1..];
      SplitFromConcat(rest, cur + [c]);
      CharGlue(Concat(SplitFrom(s, cur)), cur, c, DropSpaces(rest), DropSpaces(s)) by {
        assert SplitFrom(s, cur) == SplitFrom(rest, cur + [c]);
      }
    }
  }

  lemma SpaceGlue(x: seq<string>, cur: string, rest: seq<string>, d: string, ds: string)
    requires x == [cur] + rest && Concat([cur] + rest) == cur + Concat(rest)
    requires Concat(rest) == "" + d && d == ds
    ensures Concat(x) == cur + ds
  {
    assert "" + d == d;
  }

  lemma CharGlue(x: string, cur: string, c: char, d: string, ds: string)
    requires x == cur + [c] + d && ds == [c] + d
    ensures x == cur + ds
  {
  }

  lemma ConcatCons(x: string, xs: seq<string>)
    ensures Concat([x] + xs) == x + Concat(xs)
  {
    assert ([x] + xs)[1..] == xs;
  }

  /** Splitting loses exactly the whitespace: the tokens, glued back
      together, are the input's non-whitespace characters in order. */
  lemma SplitWsConcat(s: string)
    ensures Concat(SplitWs(s)) == DropSpaces(s)
  {
    SplitFromConcat(s, "");
  }

  /** `toks[0] + gaps[0] + toks[1] + ... + gaps[n - 2] + toks[n - 1]`. */
  function Weave(toks: seq<string>, gaps: seq<string>): string
    requires |toks| == |gaps| + 1
    decreases |gaps|
  {
    if |gaps| == 0 then toks[0] else toks[0] + gaps[0] + Weave(toks[1..], gaps[1..])
  }

  /** `toks` and `gaps` cut `s` at its maximal whitespace runs: `s` is the
      tokens woven with the gaps, every gap is a non-empty whitespace run,
      no token holds whitespace, and only the first and the last token may
      be empty. */
  ghost predicate CutAtSpaceRuns(s: string, toks: seq<string>, gaps: seq<string>) {
    && |toks| == |gaps| + 1
    && (forall k :: 0 <= k < |toks| ==> NoSpace(toks[k]))
    && (forall k :: 0 <= k < |gaps| ==> gaps[k] != [] && AllSpace(gaps[k]))
    && (forall k :: 0 < k < |toks| - 1 ==> toks[k] != [])
    && Weave(toks, gaps) == s
  }

  lemma {:induction false} SplitFromCuts(s: string, cur: string) returns (gaps: seq<string>)
    requires NoSpace(cur)
    ensures CutAtSpaceRuns(cur + s, SplitFrom(s, cur), gaps)
    decreases |s|
  {
    if |s| == 0 {
      gaps := [];
      assert cur + s == cur;
    } else if IsSpace(s[0]) {
      var t := TrimStart(s);
      var g2 := SplitFromCuts(t, "");
      assert "" + t == t;
      gaps := CutAfterSpaceRun(s, cur, g2);
    } else {
      gaps := SplitFromCuts(s[1..], cur + [s[0]]);
      assert cur + [s[0]] + s[1..] == cur + s;
    }
  }

  lemma WeaveCons(t: string, toks: seq<string>, g: string, gaps: seq<string>)
    requires |toks| == |gaps| + 1
    ensures Weave([t] + toks, [g] + gaps) == t + g + Weave(toks, gaps)
  {
    assert ([t] + toks)[1..] == toks && ([g] + gaps)[1..] == gaps;
  }

  /** A token and a whitespace run put in front of a cut extend it. */
  lemma CutCons(w: string, toks: seq<string>, gaps: seq<string>, t: string, g: string)
    requires CutAtSpaceRuns(w, toks, gaps)
    requires NoSpace(t) && g != [] && AllSpace(g)
    requires |toks| >= 2 ==> toks[0] != []
    ensures CutAtSpaceRuns(t + g + w, [t] + toks, [g] + gaps)
  {
    WeaveCons(t, toks, g, gaps);
    var r := [t] + toks;
    forall k | 0 < k < |r| ensures r[k] == toks[k - 1] { }
  }

  /** The cut of a string that starts with whitespace: the current token,
      the leading run as a gap, then the cut of the rest. */
  lemma CutAfterSpaceRun(s: string, cur: string, g2: seq<string>) returns (gaps: seq<string>)
    requires NoSpace(cur) && |s| > 0 && IsSpace(s[0])
    requires CutAtSpaceRuns(TrimStart(s), SplitFrom(TrimStart(s), ""), g2)
    ensures CutAtSpaceRuns(cur + s, SplitFrom(s, cur), gaps)
  {
    var t := TrimStart(s);
    var rest := SplitFrom(t, "");
    var gap := s[..|s| - |t|];
    assert SplitFrom(s, cur) == [cur] + rest;
    assert s == gap + t;
    assert |rest| >= 2 ==> rest[0] != [] by {
      if t != [] {
        assert !IsSpace(t[0]);
        assert rest == SplitFrom(t[1..], "" + [t[0]]);
      }
    }
    CutCons(t, rest, g2, cur, gap);
    assert cur + gap + t == cur + s;
    gaps := [gap] + g2;
  }

  /** `split(/\s+/)` cuts exactly at the maximal whitespace runs. */
  lemma SplitWsCuts(s: string) returns (gaps: seq<string>)
    ensures CutAtSpaceRuns(s, SplitWs(s), gaps)
  {
    gaps := SplitFromCuts(s, "");
    assert "" + s == s;
  }

  /** Two strings glued to what follows them are equal when neither holds
      whitespace and what follows each is empty or starts with whitespace. */
  lemma LongestNoSpacePrefix(a: string, b: string, c: string, d: string)
    requires a + b == c + d && NoSpace(a) && NoSpace(c)
    requires b == [] || IsSpace(b[0])
    requires d == [] || IsSpace(d[0])
    ensures a == c
  {
    assert forall i :: 0 <= i < |a| ==> (a + b)[i] == a[i];
    assert forall i :: 0 <= i < |c| ==> (c + d)[i] == c[i];
    assert |b| > 0 ==> (a + b)[|a|] == b[0];
    assert |d| > 0 ==> (c + d)[|c|] == d[0];
    assert a == (a + b)[..|a|] && c == (c + d)[..|c|];
  }

  /** Two strings glued to what follows them are equal when both are
      whitespace and what follows each is empty or starts with a character
      that is not. */
  lemma LongestSpacePrefix(a: string, b: string, c: string, d: string)
    requires a + b == c + d && AllSpace(a) && AllSpace(c)
    requires b == [] || !IsSpace(b[0])
    requires d == [] || !IsSpace(d[0])
    ensures a == c
  {
    assert forall i :: 0 <= i < |a| ==> (a + b)[i] == a[i];
    assert forall i :: 0 <= i < |c| ==> (c + d)[i] == c[i];
    assert |b| > 0 ==> (a + b)[|a|] == b[0];
    assert |d| > 0 ==> (c + d)[|c|] == d[0];
    assert a == (a + b)[..|a|] && c == (c + d)[..|c|];
  }

  /** The first gap of a cut is followed by nothing that starts with
      whitespace. */
  lemma AfterFirstGap(s: string, toks: seq<string>, gaps: seq<string>)
    requires CutAtSpaceRuns(s, toks, gaps) && |gaps| > 0
    ensures var w := Weave(toks[1..], gaps[1..]); w == [] || !IsSpace(w[0])
  {
    var w := Weave(toks[1..], gaps[1..]);
    if |gaps| > 1 {
      assert toks[1] != [] && NoSpace(toks[1]);
      assert w == toks[1] + gaps[1] + Weave(toks[2..], gaps[2..]);
      assert w[0] == toks[1][0];
    } else {
      assert w == toks[1];
    }
  }

  /** A cut at the maximal whitespace runs is unique. */
  lemma {:induction false} CutsUnique(s: string, t1: seq<string>, g1: seq<string>, t2: seq<string>, g2: seq<string>)
    requires CutAtSpaceRuns(s, t1, g1) && CutAtSpaceRuns(s, t2, g2)
    ensures t1 == t2 && g1 == g2
    decreases |g1|
  {
    var rest1 := CutFirst(s, t1, g1);
    var rest2 := CutFirst(s, t2, g2);
    LongestNoSpacePrefix(t1[0], rest1, t2[0], rest2);
    CancelHead(t1[0], rest1, rest2);
    if |g1| > 0 && |g2| > 0 {
      var w1, w2 := Weave(t1[1..], g1[1..]), Weave(t2[1..], g2[1..]);
      LongestSpacePrefix(g1[0], w1, g2[0], w2);
      CancelHead(g1[0], w1, w2);
      CutsUnique(w1, t1[1..], g1[1..], t2[1..], g2[1..]);
    }
  }

  /** A cut is its first token, then nothing or a whitespace run and the cut
      of what follows it. */
  lemma CutFirst(s: string, toks: seq<string>, gaps: seq<string>) returns (rest: string)
    requires CutAtSpaceRuns(s, toks, gaps)
    ensures s == toks[0] + rest && NoSpace(toks[0])
    ensures |gaps| == 0 ==> rest == [] && toks == [toks[0]]
    ensures |gaps| > 0 ==> rest != [] && IsSpace(rest[0])
    ensures |gaps| > 0 ==>
      var w := Weave(toks[1..], gaps[1..]);
      && rest == gaps[0] + w && AllSpace(gaps[0])
      && (w == [] || !IsSpace(w[0]))
      && CutAtSpaceRuns(w, toks[1..], gaps[1..])
      && toks == [toks[0]] + toks[1..] && gaps == [gaps[0]] + gaps[1..]
  {
    if |gaps| == 0 {
      rest := [];
    } else {
      var w := Weave(toks[1..], gaps[1..]);
      rest := gaps[0] + w;
      AfterFirstGap(s, toks, gaps);
      assert CutAtSpaceRuns(w, toks[1..], gaps[1..]) by {
        forall k | 0 < k < |toks[1..]| - 1 ensures toks[1..][k] != [] {
          assert toks[1..][k] == toks[k + 1];
        }
      }
    }
  }

  lemma CancelHead(a: string, b: string, d: string)
    requires a + b == a + d
    ensures b == d
  {
    assert b == (a + b)[|a|..] && d == (a + d)[|a|..];
  }

  /** The tokens of `split(/\s+/)` are exactly the tokens of the cut at the
      maximal whitespace runs: any such cut yields them. */
  lemma SplitWsIsTheCut(s: string, toks: seq<string>, gaps: seq<string>)
    requires CutAtSpaceRuns(s, toks, gaps)
    ensures SplitWs(s) == toks
  {
    var g := SplitWsCuts(s);
    CutsUnique(s, SplitWs(s), g, toks, gaps);
  }

  /** `n` copies of `x`. */
  function Fill(n: nat, x: string): (r: seq<string>)
    ensures |r| == n && forall k :: 0 <= k < n ==> r[k] == x
  {
    seq(n, k requires 0 <= k < n => x)
  }

  /** `xs.join(sep)` weaves the elements with copies of `sep`. */
  lemma {:induction false} JoinWeaves(sep: string, xs: seq<string>)
    requires |xs| > 0
    ensures Join(sep, xs) == Weave(xs, Fill(|xs| - 1, sep))
    decreases |xs|
  {
    if |xs| > 1 {
      JoinWeaves(sep, xs[1..]);
      assert Fill(|xs| - 1, sep)[1..] == Fill(|xs| - 2, sep);
    }
  }

  lemma {:induction false} SplitFromJoin(s: string, cur: string, rep: string)
    requires NoSpace(cur) && NoSpace(rep)
    ensures Join(rep, SplitFrom(s, cur)) == cur + ReplaceSpaceRuns(s, rep)
    decreases |s|
  {
    if |s| == 0 {
      assert cur + "" == cur;
    } else if IsSpace(s[0]) {
      SplitFromJoin(TrimStart(s), "", rep);
      JoinAfterSpaceRun(s, cur, rep);
    } else {
      SplitFromJoin(s[1..], cur + [s[0]], rep);
      SplitFromChar(s, cur);
      ReplaceChar(s, rep);
      Assoc(cur, [s[0]], ReplaceSpaceRuns(s[1..], rep));
    }
  }

  lemma SplitFromChar(s: string, cur: string)
    requires |s| > 0 && !IsSpace(s[0]) && NoSpace(cur) && NoSpace(cur + [s[0]])
    ensures SplitFrom(s, cur) == SplitFrom(s[1..], cur + [s[0]])
  {
  }

  lemma ReplaceChar(s: string, rep: string)
    requires NoSpace(rep) && |s| > 0 && !IsSpace(s[0])
    ensures ReplaceSpaceRuns(s, rep) == [s[0]] + ReplaceSpaceRuns(s[1..], rep)
  {
  }

  lemma JoinCons(sep: string, x: string, xs: seq<string>)
    requires |xs| > 0
    ensures Join(sep, [x] + xs) == x + sep + Join(sep, xs)
  {
    assert ([x] + xs)[1..] == xs;
  }

  lemma EmptyPrefix(x: string)
    ensures "" + x == x
  {
  }

  lemma SplitFromSpace(s: string, cur: string)
    requires NoSpace(cur) && |s| > 0 && IsSpace(s[0])
    ensures SplitFrom(s, cur) == [cur] + SplitFrom(TrimStart(s), "")
  {
  }

  lemma ReplaceSpace(s: string, rep: string)
    requires NoSpace(rep) && |s| > 0 && IsSpace(s[0])
    ensures ReplaceSpaceRuns(s, rep) == rep + ReplaceSpaceRuns(TrimStart(s), rep)
  {
  }

  lemma JoinAfterSpaceRun(s: string, cur: string, rep: string)
    requires NoSpace(cur) && NoSpace(rep) && |s| > 0 && IsSpace(s[0])
    requires Join(rep, SplitFrom(TrimStart(s), "")) == "" + ReplaceSpaceRuns(TrimStart(s), rep)
    ensures Join(rep, SplitFrom(s, cur)) == cur + ReplaceSpaceRuns(s, rep)
  {
    var rest := SplitFrom(TrimStart(s), "");
    var rt := ReplaceSpaceRuns(TrimStart(s), rep);
    EmptyPrefix(rt);
    SplitFromSpace(s, cur);
    ReplaceSpace(s, rep);
    JoinCons(rep, cur, rest);
    Assoc(cur, rep, rt);
  }

  lemma Assoc(a: string, b: string, c: string)
    ensures a + b + c == a + (b + c)
  {
  }

  /** `s.replace(/\s+/g, rep)` is `s.split(/\s+/).join(rep)`. */
  lemma ReplaceSpaceRunsIsSplitJoin(s: string, rep: string)
    requires NoSpace(rep)
    ensures ReplaceSpaceRuns(s, rep) == Join(rep, SplitWs(s))
  {
    SplitFromJoin(s, "", rep);
    assert "" + ReplaceSpaceRuns(s, rep) == ReplaceSpaceRuns(s, rep);
  }

  /** Replacing whitespace runs keeps every token and puts `rep` in place of
      each maximal whitespace run. */
  lemma ReplaceEachSpaceRun(s: string, rep: string) returns (toks: seq<string>, gaps: seq<string>)
    requires NoSpace(rep)
    ensures CutAtSpaceRuns(s, toks, gaps)
    ensures ReplaceSpaceRuns(s, rep) == Weave(toks, Fill(|gaps|, rep))
  {
    toks := SplitWs(s);
    gaps := SplitWsCuts(s);
    assert |toks| - 1 == |gaps|;
    ReplaceSpaceRunsIsSplitJoin(s, rep);
    JoinWeaves(rep, toks);
  }

  /** Decimal rendering of a natural number, as `String(n)` prints it. */
  function NatToString(n: nat): (r: string)
    ensures |r| >= 1
    ensures forall i :: 0 <= i < |r| ==> '0' <= r[i] <= '9'
    ensures n < 10 <==> |r| == 1
    decreases n
  {
    if n < 10 then [Digit(n)] else NatToString(n / 10) + [Digit(n % 10)]
  }

  function Digit(d: nat): (c: char)
    requires d < 10
    ensures '0' <= c <= '9'
    ensures c as int - '0' as int == d
  {
    ('0' as int + d) as char
  }

  /** Reads a decimal string back: the inverse of `NatToString`. */
  function DigitsValue(s: string): nat
    requires forall i :: 0 <= i < |s| ==> '0' <= s[i] <= '9'
  {
    if |s| == 0 then 0
    else 10 * DigitsValue(s[..|s| - 1]) + (s[|s| - 1] as int - '0' as int)
  }

  lemma {:induction false} NatToStringRoundTrip(n: nat)
    ensures DigitsValue(NatToString(n)) == n
    decreases n
  {
    var r := NatToString(n);
    if n >= 10 {
      NatToStringRoundTrip(n / 10);
      assert r[..|r| - 1] == NatToString(n / 10);
    }
  }

  /** Distinct numbers render differently. */
  lemma NatToStringInjective(m: nat, n: nat)
    requires NatToString(m) == NatToString(n)
    ensures m == n
  {
    NatToStringRoundTrip(m);
    NatToStringRoundTrip(n);
  }

  /** `String(i)` for any integer. */
  function IntToString(i: int): (r: string)
    ensures |r| >= 1
  {
    if i < 0 then "-" + NatToString(-i) else NatToString(i)
  }

  /** `s.replace(/\s+/g, rep)`: every maximal whitespace run becomes `rep`. */
  function ReplaceSpaceRuns(s: string, rep: string): (r: string)
    requires NoSpace(rep)
    ensures NoSpace(r)
    decreases |s|
  {
    if |s| == 0 then ""
    else if IsSpace(s[0]) then rep + ReplaceSpaceRuns(TrimStart(s), rep)
    else [s[0]] + ReplaceSpaceRuns(s[1..], rep)
  }

  /** A string without whitespace is left alone by the replacement. */
  lemma {:induction false} ReplaceSpaceRunsNoSpace(s: string, rep: string)
    requires NoSpace(rep) && NoSpace(s)
    ensures ReplaceSpaceRuns(s, rep) == s
    decreases |s|
  {
    if |s| > 0 {
      assert !IsSpace(s[0]);
      ReplaceSpaceRunsNoSpace(s[1..], rep);
    }
  }

  /** Index of the first `c` in `s`, if any. */
  function IndexOf(s: string, c: char): (r: Option<nat>)
    ensures r.None? <==> c !in s
    ensures r.Some? ==> r.value < |s| && s[r.value] == c && c !in s[..r.value]
  {
    if |s| == 0 then None
    else if s[0] == c then Some(0)
    else match IndexOf(s[1..], c)
      case None => None
      case Some(k) => assert s[..k + 1] == [s[0]] + s[1..][..k]; Some(k + 1)
  }

  /** Index of the last `c` in `s`, if any. */
  function LastIndexOf(s: string, c: char): (r: Option<nat>)
    ensures r.None? <==> c !in s
    ensures r.Some? ==> r.value < |s| && s[r.value] == c && c !in s[r.value + 1..]
  {
    if |s| == 0 then None
    else if s[|s| - 1] == c then Some(|s| - 1)
    else match LastIndexOf(s[..|s| - 1], c)
      case None => assert s == s[..|s| - 1] + [s[|s| - 1]]; None
      case Some(k) =>
        assert s[k + 1..] == s[..|s| - 1][k + 1..] + [s[|s| - 1]]; Some(k)
  }

  /** True when `needle` occurs in `s` at position `i`. */
  predicate OccursAt(s: string, needle: string, i: int) {
    0 <= i && i + |needle| <= |s| && s[i..i + |needle|] == needle
  }
}

=== FILE: workflow_interface.dfy ===
/** The whole-canvas prompt builder, node numbering and the run guard of the
    workflow editor (web-interface/src/components/WorkflowInterface.tsx). The
    traversal starts from every node without an incoming edge, or from the
    first node when every node has one, and shares `Walk` with the strand
    prompt. */
module WorkflowInterface {
  import opened Options
  import opened Text
  import opened FlowGraph
  import Seqs

  /** `nodes.filter(n => !hasIncomingEdge.has(n.id)).map(n => n.id)`, where
      `hasIncomingEdge` holds the target of every edge. */
  function RootIds(ns: seq<Node>, es: seq<Edge>): (r: seq<string>)
    ensures |r| <= |ns|
    ensures forall x :: x in r <==> x in Ids(ns) && x !in Targets(es)
  {
    if |ns| == 0 then []
    else
      var rest := RootIds(ns[1..], es);
      assert Ids(ns) == {ns[0].id} + Ids(ns[1..]) by {
        forall x | x in Ids(ns) ensures x in {ns[0].id} + Ids(ns[1..]) {
          var i :| 0 <= i < |ns| && ns[i].id == x;
          if i > 0 { assert ns[1..][i - 1] == ns[i]; }
        }
        forall x | x in Ids(ns[1..]) ensures x in Ids(ns) {
          var i :| 0 <= i < |ns[1..]| && ns[1..][i].id == x;
          assert ns[i + 1] == ns[1..][i];
        }
      }
      (if ns[0].id !in Targets(es) then [ns[0].id] else []) + rest
  }

  /** `n => !hasIncomingEdge.has(n.id)`. */
  function Unentered(es: seq<Edge>): Node -> bool {
    (n: Node) => n.id !in Targets(es)
  }

  /** `nodes.map(n => n.id)`. */
  function IdList(ns: seq<Node>): (r: seq<string>)
    ensures |r| == |ns| && forall k :: 0 <= k < |ns| ==> r[k] == ns[k].id
  {
    seq(|ns|, k requires 0 <= k < |ns| => ns[k].id)
  }

  /** The roots are the ids of the nodes without an incoming edge, in node
      order, repeats included. */
  lemma {:induction false} RootIdsInNodeOrder(ns: seq<Node>, es: seq<Edge>)
    ensures RootIds(ns, es) == IdList(Seqs.Filter(Unentered(es), ns))
  {
    if |ns| > 0 {
      RootIdsInNodeOrder(ns[1..], es);
      var rest := Seqs.Filter(Unentered(es), ns[1..]);
      if ns[0].id !in Targets(es) {
        assert IdList([ns[0]] + rest) == [ns[0].id] + IdList(rest);
      }
    }
  }

  /** `rootNodes.forEach(n => traverseNode(n.id))`, with `order` the ids
      visited so far. */
  function WalkRoots(es: seq<Edge>, rs: seq<string>, order: seq<string>): (r: seq<string>)
    ensures order <= r
    ensures forall t :: t in rs ==> t in r
    ensures NoDup(order) ==> NoDup(r)
    ensures ClosedFrom(es, r, |order|, r)
    ensures forall k :: |order| <= k < |r| ==> r[k] in rs || EnteredFrom(es, r, |order|, k)
    decreases |rs|
  {
    if |rs| == 0 then order
    else
      var o1 := Walk(es, rs[0], order);
      var r := WalkRoots(es, rs[1..], o1);
      EnteredAfterFirst(es, rs, order, o1, r);
      r
  }

  /** Walking the roots in turn visits in depth-first preorder from the
      roots, in their order. */
  lemma {:induction false} WalkRootsPreorder(es: seq<Edge>, rs: seq<string>, order: seq<string>)
    ensures PreorderFrom(es, rs, WalkRoots(es, rs, order), |order|)
    decreases |rs|
  {
    if |rs| == 0 {
      assert FirstUnseen(rs, order) == None;
    } else {
      var o1 := Walk(es, rs[0], order);
      WalkPreorder(es, rs[0], order);
      WalkRootsPreorder(es, rs[1..], o1);
      PreorderConcat(es, rs, order, o1, WalkRoots(es, rs, order));
    }
  }

  /** Where `generatePromptFromNodes` starts: the roots, or the first node
      when there are nodes but no roots. */
  function Starts(ns: seq<Node>, es: seq<Edge>): seq<string> {
    var roots := RootIds(ns, es);
    if |roots| == 0 && |ns| > 0 then [ns[0].id] else roots
  }

  /** The ids `generatePromptFromNodes` visits, in visit order. */
  function VisitOrder(ns: seq<Node>, es: seq<Edge>): seq<string> {
    var roots := RootIds(ns, es);
    if |roots| == 0 && |ns| > 0 then Walk(es, ns[0].id, []) else WalkRoots(es, roots, [])
  }

  /** `generatePromptFromNodes`. */
  function GeneratePromptFromNodes(ns: seq<Node>, es: seq<Edge>): string {
    Prompt(ns, VisitOrder(ns, es))
  }

  /** `r` is a depth-first visit from `starts`: each id once, every start
      visited, closed under outgoing edges, and every id that is not a start
      entered by an edge from an id visited before it. */
  ghost predicate Traversal(es: seq<Edge>, starts: seq<string>, r: seq<string>) {
    && NoDup(r)
    && (forall x :: x in starts ==> x in r)
    && (forall k, t :: 0 <= k < |r| && HasEdge(es, r[k], t) ==> t in r)
    && (forall k :: 0 <= k < |r| ==> r[k] in starts || exists j :: 0 <= j < k && HasEdge(es, r[j], r[k]))
  }

  /** The canvas traversal is a depth-first visit from `Starts`. */
  lemma VisitOrderIsTraversal(ns: seq<Node>, es: seq<Edge>)
    ensures Traversal(es, Starts(ns, es), VisitOrder(ns, es))
    ensures |ns| == 0 <==> VisitOrder(ns, es) == []
    ensures Preorder(es, Starts(ns, es), VisitOrder(ns, es))
  {
    var roots := RootIds(ns, es);
    var r := VisitOrder(ns, es);
    if |roots| == 0 && |ns| > 0 {
      WalkPreorder(es, ns[0].id, []);
    } else {
      WalkRootsPreorder(es, roots, []);
    }
    if |roots| == 0 && |ns| > 0 {
      WalkFromScratch(es, ns[0].id);
    } else {
      forall k, t | 0 <= k < |r| && HasEdge(es, r[k], t) ensures t in r {
        assert t in OutTargets(es, r[k]);
      }
      forall k | 0 <= k < |r| && r[k] !in roots ensures exists j :: 0 <= j < k && HasEdge(es, r[j], r[k]) {
        assert EnteredFrom(es, r, 0, k);
      }
      if |ns| > 0 {
        assert roots[0] in r;
      }
    }
  }

  /** The canvas prompt is the kept texts of the ids the depth-first
      preorder from `Starts` visits, joined by single spaces. */
  lemma GeneratePromptContent(ns: seq<Node>, es: seq<Edge>)
    ensures var order := VisitOrder(ns, es);
      && Preorder(es, Starts(ns, es), order)
      && (forall x :: x in Seqs.Filter(KeptIn(ns), order) ==> Kept(ns, x))
      && GeneratePromptFromNodes(ns, es) == Join(" ", TextList(ns, Seqs.Filter(KeptIn(ns), order)))
  {
    VisitOrderIsTraversal(ns, es);
    PromptContent(ns, VisitOrder(ns, es));
  }

  /** `p` follows edges from a start to its last element. */
  ghost predicate EdgePath(es: seq<Edge>, starts: seq<string>, p: seq<string>) {
    |p| > 0 && p[0] in starts && forall i :: 0 <= i < |p| - 1 ==> HasEdge(es, p[i], p[i + 1])
  }

  /** A traversal contains every id an edge path from a start reaches. */
  lemma {:induction false} TraversalComplete(es: seq<Edge>, starts: seq<string>, r: seq<string>, p: seq<string>)
    requires Traversal(es, starts, r) && EdgePath(es, starts, p)
    ensures p[|p| - 1] in r
    decreases |p|
  {
    if |p| > 1 {
      var q := p[..|p| - 1];
      assert EdgePath(es, starts, q) by {
        forall i | 0 <= i < |q| - 1 ensures HasEdge(es, q[i], q[i + 1]) {
          assert HasEdge(es, p[i], p[i + 1]);
        }
      }
      TraversalComplete(es, starts, r, q);
      var k :| 0 <= k < |r| && r[k] == q[|q| - 1];
      assert HasEdge(es, p[|p| - 2], p[|p| - 1]);
    }
  }

  /** Every id a traversal visits is reached by an edge path from a start. */
  lemma {:induction false} TraversalSound(es: seq<Edge>, starts: seq<string>, r: seq<string>, k: nat)
    returns (p: seq<string>)
    requires Traversal(es, starts, r) && k < |r|
    ensures EdgePath(es, starts, p) && p[|p| - 1] == r[k]
    decreases k
  {
    if r[k] in starts {
      p := [r[k]];
    } else {
      var j :| 0 <= j < k && HasEdge(es, r[j], r[k]);
      var q := TraversalSound(es, starts, r, j);
      p := q + [r[k]];
      forall i | 0 <= i < |p| - 1 ensures HasEdge(es, p[i], p[i + 1]) {
        if i < |q| - 1 { assert p[i] == q[i] && p[i + 1] == q[i + 1]; }
      }
    }
  }

  /** An id is visited exactly when an edge path from a start reaches it. */
  lemma VisitedIffReachable(ns: seq<Node>, es: seq<Edge>, x: string)
    ensures x in VisitOrder(ns, es) <==> exists p :: EdgePath(es, Starts(ns, es), p) && p[|p| - 1] == x
  {
    var r := VisitOrder(ns, es);
    var starts := Starts(ns, es);
    VisitOrderIsTraversal(ns, es);
    if x in r {
      var k :| 0 <= k < |r| && r[k] == x;
      var p := TraversalSound(es, starts, r, k);
    }
    if exists p :: EdgePath(es, starts, p) && p[|p| - 1] == x {
      var p :| EdgePath(es, starts, p) && p[|p| - 1] == x;
      TraversalComplete(es, starts, r, p);
    }
  }

  /** The outcome of `runWorkflow`'s first step. */
  datatype RunStart = Refused | Started(prompt: string)

  /** `runWorkflow` up to the task creation: a prompt that is blank after
      `trim` stops it with an alert; otherwise the untrimmed prompt goes on. */
  function RunWorkflow(ns: seq<Node>, es: seq<Edge>): (r: RunStart)
    ensures r.Started? ==> r.prompt == GeneratePromptFromNodes(ns, es) && Trim(r.prompt) != ""
  {
    var prompt := GeneratePromptFromNodes(ns, es);
    if Trim(prompt) == "" then Refused else Started(prompt)
  }

  /** The run is refused exactly when no visited id names a node with a
      non-blank text. */
  lemma RunRefusedIffNoText(ns: seq<Node>, es: seq<Edge>)
    ensures var order := VisitOrder(ns, es);
      RunWorkflow(ns, es).Refused? <==>
      forall k :: 0 <= k < |order| ==> Lookup(ns, order[k]).None? || !HasText(Lookup(ns, order[k]).value)
  {
    PromptBlank(ns, VisitOrder(ns, es));
  }

  /** An empty canvas can never run. */
  lemma EmptyCanvasRefused(es: seq<Edge>)
    ensures RunWorkflow([], es) == Refused
  {
    VisitOrderIsTraversal([], es);
    RunRefusedIffNoText([], es);
  }

  /** The number of nodes of the given type. */
  function CountKind(ns: seq<Node>, kind: string): (r: nat)
    ensures r <= |ns|
  {
    if |ns| == 0 then 0 else CountKind(ns[..|ns| - 1], kind) + (if ns[|ns| - 1].kind == kind then 1 else 0)
  }

  const TextPrompt: string := "textPrompt"

  /** `getNextNodeNumber`: one more than the number of text-prompt nodes. */
  function NextNodeNumber(ns: seq<Node>): (r: nat)
    ensures r >= 1
  {
    CountKind(ns, TextPrompt) + 1
  }

  /** `addTextNode`: appends an empty text-prompt node numbered
      `getNextNodeNumber()`, with id `text-<now>`. The canvas position is
      random and not modelled. */
  function AddTextNode(ns: seq<Node>, now: int): (r: seq<Node>)
    ensures |r| == |ns| + 1 && r[..|ns|] == ns
    ensures r[|ns|].kind == TextPrompt && r[|ns|].nodeNumber == Some(NextNodeNumber(ns))
    ensures !HasText(r[|ns|])
  {
    ns + [Node("text-" + IntToString(now), TextPrompt, Some(""), Some(NextNodeNumber(ns)))]
  }

  /** Adding a text node advances the next number by one, so successive
      additions are numbered 1, 2, 3, ... on a canvas of text nodes. */
  lemma AddTextNodeAdvances(ns: seq<Node>, now: int)
    ensures NextNodeNumber(AddTextNode(ns, now)) == NextNodeNumber(ns) + 1
    ensures AddTextNode(ns, now)[|ns|].nodeNumber == Some(NextNodeNumber(ns))
  {
    var r := AddTextNode(ns, now);
    assert r[..|r| - 1] == ns;
  }

  /** The next number is the length of the text-prompt filter plus one,
      which is how the editor counts. */
  lemma {:induction false} NextNodeNumberCountsTextNodes(ns: seq<Node>)
    ensures NextNodeNumber(ns) == |Seqs.Filter((n: Node) => n.kind == TextPrompt, ns)| + 1
    decreases |ns|
  {
    var f := (n: Node) => n.kind == TextPrompt;
    if |ns| > 0 {
      var init := ns[..|ns| - 1];
      var last := ns[|ns| - 1];
      NextNodeNumberCountsTextNodes(init);
      assert ns == init + [last];
      Seqs.FilterAppend(f, init, [last]);
      assert Seqs.Filter(f, [last]) == (if f(last) then [last] else []) by {
        assert [last][1..] == [];
      }
    }
  }

  /** Adding a node with some other type leaves the next number alone. */
  lemma OtherNodeKeepsNumber(ns: seq<Node>, n: Node)
    requires n.kind != TextPrompt
    ensures NextNodeNumber(ns + [n]) == NextNodeNumber(ns)
  {
    assert (ns + [n])[..|ns|] == ns;
  }
}

=== FILE: workflow_utils.dfy ===
/** Strand detection and per-strand prompts (web-interface/src/lib/workflow-utils.ts).
    A strand is a connected component of the canvas with edges taken as
    undirected; components are found with an explicit stack, starting from
    each not-yet-visited node in canvas order. */
module WorkflowUtils {
  import opened Options
  import opened Text
  import opened FlowGraph
  import Seqs

  datatype Strand = Strand(id: string, nodes: seq<Node>, rootNodeId: string)

  /** The endpoints `adjacencyList.get(n)` is offered, edge by edge: the
      target of an edge leaving `n`, then the source of an edge entering it. */
  function Adjacent(es: seq<Edge>, n: string): (r: seq<string>)
    ensures forall x :: x in r <==> HasEdge(es, n, x) || HasEdge(es, x, n)
  {
    if |es| == 0 then []
    else
      var rest := Adjacent(es[1..], n);
      assert forall a, b :: HasEdge(es, a, b) <==> es[0] == Edge(a, b) || HasEdge(es[1..], a, b);
      (if es[0].source == n then [es[0].target] else [])
      + (if es[0].target == n then [es[0].source] else [])
      + rest
  }

  /** Insertion into a `Set`: first occurrences, in order. */
  function Dedupe(xs: seq<string>): (r: seq<string>)
    ensures forall x :: x in r <==> x in xs
    ensures NoDup(r)
  {
    if |xs| == 0 then []
    else
      var init := xs[..|xs| - 1];
      assert xs == init + [xs[|xs| - 1]];
      var r := Dedupe(init);
      if xs[|xs| - 1] in r then r else r + [xs[|xs| - 1]]
  }

  /** `adjacencyList.get(n)`: only node ids have an entry, so any other id
      has no neighbours. */
  function Neighbors(ids: set<string>, es: seq<Edge>, n: string): seq<string> {
    if n in ids then Dedupe(Adjacent(es, n)) else []
  }

  /** `x` is adjacent to the node id `n`: an edge joins them, in either
      direction. `x` itself need not be a node id. */
  predicate Linked(ids: set<string>, es: seq<Edge>, n: string, x: string) {
    n in ids && (HasEdge(es, n, x) || HasEdge(es, x, n))
  }

  /** The neighbours of a node id are the far ends of the edges touching it,
      in either direction; any other id has none. */
  lemma NeighborsSpec(ids: set<string>, es: seq<Edge>, n: string, x: string)
    ensures x in Neighbors(ids, es, n) <==> Linked(ids, es, n, x)
  {
  }

  /** Between node ids the adjacency is symmetric. */
  lemma NeighborsSymmetric(ids: set<string>, es: seq<Edge>, a: string, b: string)
    requires a in ids && b in ids
    ensures b in Neighbors(ids, es, a) <==> a in Neighbors(ids, es, b)
  {
    NeighborsSpec(ids, es, a, b);
    NeighborsSpec(ids, es, b, a);
  }

  /** Every endpoint of an edge. */
  function Ends(es: seq<Edge>): (r: set<string>)
    ensures forall a, b :: HasEdge(es, a, b) ==> a in r && b in r
  {
    var r := (set i | 0 <= i < |es| :: es[i].source) + (set i | 0 <= i < |es| :: es[i].target);
    assert forall a, b :: HasEdge(es, a, b) ==> a in r && b in r by {
      forall a, b | HasEdge(es, a, b) ensures a in r && b in r {
        var i :| 0 <= i < |es| && es[i] == Edge(a, b);
        assert es[i].source == a && es[i].target == b;
      }
    }
    r
  }

  /** A walk along adjacency from `p[0]` to its last element. */
  predicate IsPath(ids: set<string>, es: seq<Edge>, p: seq<string>) {
    |p| > 0 && forall i :: 0 <= i < |p| - 1 ==> Step(ids, es, p, i)
  }

  /** The `i`-th hop of `p` follows an adjacency. */
  predicate Step(ids: set<string>, es: seq<Edge>, p: seq<string>, i: nat)
    requires i + 1 < |p|
  {
    Linked(ids, es, p[i], p[i + 1])
  }

  predicate Connects(ids: set<string>, es: seq<Edge>, p: seq<string>, a: string, b: string) {
    IsPath(ids, es, p) && p[0] == a && p[|p| - 1] == b
  }

  lemma PathExtend(ids: set<string>, es: seq<Edge>, p: seq<string>, a: string, b: string, c: string)
    requires Connects(ids, es, p, a, b) && Linked(ids, es, b, c)
    ensures Connects(ids, es, p + [c], a, c)
  {
    var q := p + [c];
    forall i | 0 <= i < |q| - 1 ensures Step(ids, es, q, i) {
      if i < |p| - 1 { assert Step(ids, es, p, i); assert q[i] == p[i] && q[i + 1] == p[i + 1]; }
    }
  }

  /** Every neighbour of a member of `v` is in `v` or still pending. */
  ghost predicate Closed(ids: set<string>, es: seq<Edge>, v: set<string>, pending: seq<string>) {
    forall x, c :: x in v && Linked(ids, es, x, c) ==> c in v || c in pending
  }

  predicate UniqueIds(ns: seq<Node>) {
    forall i, j :: 0 <= i < j < |ns| ==> ns[i].id != ns[j].id
  }

  lemma RemoveOne(u: set<string>, v: set<string>, x: string)
    requires x in u && x !in v
    ensures |u - (v + {x})| < |u - v|
  {
    assert u - v == (u - (v + {x})) + {x};
  }

  /** Every stack entry comes with a path from `start` to it. */
  ghost predicate PathsOk(ids: set<string>, es: seq<Edge>, start: string, paths: seq<seq<string>>, stack: seq<string>) {
    |paths| == |stack| && forall i :: 0 <= i < |stack| ==> Connects(ids, es, paths[i], start, stack[i])
  }

  /** Every newly visited id comes with a path from `start` to it. */
  ghost predicate ReachOk(
    ids: set<string>, es: seq<Edge>, start: string, reach: map<string, seq<string>>, visited: set<string>, visited0: set<string>)
  {
    forall x :: x in visited - visited0 ==> x in reach && Connects(ids, es, reach[x], start, x)
  }

  /** The component holds, once each, the nodes the id map gives for the
      newly visited node ids. */
  predicate ComponentOk(nodes: seq<Node>, component: seq<Node>, visited: set<string>, visited0: set<string>) {
    && Ids(component) == (visited - visited0) * Ids(nodes)
    && UniqueIds(component)
    && forall i :: 0 <= i < |component| ==> Lookup(nodes, component[i].id) == Some(component[i])
  }

  lemma SkipClosed(ids: set<string>, es: seq<Edge>, v: set<string>, rest: seq<string>, id: string)
    requires Closed(ids, es, v, rest + [id]) && id in v
    ensures Closed(ids, es, v, rest)
  {
    forall x, c | x in v && Linked(ids, es, x, c) ensures c in v || c in rest {
      assert c in v || c in rest + [id];
    }
  }

  lemma VisitClosed(ids: set<string>, es: seq<Edge>, v: set<string>, rest: seq<string>, id: string, stack: seq<string>)
    requires Closed(ids, es, v, rest + [id])
    requires rest <= stack
    requires forall c :: Linked(ids, es, id, c) ==> c in v + {id} || c in stack
    ensures Closed(ids, es, v + {id}, stack)
  {
    forall x, c | x in v + {id} && Linked(ids, es, x, c) ensures c in v + {id} || c in stack {
      if x != id {
        assert c in v || c in rest + [id];
        if c in rest { var i :| 0 <= i < |rest| && rest[i] == c; assert stack[i] == c; }
      }
    }
  }

  lemma PopPaths(ids: set<string>, es: seq<Edge>, start: string, paths: seq<seq<string>>, stack: seq<string>)
    requires PathsOk(ids, es, start, paths, stack) && |stack| > 0
    ensures PathsOk(ids, es, start, paths[..|paths| - 1], stack[..|stack| - 1])
    ensures Connects(ids, es, paths[|paths| - 1], start, stack[|stack| - 1])
  {
  }

  lemma PushPath(ids: set<string>, es: seq<Edge>, start: string, paths: seq<seq<string>>, stack: seq<string>, p: seq<string>, c: string)
    requires PathsOk(ids, es, start, paths, stack) && Connects(ids, es, p, start, c)
    ensures PathsOk(ids, es, start, paths + [p], stack + [c])
  {
  }

  lemma VisitReach(
    ids: set<string>, es: seq<Edge>, start: string, reach: map<string, seq<string>>,
    visited: set<string>, visited0: set<string>, id: string, p: seq<string>)
    requires ReachOk(ids, es, start, reach, visited, visited0) && Connects(ids, es, p, start, id)
    ensures ReachOk(ids, es, start, reach[id := p], visited + {id}, visited0)
  {
  }

  lemma AddToComponent(nodes: seq<Node>, component: seq<Node>, visited: set<string>, visited0: set<string>, id: string)
    requires ComponentOk(nodes, component, visited, visited0) && visited0 <= visited && id !in visited
    ensures Lookup(nodes, id).Some? ==> ComponentOk(nodes, component + [Lookup(nodes, id).value], visited + {id}, visited0)
    ensures Lookup(nodes, id).None? ==> ComponentOk(nodes, component, visited + {id}, visited0)
  {
    if Lookup(nodes, id).Some? {
      var c := component + [Lookup(nodes, id).value];
      assert Ids(c) == Ids(component) + {id} by {
        forall x | x in Ids(c) ensures x in Ids(component) + {id} {
          var i :| 0 <= i < |c| && c[i].id == x;
          if i < |component| { assert c[i] == component[i]; }
        }
        forall x | x in Ids(component) ensures x in Ids(c) {
          var i :| 0 <= i < |component| && component[i].id == x;
          assert c[i] == component[i];
        }
        assert c[|component|].id == id;
      }
      forall i, j | 0 <= i < j < |c| ensures c[i].id != c[j].id {
        if j == |component| { assert c[i].id in Ids(component); }
      }
    }
  }

  /** The neighbour loop: pushes, in order, each neighbour not yet visited. */
  method PushNeighbors(
    ids: set<string>, es: seq<Edge>, start: string, visited: set<string>, id: string,
    stack0: seq<string>, ghost paths0: seq<seq<string>>, ghost p: seq<string>, ghost u: set<string>)
    returns (stack: seq<string>, ghost paths: seq<seq<string>>)
    requires PathsOk(ids, es, start, paths0, stack0) && Connects(ids, es, p, start, id)
    requires forall i :: 0 <= i < |stack0| ==> stack0[i] in u
    requires Ends(es) <= u
    ensures stack0 <= stack
    ensures forall i :: 0 <= i < |stack| ==> stack[i] in u
    ensures forall c :: c in Neighbors(ids, es, id) ==> c in visited || c in stack
    ensures forall c :: Linked(ids, es, id, c) ==> c in visited || c in stack
    ensures PathsOk(ids, es, start, paths, stack)
  {
    var nbrs := Neighbors(ids, es, id);
    stack, paths := stack0, paths0;
    for j := 0 to |nbrs|
      invariant stack0 <= stack
      invariant forall i :: 0 <= i < |stack| ==> stack[i] in u
      invariant forall k :: 0 <= k < j ==> nbrs[k] in visited || nbrs[k] in stack
      invariant PathsOk(ids, es, start, paths, stack)
    {
      if nbrs[j] !in visited {
        NeighborsSpec(ids, es, id, nbrs[j]);
        PathExtend(ids, es, p, start, id, nbrs[j]);
        PushPath(ids, es, start, paths, stack, p + [nbrs[j]], nbrs[j]);
        stack := stack + [nbrs[j]];
        paths := paths + [p + [nbrs[j]]];
      }
    }
    forall c | Linked(ids, es, id, c) ensures c in visited || c in stack {
      NeighborsSpec(ids, es, id, c);
    }
  }

  /** One round of the DFS loop: pops an id; a visited id is skipped, a new
      one is marked visited and, when it names a node, joins the component
      and pushes its unvisited neighbours. */
  method PopAndVisit(
    nodes: seq<Node>, es: seq<Edge>, start: string, visited0: set<string>, ghost u: set<string>,
    stack0: seq<string>, ghost paths0: seq<seq<string>>, visited: set<string>, component0: seq<Node>,
    ghost reach0: map<string, seq<string>>)
    returns (stack: seq<string>, ghost paths: seq<seq<string>>, visited2: set<string>, component: seq<Node>,
      ghost reach: map<string, seq<string>>)
    requires |stack0| > 0
    requires u == Ids(nodes) + Ends(es)
    requires visited0 <= visited
    requires forall i :: 0 <= i < |stack0| ==> stack0[i] in u
    requires Closed(Ids(nodes), es, visited, stack0)
    requires ComponentOk(nodes, component0, visited, visited0)
    requires PathsOk(Ids(nodes), es, start, paths0, stack0)
    requires ReachOk(Ids(nodes), es, start, reach0, visited, visited0)
    ensures visited <= visited2
    ensures forall i :: 0 <= i < |stack| ==> stack[i] in u
    ensures Closed(Ids(nodes), es, visited2, stack)
    ensures ComponentOk(nodes, component, visited2, visited0)
    ensures PathsOk(Ids(nodes), es, start, paths, stack)
    ensures ReachOk(Ids(nodes), es, start, reach, visited2, visited0)
    ensures component0 <= component
    ensures stack0[|stack0| - 1] in visited2
    ensures stack0[|stack0| - 1] !in visited && stack0[|stack0| - 1] in Ids(nodes) ==>
      component == component0 + [Lookup(nodes, stack0[|stack0| - 1]).value]
    ensures |u - visited2| < |u - visited| || (visited2 == visited && |stack| < |stack0|)
  {
    var ids := Ids(nodes);
    var id := stack0[|stack0| - 1];
    var rest := stack0[..|stack0| - 1];
    assert stack0 == rest + [id];
    ghost var p := paths0[|paths0| - 1];
    PopPaths(ids, es, start, paths0, stack0);
    stack := rest;
    paths := paths0[..|paths0| - 1];
    component, reach := component0, reach0;
    if id in visited {
      SkipClosed(ids, es, visited, rest, id);
      visited2 := visited;
      return;
    }
    assert id in u;
    RemoveOne(u, visited, id);
    AddToComponent(nodes, component, visited, visited0, id);
    VisitReach(ids, es, start, reach, visited, visited0, id, p);
    visited2 := visited + {id};
    reach := reach[id := p];
    match Lookup(nodes, id) {
      case None =>
        VisitClosed(ids, es, visited, rest, id, stack);
      case Some(n) =>
        component := component + [n];
        stack, paths := PushNeighbors(ids, es, start, visited2, id, stack, paths, p, u);
        VisitClosed(ids, es, visited, rest, id, stack);
    }
  }

  /** `findConnectedComponent(start)`: pops ids off a stack, skipping visited
      ones; each newly visited id that names a node joins the component and
      pushes its unvisited neighbours. Besides the component and the grown
      visited set it returns, as ghost evidence, a path from `start` to each
      newly visited id. */
  method FindConnectedComponent(nodes: seq<Node>, es: seq<Edge>, start: string, visited0: set<string>)
    returns (component: seq<Node>, visited: set<string>, ghost reach: map<string, seq<string>>)
    requires start in Ids(nodes) && start !in visited0
    requires Closed(Ids(nodes), es, visited0, [])
    ensures visited0 <= visited && start in visited
    ensures Closed(Ids(nodes), es, visited, [])
    ensures ComponentOk(nodes, component, visited, visited0)
    ensures |component| > 0 && component[0].id == start
    ensures ReachOk(Ids(nodes), es, start, reach, visited, visited0)
  {
    ghost var u := Ids(nodes) + Ends(es);
    var stack := [start];
    ghost var paths := [[start]];
    visited := visited0;
    component := [];
    reach := map[];
    stack, paths, visited, component, reach := PopAndVisit(nodes, es, start, visited0, u, stack, paths, visited, component, reach);
    assert component == [Lookup(nodes, start).value];
    while |stack| > 0
      invariant visited0 <= visited && start in visited
      invariant forall i :: 0 <= i < |stack| ==> stack[i] in u
      invariant Closed(Ids(nodes), es, visited, stack)
      invariant ComponentOk(nodes, component, visited, visited0)
      invariant |component| > 0 && component[0].id == start
      invariant PathsOk(Ids(nodes), es, start, paths, stack)
      invariant ReachOk(Ids(nodes), es, start, reach, visited, visited0)
      decreases |u - visited|, |stack|
    {
      ghost var c := component;
      stack, paths, visited, component, reach := PopAndVisit(nodes, es, start, visited0, u, stack, paths, visited, component, reach);
      assert component[0] == c[0];
    }
  }

  /** The in-strand edge targets: `hasIncomingEdge` for a member set. */
  function Incoming(es: seq<Edge>, members: set<string>): set<string> {
    set i | 0 <= i < |es| && es[i].source in members && es[i].target in members :: es[i].target
  }

  /** `members.find(n => !hasIncomingEdge.has(n.id))`, as an index. */
  function FirstWithout(ns: seq<Node>, inc: set<string>): (r: Option<nat>)
    ensures r.None? ==> forall i :: 0 <= i < |ns| ==> ns[i].id in inc
    ensures r.Some? ==> r.value < |ns| && ns[r.value].id !in inc
                        && forall i :: 0 <= i < r.value ==> ns[i].id in inc
  {
    if |ns| == 0 then None
    else if ns[0].id !in inc then Some(0)
    else match FirstWithout(ns[1..], inc)
      case None => None
      case Some(k) => Some(k + 1)
  }

  /** The root: the first member no in-strand edge enters, else the first
      member. */
  function FindRoot(ns: seq<Node>, es: seq<Edge>): (r: string)
    requires |ns| > 0
    ensures r in Ids(ns)
    ensures var inc := Incoming(es, Ids(ns));
      exists j :: 0 <= j < |ns| && ns[j].id == r
        && (forall i :: 0 <= i < j ==> ns[i].id in inc)
        && (r !in inc || (j == 0 && forall i :: 0 <= i < |ns| ==> ns[i].id in inc))
  {
    match FirstWithout(ns, Incoming(es, Ids(ns)))
    case Some(j) => ns[j].id
    case None => ns[0].id
  }

  /** A strand without in-strand edges is rooted at its first member. */
  lemma RootWithoutEdges(ns: seq<Node>, es: seq<Edge>)
    requires |ns| > 0
    requires forall i :: 0 <= i < |es| ==> es[i].source !in Ids(ns) || es[i].target !in Ids(ns)
    ensures FindRoot(ns, es) == ns[0].id
  {
    assert Incoming(es, Ids(ns)) == {};
  }

  /** `strand-${strands.length + 1}`. */
  function StrandName(s: nat): string {
    "strand-" + NatToString(s + 1)
  }

  lemma StrandNamesDistinct(s: nat, t: nat)
    requires StrandName(s) == StrandName(t)
    ensures s == t
  {
    var a := NatToString(s + 1);
    var b := NatToString(t + 1);
    assert a == StrandName(s)[7..] && b == StrandName(t)[7..];
    NatToStringInjective(s + 1, t + 1);
  }

  /** The strands built so far are numbered in order, well formed, and
      connected (`paths` holds the witnesses). */
  ghost predicate StrandsFormed(nodes: seq<Node>, es: seq<Edge>, strands: seq<Strand>, paths: seq<seq<seq<string>>>) {
    && |paths| == |strands|
    && (forall s :: 0 <= s < |strands| ==> strands[s].id == StrandName(s))
    && (forall s :: 0 <= s < |strands| ==> WellFormed(nodes, es, strands[s]))
    && (forall s :: 0 <= s < |strands| ==> Connected(Ids(nodes), es, strands[s], paths[s]))
  }

  /** The strands hold exactly the visited node ids. */
  ghost predicate Covers(ids: set<string>, strands: seq<Strand>, visited: set<string>) {
    && (forall s :: 0 <= s < |strands| ==> Ids(strands[s].nodes) <= visited)
    && (forall x :: x in ids && x in visited ==> exists s :: 0 <= s < |strands| && x in Ids(strands[s].nodes))
  }

  /** No node id is in two strands. */
  ghost predicate Disjoint(strands: seq<Strand>) {
    forall s, t :: 0 <= s < t < |strands| ==> Ids(strands[s].nodes) !! Ids(strands[t].nodes)
  }

  /** One strand on its own: non-empty, members are the nodes the id map
      holds, each once; closed under adjacency between nodes; rooted as
      `FindRoot` says. */
  predicate WellFormed(nodes: seq<Node>, es: seq<Edge>, st: Strand) {
    var ids := Ids(nodes);
    var m := Ids(st.nodes);
    && |st.nodes| > 0
    && UniqueIds(st.nodes)
    && (forall i :: 0 <= i < |st.nodes| ==> Lookup(nodes, st.nodes[i].id) == Some(st.nodes[i]))
    && (forall a, b :: a in m && b in ids && Linked(ids, es, a, b) ==> b in m)
    && st.rootNodeId == FindRoot(st.nodes, es)
  }

  /** `ps[i]` walks along adjacency from the strand's first member to its
      `i`-th member. */
  ghost predicate Connected(ids: set<string>, es: seq<Edge>, st: Strand, ps: seq<seq<string>>) {
    |ps| == |st.nodes| && forall i :: 0 <= i < |st.nodes| ==> Connects(ids, es, ps[i], st.nodes[0].id, st.nodes[i].id)
  }

  lemma IdsSnoc(nodes: seq<Node>, k: nat)
    requires k < |nodes|
    ensures Ids(nodes[..k + 1]) == Ids(nodes[..k]) + {nodes[k].id}
  {
    var a, b := nodes[..k + 1], nodes[..k];
    forall x | x in Ids(a) ensures x in Ids(b) + {nodes[k].id} {
      var i :| 0 <= i < |a| && a[i].id == x;
      if i < k { assert a[i] == b[i]; }
    }
    forall x | x in Ids(b) ensures x in Ids(a) {
      var i :| 0 <= i < |b| && b[i].id == x;
      assert a[i] == b[i];
    }
    assert a[k] == nodes[k];
  }

  lemma LookupIds(nodes: seq<Node>, ns: seq<Node>)
    requires forall i :: 0 <= i < |ns| ==> Lookup(nodes, ns[i].id) == Some(ns[i])
    ensures Ids(ns) <= Ids(nodes)
  {
    forall x | x in Ids(ns) ensures x in Ids(nodes) {
      var i :| 0 <= i < |ns| && ns[i].id == x;
    }
  }

  /** Nodes first visited together are closed under adjacency between
      nodes: a neighbour visited earlier would have pulled them in earlier. */
  lemma ComponentClosed(ids: set<string>, es: seq<Edge>, visited: set<string>, visited2: set<string>, m: set<string>)
    requires Closed(ids, es, visited, [])
    requires Closed(ids, es, visited2, [])
    requires m == (visited2 - visited) * ids
    ensures forall a, b :: a in m && b in ids && Linked(ids, es, a, b) ==> b in m
  {
    forall a, b | a in m && b in ids && Linked(ids, es, a, b) ensures b in m {
      NeighborInComponent(ids, es, visited, visited2, m, a, b);
    }
  }

  lemma NeighborInComponent(
    ids: set<string>, es: seq<Edge>, visited: set<string>, visited2: set<string>, m: set<string>, a: string, b: string)
    requires Closed(ids, es, visited, [])
    requires Closed(ids, es, visited2, [])
    requires m == (visited2 - visited) * ids
    requires a in m && b in ids && Linked(ids, es, a, b)
    ensures b in m
  {
    assert Linked(ids, es, b, a);
  }

  /** Every member of the component is reachable from its first node. */
  lemma ComponentConnected(
    ids: set<string>, es: seq<Edge>, start: string, reach: map<string, seq<string>>,
    visited: set<string>, visited2: set<string>, st: Strand)
    returns (ps: seq<seq<string>>)
    requires ReachOk(ids, es, start, reach, visited2, visited)
    requires Ids(st.nodes) <= visited2 - visited
    requires |st.nodes| > 0 && st.nodes[0].id == start
    ensures Connected(ids, es, st, ps)
  {
    var comp := st.nodes;
    assert forall i :: 0 <= i < |comp| ==> comp[i].id in Ids(comp);
    ps := seq(|comp|, i requires 0 <= i < |comp| => reach[comp[i].id]);
  }

  /** Some strand before `s` holds `x`. */
  ghost predicate InEarlier(strands: seq<Strand>, s: nat, x: string)
    requires s <= |strands|
  {
    exists t :: 0 <= t < s && x in Ids(strands[t].nodes)
  }

  /** Strand `s` starts at `nodes[k]`, and every node before it already
      lies in an earlier strand. */
  ghost predicate FirstFresh(nodes: seq<Node>, strands: seq<Strand>, s: nat, k: nat) {
    && s < |strands| && k < |nodes| && |strands[s].nodes| > 0
    && strands[s].nodes[0].id == nodes[k].id
    && forall j :: 0 <= j < k ==> InEarlier(strands, s, nodes[j].id)
  }

  /** Strand `s` starts at the first node no earlier strand holds. */
  ghost predicate StartsFresh(nodes: seq<Node>, strands: seq<Strand>, s: nat) {
    exists k :: FirstFresh(nodes, strands, s, k)
  }

  lemma InEarlierAppend(strands: seq<Strand>, st: Strand, s: nat, x: string)
    requires s <= |strands| && InEarlier(strands, s, x)
    ensures InEarlier(strands + [st], s, x)
  {
    var t :| 0 <= t < s && x in Ids(strands[t].nodes);
    assert (strands + [st])[t] == strands[t];
  }

  /** A new strand started at the first node not yet visited keeps every
      strand starting at the first node no earlier strand holds. */
  lemma FreshAppend(nodes: seq<Node>, strands: seq<Strand>, st: Strand, k: nat, visited: set<string>)
    requires forall s :: 0 <= s < |strands| ==> StartsFresh(nodes, strands, s)
    requires k < |nodes| && |st.nodes| > 0 && st.nodes[0].id == nodes[k].id
    requires Ids(nodes[..k]) <= visited && Covers(Ids(nodes), strands, visited)
    ensures forall s :: 0 <= s < |strands| + 1 ==> StartsFresh(nodes, strands + [st], s)
  {
    var r := strands + [st];
    forall s | 0 <= s < |r| ensures StartsFresh(nodes, r, s) {
      if s < |strands| {
        assert StartsFresh(nodes, strands, s);
        var j :| FirstFresh(nodes, strands, s, j);
        assert r[s] == strands[s];
        forall i | 0 <= i < j ensures InEarlier(r, s, nodes[i].id) {
          InEarlierAppend(strands, st, s, nodes[i].id);
        }
        assert FirstFresh(nodes, r, s, j);
      } else {
        forall i | 0 <= i < k ensures InEarlier(r, s, nodes[i].id) {
          assert nodes[..k][i] == nodes[i];
          assert nodes[i].id in Ids(nodes);
          assert InEarlier(strands, s, nodes[i].id);
          InEarlierAppend(strands, st, s, nodes[i].id);
        }
        assert FirstFresh(nodes, r, s, k);
      }
    }
  }

  /** The component found from a fresh start forms a well-formed strand. */
  lemma NewStrandWellFormed(nodes: seq<Node>, es: seq<Edge>, visited: set<string>, visited2: set<string>, st: Strand)
    requires Closed(Ids(nodes), es, visited, [])
    requires Closed(Ids(nodes), es, visited2, [])
    requires ComponentOk(nodes, st.nodes, visited2, visited)
    requires |st.nodes| > 0 && st.rootNodeId == FindRoot(st.nodes, es)
    ensures WellFormed(nodes, es, st)
  {
    ComponentClosed(Ids(nodes), es, visited, visited2, Ids(st.nodes));
  }

  lemma AppendFormed(
    nodes: seq<Node>, es: seq<Edge>, strands: seq<Strand>, paths: seq<seq<seq<string>>>, st: Strand, ps: seq<seq<string>>)
    requires StrandsFormed(nodes, es, strands, paths)
    requires WellFormed(nodes, es, st) && st.id == StrandName(|strands|)
    requires Connected(Ids(nodes), es, st, ps)
    ensures StrandsFormed(nodes, es, strands + [st], paths + [ps])
  {
    AppendNamed(strands, st);
    AppendWellFormed(nodes, es, strands, st);
    AppendConnected(Ids(nodes), es, strands, paths, st, ps);
  }

  lemma AppendNamed(strands: seq<Strand>, st: Strand)
    requires forall s :: 0 <= s < |strands| ==> strands[s].id == StrandName(s)
    requires st.id == StrandName(|strands|)
    ensures forall s :: 0 <= s < |strands + [st]| ==> (strands + [st])[s].id == StrandName(s)
  {
    var r := strands + [st];
    forall s | 0 <= s < |r| ensures r[s].id == StrandName(s) {
      if s < |strands| { assert r[s] == strands[s]; } else { assert r[s] == st; }
    }
  }

  lemma AppendWellFormed(nodes: seq<Node>, es: seq<Edge>, strands: seq<Strand>, st: Strand)
    requires forall s :: 0 <= s < |strands| ==> WellFormed(nodes, es, strands[s])
    requires WellFormed(nodes, es, st)
    ensures forall s :: 0 <= s < |strands + [st]| ==> WellFormed(nodes, es, (strands + [st])[s])
  {
    var r := strands + [st];
    forall s | 0 <= s < |r| ensures WellFormed(nodes, es, r[s]) {
      if s < |strands| { assert r[s] == strands[s]; } else { assert r[s] == st; }
    }
  }

  lemma AppendConnected(
    ids: set<string>, es: seq<Edge>, strands: seq<Strand>, paths: seq<seq<seq<string>>>, st: Strand, ps: seq<seq<string>>)
    requires |paths| == |strands|
    requires forall s :: 0 <= s < |strands| ==> Connected(ids, es, strands[s], paths[s])
    requires Connected(ids, es, st, ps)
    ensures forall s :: 0 <= s < |strands + [st]| ==> Connected(ids, es, (strands + [st])[s], (paths + [ps])[s])
  {
    var r, q := strands + [st], paths + [ps];
    forall s | 0 <= s < |r| ensures Connected(ids, es, r[s], q[s]) {
      if s < |strands| {
        assert r[s] == strands[s] && q[s] == paths[s];
      } else {
        assert r[s] == st && q[s] == ps;
      }
    }
  }

  lemma AppendCovers(ids: set<string>, strands: seq<Strand>, visited: set<string>, st: Strand, visited2: set<string>)
    requires Covers(ids, strands, visited)
    requires visited <= visited2
    requires Ids(st.nodes) == (visited2 - visited) * ids
    ensures Covers(ids, strands + [st], visited2)
  {
    var r := strands + [st];
    forall s | 0 <= s < |r| ensures Ids(r[s].nodes) <= visited2 {
      if s < |strands| { assert r[s] == strands[s]; }
    }
    forall x | x in ids && x in visited2 ensures exists s :: 0 <= s < |r| && x in Ids(r[s].nodes) {
      if x in visited {
        var s :| 0 <= s < |strands| && x in Ids(strands[s].nodes);
        assert r[s] == strands[s];
      } else {
        assert x in Ids(r[|strands|].nodes);
      }
    }
  }

  lemma AppendDisjoint(ids: set<string>, strands: seq<Strand>, visited: set<string>, st: Strand, visited2: set<string>)
    requires Disjoint(strands)
    requires forall s :: 0 <= s < |strands| ==> Ids(strands[s].nodes) <= visited
    requires Ids(st.nodes) == (visited2 - visited) * ids
    ensures Disjoint(strands + [st])
  {
    var r := strands + [st];
    forall s, t | 0 <= s < t < |r| ensures Ids(r[s].nodes) !! Ids(r[t].nodes) {
      assert r[s] == strands[s];
      if t < |strands| { assert r[t] == strands[t]; }
    }
  }

  /** One round of the outer loop: the component of an unvisited node id
      becomes the next strand. */
  method NewStrand(
    nodes: seq<Node>, es: seq<Edge>, strands: seq<Strand>, ghost paths: seq<seq<seq<string>>>,
    visited: set<string>, k: nat)
    returns (strands2: seq<Strand>, ghost paths2: seq<seq<seq<string>>>, visited2: set<string>)
    requires k < |nodes| && nodes[k].id !in visited
    requires Ids(nodes[..k]) <= visited
    requires forall s :: 0 <= s < |strands| ==> StartsFresh(nodes, strands, s)
    requires Closed(Ids(nodes), es, visited, [])
    requires StrandsFormed(nodes, es, strands, paths)
    requires Covers(Ids(nodes), strands, visited)
    requires Disjoint(strands)
    ensures visited <= visited2 && nodes[k].id in visited2
    ensures Closed(Ids(nodes), es, visited2, [])
    ensures StrandsFormed(nodes, es, strands2, paths2)
    ensures Covers(Ids(nodes), strands2, visited2)
    ensures Disjoint(strands2)
    ensures |strands2| == |strands| + 1 && strands2[..|strands|] == strands
    ensures strands2[|strands|].nodes[0].id == nodes[k].id
    ensures forall s :: 0 <= s < |strands2| ==> StartsFresh(nodes, strands2, s)
  {
    var start := nodes[k].id;
    var comp;
    ghost var reach;
    comp, visited2, reach := FindConnectedComponent(nodes, es, start, visited);
    // `componentNodes.length > 0` always holds: the start is a node.
    var st := Strand(StrandName(|strands|), comp, FindRoot(comp, es));
    NewStrandWellFormed(nodes, es, visited, visited2, st);
    ghost var ps := ComponentConnected(Ids(nodes), es, start, reach, visited, visited2, st);
    AppendFormed(nodes, es, strands, paths, st, ps);
    AppendCovers(Ids(nodes), strands, visited, st, visited2);
    AppendDisjoint(Ids(nodes), strands, visited, st, visited2);
    FreshAppend(nodes, strands, st, k, visited);
    strands2 := strands + [st];
    paths2 := paths + [ps];
  }

  /** `detectNodeStrands`: the strands partition the node ids, each is
      closed under adjacency and connected (the ghost `paths` are the
      witnesses), strands are numbered in order, and each root follows the
      first-member-without-incoming-edge rule. */
  method DetectNodeStrands(nodes: seq<Node>, es: seq<Edge>) returns (strands: seq<Strand>, ghost paths: seq<seq<seq<string>>>)
    ensures |nodes| == 0 ==> strands == []
    ensures forall s :: 0 <= s < |strands| ==> strands[s].id == StrandName(s)
    ensures forall s :: 0 <= s < |strands| ==> WellFormed(nodes, es, strands[s])
    ensures forall x :: x in Ids(nodes) ==> exists s :: 0 <= s < |strands| && x in Ids(strands[s].nodes)
    ensures forall s, t :: 0 <= s < t < |strands| ==> Ids(strands[s].nodes) !! Ids(strands[t].nodes)
    ensures |paths| == |strands| && forall s :: 0 <= s < |strands| ==> Connected(Ids(nodes), es, strands[s], paths[s])
    ensures forall s :: 0 <= s < |strands| ==> StartsFresh(nodes, strands, s)
  {
    paths := [];
    if |nodes| == 0 {
      return [], paths;
    }
    var visited: set<string> := {};
    strands := [];
    for k := 0 to |nodes|
      invariant Closed(Ids(nodes), es, visited, [])
      invariant Ids(nodes[..k]) <= visited
      invariant StrandsFormed(nodes, es, strands, paths)
      invariant Covers(Ids(nodes), strands, visited)
      invariant Disjoint(strands)
      invariant forall s :: 0 <= s < |strands| ==> StartsFresh(nodes, strands, s)
    {
      IdsSnoc(nodes, k);
      if nodes[k].id !in visited {
        strands, paths, visited := NewStrand(nodes, es, strands, paths, visited, k);
      }
    }
    assert nodes[..|nodes|] == nodes;
  }

  /** Two nodes joined by an edge always land in the same strand. */
  lemma EdgeWithinStrand(nodes: seq<Node>, es: seq<Edge>, st: Strand, e: Edge)
    requires WellFormed(nodes, es, st)
    requires e in es && e.source in Ids(nodes) && e.target in Ids(nodes)
    ensures e.source in Ids(st.nodes) <==> e.target in Ids(st.nodes)
  {
    assert HasEdge(es, e.source, e.target);
    assert Linked(Ids(nodes), es, e.source, e.target) && Linked(Ids(nodes), es, e.target, e.source);
  }

  /** The edges `generatePromptFromStrand` may follow: those into a member. */
  function StrandEdges(es: seq<Edge>, members: set<string>): (r: seq<Edge>)
    ensures forall e :: e in r <==> e in es && e.target in members
  {
    if |es| == 0 then []
    else if es[0].target in members then [es[0]] + StrandEdges(es[1..], members)
    else StrandEdges(es[1..], members)
  }

  /** `e => nodeMap.has(e.target)`. */
  function Into(members: set<string>): Edge -> bool {
    (e: Edge) => e.target in members
  }

  /** The followable edges keep the edge order. */
  lemma {:induction false} StrandEdgesInOrder(es: seq<Edge>, members: set<string>)
    ensures StrandEdges(es, members) == Seqs.Filter(Into(members), es)
  {
    if |es| > 0 {
      StrandEdgesInOrder(es[1..], members);
    }
  }

  /** The order in which `generatePromptFromStrand` visits ids. */
  function StrandOrder(st: Strand, es: seq<Edge>): seq<string> {
    Walk(StrandEdges(es, Ids(st.nodes)), st.rootNodeId, [])
  }

  /** `generatePromptFromStrand`. */
  function GeneratePromptFromStrand(st: Strand, es: seq<Edge>): string {
    Prompt(st.nodes, StrandOrder(st, es))
  }

  /** The strand walk starts at the root, visits each id once, stays inside
      the strand, and follows every in-strand edge out of a visited id. */
  lemma StrandWalk(st: Strand, es: seq<Edge>)
    requires st.rootNodeId in Ids(st.nodes)
    ensures var order := StrandOrder(st, es);
      && |order| > 0 && order[0] == st.rootNodeId && NoDup(order)
      && (forall k :: 0 <= k < |order| ==> order[k] in Ids(st.nodes))
      && (forall k, e :: 0 <= k < |order| && e in es && e.source == order[k] && e.target in Ids(st.nodes) ==> e.target in order)
      && Preorder(StrandEdges(es, Ids(st.nodes)), [st.rootNodeId], order)
  {
    var fes := StrandEdges(es, Ids(st.nodes));
    var order := StrandOrder(st, es);
    WalkFromScratch(fes, st.rootNodeId);
    forall k | 0 <= k < |order| ensures order[k] in Ids(st.nodes) {
      if order[k] != st.rootNodeId {
        var i :| 0 <= i < |fes| && fes[i].target == order[k];
        assert fes[i] in fes;
      }
    }
    forall k, e | 0 <= k < |order| && e in es && e.source == order[k] && e.target in Ids(st.nodes)
      ensures e.target in order
    {
      assert HasEdge(fes, order[k], e.target);
    }
  }

  /** The strand prompt is the kept texts of the ids the depth-first
      preorder from the root visits, following only edges into a member in
      edge order, joined by single spaces. */
  lemma StrandPromptContent(st: Strand, es: seq<Edge>)
    ensures var fes := StrandEdges(es, Ids(st.nodes));
      var order := StrandOrder(st, es);
      && fes == Seqs.Filter(Into(Ids(st.nodes)), es)
      && Preorder(fes, [st.rootNodeId], order)
      && (forall x :: x in Seqs.Filter(KeptIn(st.nodes), order) ==> Kept(st.nodes, x))
      && GeneratePromptFromStrand(st, es) == Join(" ", TextList(st.nodes, Seqs.Filter(KeptIn(st.nodes), order)))
  {
    StrandEdgesInOrder(es, Ids(st.nodes));
    WalkPreorder(StrandEdges(es, Ids(st.nodes)), st.rootNodeId, []);
    PromptContent(st.nodes, StrandOrder(st, es));
  }

  /** The strand prompt is blank exactly when no id the walk visits names a
      member with a non-blank text. */
  lemma StrandPromptBlank(st: Strand, es: seq<Edge>)
    ensures var order := StrandOrder(st, es);
      Trim(GeneratePromptFromStrand(st, es)) == "" <==>
      forall k :: 0 <= k < |order| ==> Lookup(st.nodes, order[k]).None? || !HasText(Lookup(st.nodes, order[k]).value)
  {
    PromptBlank(st.nodes, StrandOrder(st, es));
  }
}
